=== FILE: README.md ===
# HandBrake picture settings and plist presets in Dafny

This project models two parts of HandBrake's Windows front end and proves
properties of the models.

**The picture settings panel** (`PictureSettingsViewModel`). Each property
setter of the panel is a pure transition on a `Panel`. A panel holds:

- the scanned title's frame: resolution, pixel aspect and crop;
- the encode task's picture fields: anamorphic mode, modulus, keep-aspect
  flag, width, height, display width and pixel aspect;
- the display-size label and the control flags.

The panel's helpers are the modulus rounding, the crop evening, the cap
at the source size, and the per-mode display-size formulas. They are
written with the C# semantics they depend on:

- the truncating `%` on `double` and `int`;
- `(int)` truncation;
- `Math.Round` rounding half to even;
- the unchecked 32-bit wrap-around of `int` addition in the crop evening,
  and of the `int` subtraction that gives the cropped width and height.

A `double` is a `Double`: an exact real, an infinity or NaN. Every setter
is total, as in the source. A division by zero gives an infinity or NaN,
as IEEE 754 does. `(int)` of an infinity or NaN gives `CastOfNonFinite`,
the least 32-bit integer, which is what the x86 and x64 conversion
instruction returns. So a panel with no title, a zero pixel aspect, a
zero modulus or a crop that leaves no picture still has a display size.
The strict and loose formulas take the cropped size `Cropped(f)` and the
pixel aspect, as the source's locals `croppedWidth` and `croppedHeight`
hold them after the wrap. `Visible(c)` names a cropped size with at least
one column and one row. `Loaded(f)` names the frames in which the
keep-aspect formulas stay finite: a positive frame, pixel aspect and
cropped picture. The lemmas that relate the `double` evaluation to the
exact formulas assume these.

**The plist preset converter** (`PlistUtility`):

- **Import.** A plist dictionary is a sequence of key/value text pairs.
  The import's `switch` becomes `Apply`, and the loop becomes a fold,
  `Fold`, over an `ImportState`. The state holds the task being built plus
  the loop's locals `useFilters`, `qualityMode` and `pictureSettingsMode`.
  `Finish` is the code after the loop: the quality mode, the filter reset
  and the maximum-size swap. `int.Parse` and a throwing `double.Parse` are
  `Result`s, so an import either succeeds or fails.
- **Sections.** The encode task's fields are grouped as the converter
  groups them: output, picture, filters and video, plus the chapter
  markers, encoder options and passthru flags. The keys fall into the same
  sections, with the general keys (name, description, the picture settings
  flags, the quality type) and the keys the import ignores as two more.
  `Apply` sends each key to the case function of its section.
- **Export.** `AddEncodeSettings` is a pure function from a preset to the
  elements it writes, in the order it writes them. Each element is a key,
  an element type and a value text.
- **Round trips.** The re-import theorems follow an exported preset back
  through the import.

Module layout:

- `wrappers.dfy`: `Nullable` (C# `T?`) and `Result` (a computation that may throw).
- `numerics.dfy`: the C# arithmetic the picture panel relies on.
- `int_text.dfy`: `int.ToString` and `int.Parse`.
- `encoding_types.dfy`: `Anamorphic` and `Cropping`, shared by both parts.
- Picture panel:
  - `picture_math.dfy`: `GetModulusValue`, `CorrectForModulus` and `getRes`.
  - `picture_geometry.dfy`: the display-size formulas.
  - `picture_settings.dfy`: the panel and its setters.
  - `picture_properties.dfy`: properties that relate several calls.
- Plist converter:
  - `plist_preset.dfy`: the preset vocabulary and the key names.
  - `plist_import.dfy`: the import.
  - `plist_export.dfy`: the export.
  - `plist_properties.dfy`: properties of the import and of the code tables.
  - `plist_reimport.dfy`: export followed by import.

Behaviour at the edges, as the code has it:

- **Modulus rounding.** The code returns a `double` and returns 0 for a
  null modulus. For a negative value the C# remainder is negative, so the
  code rounds up within one step.
- **Crop evening.** An odd negative crop value moves toward the old value,
  not away from it.
- **Zero modulus.** A zero modulus is not corrected. The code divides by
  it, so the modulus rounding gives NaN.
- **Crop overflow.** Evening an odd crop of 2^31 - 1 upward wraps to
  -2^31.
- **Over-crop.** A crop setter accepts any value, including one that
  leaves no picture. Strict on a 1080-line title cropped by 1080 rows
  shows "1920x0".
- **Cropped size overflow.** The cropped width and height are unchecked
  `int` subtractions. A top crop of -2^31 on a 1080-line title wraps the
  cropped height to -2147482568, and Strict shows that as the height.
- **Height edit without a title.** Under None with keep-aspect, the height
  adjustment divides zero by zero. The width becomes the cast of NaN.
- **Clamping.** The width and height setters cap at the source
  resolution, not at the preset's maximum size.
- **Height edit.** Only `Custom` refreshes the label after a height edit.
- **Crop edit.** A crop edit only refreshes the label; it never changes
  the width or height.

## Model

| member | source | states |
|---|---|---|
| PictureMath.GetModulusValue | win/CS/HandBrakeWPF/ViewModels/PictureSettingsViewModel.cs:942-959 | no modulus gives 0; the result is always a multiple of the modulus; a multiple is returned unchanged; for a non-negative value the result is non-negative and within half a modulus of it |
| Numerics.DMul | win/CS/HandBrakeWPF/ViewModels/PictureSettingsViewModel.cs:840 | C# `double` product: exact on finite values, NaN when either side is NaN, and an infinity times zero is NaN |
| Numerics.DDiv | win/CS/HandBrakeWPF/ViewModels/PictureSettingsViewModel.cs:837 | C# `double` quotient: exact for a nonzero finite divisor; over zero it is NaN exactly when the dividend is zero and infinite otherwise; NaN propagates |
| Numerics.DAdd | win/CS/HandBrakeWPF/ViewModels/PictureSettingsViewModel.cs:867 | adding the constant 0.5 keeps a value finite, infinite or NaN as it was and shifts a finite value by the constant |
| Numerics.DRound | win/CS/HandBrakeWPF/ViewModels/PictureSettingsViewModel.cs:856 | `Math.Round(x, 0)`: a finite result within 0.5 of a finite input; an infinity or NaN is returned unchanged |
| Numerics.DToInt | win/CS/HandBrakeWPF/ViewModels/PictureSettingsViewModel.cs:882 | the `(int)` cast: truncation toward zero for a finite value, the least 32-bit integer for NaN or an infinity |
| Numerics.Trunc | win/CS/HandBrakeWPF/ViewModels/PictureSettingsViewModel.cs:895 | `Math.Truncate` and the `(int)` cast: the result lies between zero and the value, less than one away from it |
| Numerics.DoubleRem | win/CS/HandBrakeWPF/ViewModels/PictureSettingsViewModel.cs:949 | C# `%` on `double` with a positive divisor: the remainder has the dividend's sign and is smaller in magnitude than the divisor |
| Numerics.IntRem | win/CS/HandBrakeWPF/ViewModels/PictureSettingsViewModel.cs:916 | C# `%` on `int`: the remainder has the dividend's sign and is smaller in magnitude than the divisor |
| Numerics.RoundHalfEven | win/CS/HandBrakeWPF/ViewModels/PictureSettingsViewModel.cs:856 | `Math.Round` with the default midpoint rule: within 0.5 of the input, and an even integer when exactly halfway |
| Numerics.CastRounded | win/CS/HandBrakeWPF/ViewModels/PictureSettingsViewModel.cs:856-857 | casting a rounded finite value gives the rounded integer |
| PictureMath.GetModulusValueDouble | win/CS/HandBrakeWPF/ViewModels/PictureSettingsViewModel.cs:942-959 | on a `double`: no modulus gives 0; a zero modulus, an infinity or NaN gives NaN; otherwise the result is the finite rounding, a multiple of the modulus |
| PictureMath.GetModulusValueNearest | win/CS/HandBrakeWPF/ViewModels/PictureSettingsViewModel.cs:942-959 | for a non-negative value, no multiple of the modulus is nearer than the result, and of two equally near multiples the result is the larger (ties round up) |
| PictureMath.GetModulusValueNegative | win/CS/HandBrakeWPF/ViewModels/PictureSettingsViewModel.cs:942-959 | for a negative value the C# remainder is negative, so the result is the least multiple at or above the value, less than one modulus away |
| PictureMath.GetModulusValueExamples | win/CS/HandBrakeWPF/ViewModels/PictureSettingsViewModel.cs:942-959 | 1000 at modulus 16 gives 1008 (a tie rounds up), 720.5 gives 720, and no modulus gives 0 |
| PictureMath.GetModulusValueExamples1080 | win/CS/HandBrakeWPF/ViewModels/PictureSettingsViewModel.cs:942-959 | 1080.5 at modulus 16 gives 1088, while 1920 and 1280 are already multiples and stay |
| PictureMath.CorrectForModulus | win/CS/HandBrakeWPF/ViewModels/PictureSettingsViewModel.cs:914-923 | the result is even and an even value is kept. Evening 2^31 - 1 upward wraps to -2^31; otherwise the result moves by at most one, and for a non-negative value it never moves back toward the old value |
| PictureMath.CorrectForModulusNegative | win/CS/HandBrakeWPF/ViewModels/PictureSettingsViewModel.cs:914-923 | an odd negative value moves down exactly when it grew and up otherwise, because the C# remainder is -1 |
| IntText.WrapInt32 | win/CS/HandBrakeWPF/ViewModels/PictureSettingsViewModel.cs:914-923 | C# unchecked `int` addition: an in-range value is kept, and the result differs from the exact sum by a multiple of 2^32 |
| PictureMath.GetRes | win/CS/HandBrakeWPF/ViewModels/PictureSettingsViewModel.cs:1081-1093 | the result is the smaller of the value and the cap |
| PictureGeometry.CroppedWidth | win/CS/HandBrakeWPF/ViewModels/PictureSettingsViewModel.cs:835 | the cropped width is a 32-bit value, and it is the exact difference of the source width and the two side crops whenever that difference fits in 32 bits |
| PictureGeometry.CroppedHeight | win/CS/HandBrakeWPF/ViewModels/PictureSettingsViewModel.cs:836 | the cropped height is a 32-bit value, and it is the exact difference of the source height and the top and bottom crops whenever that difference fits in 32 bits |
| PictureGeometry.CalculateAnamorphicSizes | win/CS/HandBrakeWPF/ViewModels/PictureSettingsViewModel.cs:827-900 | no title gives 0x0. Strict and None (by the default fall-through) give the cropped height as wrapped to 32 bits and the source display width rounded half to even, or the cast of NaN for a zero pixel aspect height. Loose gives 0x0 without a modulus, and a NaN height with a zero modulus or no cropped columns. Custom gives the display width and the custom height |
| PictureGeometry.SourceAspect | win/CS/HandBrakeWPF/ViewModels/PictureSettingsViewModel.cs:543-550 | each component of the display aspect pair is zero exactly when the pixel aspect or the resolution component is |
| PictureGeometry.SourceDisplayWidth | win/CS/HandBrakeWPF/ViewModels/PictureSettingsViewModel.cs:840 | for a cropped size, the source display width times the pixel aspect height is the cropped width times the pixel aspect width |
| PictureGeometry.StrictSize | win/CS/HandBrakeWPF/ViewModels/PictureSettingsViewModel.cs:851-858 | for a cropped size, the height is the cropped height; the width is within a half of the source display width, even on a tie, or the cast of NaN for a zero pixel aspect height |
| PictureGeometry.LooseSize | win/CS/HandBrakeWPF/ViewModels/PictureSettingsViewModel.cs:863-882 | for a cropped size: no modulus gives 0x0; a zero modulus or no cropped columns gives width 0 (the NaN guard) and the cast of NaN as height |
| PictureGeometry.CustomHeight | win/CS/HandBrakeWPF/ViewModels/PictureSettingsViewModel.cs:884-898 | the custom-mode height is 0 without a modulus, the cast of NaN for a zero modulus, and otherwise a multiple of the modulus that is the height itself when already a multiple |
| PictureGeometry.LooseWidth | win/CS/HandBrakeWPF/ViewModels/PictureSettingsViewModel.cs:866 | the loose output width is 0 without a modulus and otherwise a multiple of the modulus |
| PictureGeometry.LooseHeight | win/CS/HandBrakeWPF/ViewModels/PictureSettingsViewModel.cs:866-868 | the loose-mode output height is a multiple of the modulus |
| PictureGeometry.LooseDisplayWidth | win/CS/HandBrakeWPF/ViewModels/PictureSettingsViewModel.cs:873-880 | the loose display width is 0 for a zero output width, and otherwise times the cropped height equals the output height times the source display width |
| PictureGeometry.PixelAspectWidth | win/CS/HandBrakeWPF/ViewModels/PictureSettingsViewModel.cs:873 | the pixel aspect width times the cropped height is the output height times the source display width |
| PictureGeometry.GuardedScale | win/CS/HandBrakeWPF/ViewModels/PictureSettingsViewModel.cs:873-880 | the loose display width cancels the output width when it is nonzero and is 0 where the source's formula gives NaN |
| PictureGeometry.KeptHeight | win/CS/HandBrakeWPF/ViewModels/PictureSettingsViewModel.cs:1032-1044 | the keep-aspect height is 0 without a modulus, the cast of NaN for a zero modulus or divisor, and otherwise the keep-aspect formula rounded to the modulus, a multiple of it |
| PictureGeometry.KeptWidth | win/CS/HandBrakeWPF/ViewModels/PictureSettingsViewModel.cs:974-986 | the keep-aspect width is 0 without a modulus, the cast of NaN for a zero modulus or divisor, and otherwise the keep-aspect formula rounded to the modulus, a multiple of it |
| PictureGeometry.HeightForWidth | win/CS/HandBrakeWPF/ViewModels/PictureSettingsViewModel.cs:1040-1042 | the keep-aspect height times its divisor (source height, aspect width, cropped width) is its dividend (width, source width, aspect height, cropped height) |
| PictureGeometry.WidthForHeight | win/CS/HandBrakeWPF/ViewModels/PictureSettingsViewModel.cs:980-982 | the keep-aspect width times its divisor (source width, aspect height, cropped height) is its dividend (height, source height, aspect width, cropped width) |
| PictureGeometry.LoadedDivisors | win/CS/HandBrakeWPF/ViewModels/PictureSettingsViewModel.cs:980-982 | for a loaded title both keep-aspect divisors are positive, so neither formula divides by zero |
| PictureSettings.Label | win/CS/HandBrakeWPF/ViewModels/PictureSettingsViewModel.cs:1006-1014 | the label says "No Title Selected" exactly when the source resolution is empty |
| PictureSettings.SetDisplaySize | win/CS/HandBrakeWPF/ViewModels/PictureSettingsViewModel.cs:1006-1014 | refreshes the label to agree with the picture and changes nothing else |
| PictureSettings.AdjustForWidth | win/CS/HandBrakeWPF/ViewModels/PictureSettingsViewModel.cs:1019-1067 | caps the width at the source width and changes only width and height. Strict zeroes both. Loose zeroes the height. Custom, and None without keep-aspect, keep the height. None with keep-aspect sets the keep-aspect height |
| PictureSettings.WidthAdjust | win/CS/HandBrakeWPF/ViewModels/PictureSettingsViewModel.cs:1019-1067 | applies the width adjustment and refreshes the label, except under None with keep-aspect and a zero source aspect (both components zero: no title, or a 0:0 pixel aspect, among others), where the source breaks out first |
| PictureSettings.AdjustForHeight | win/CS/HandBrakeWPF/ViewModels/PictureSettingsViewModel.cs:964-993 | caps the height at the source height and changes nothing but width and height; under None with keep-aspect sets the keep-aspect width, with no guard against a zero divisor; otherwise keeps the width |
| PictureSettings.HeightAdjust | win/CS/HandBrakeWPF/ViewModels/PictureSettingsViewModel.cs:964-993 | applies the height adjustment; only Custom refreshes the label |
| PictureSettings.SetWidth | win/CS/HandBrakeWPF/ViewModels/PictureSettingsViewModel.cs:476-489 | stores the width, then runs the width adjustment; keeps the controls |
| PictureSettings.SetHeight | win/CS/HandBrakeWPF/ViewModels/PictureSettingsViewModel.cs:252-265 | stores the height, then runs the height adjustment; keeps the controls |
| PictureSettings.SetModulus | win/CS/HandBrakeWPF/ViewModels/PictureSettingsViewModel.cs:387-400 | stores the modulus, then runs the width adjustment (`ModulusAdjust` is `WidthAdjust`, lines 998-1001) |
| PictureSettings.SetKeepAspect | win/CS/HandBrakeWPF/ViewModels/PictureSettingsViewModel.cs:304-317 | stores the flag, then runs the width adjustment |
| PictureSettings.SetDisplayWidth | win/CS/HandBrakeWPF/ViewModels/PictureSettingsViewModel.cs:232-247 | stores the display width and refreshes the label (`CustomAnamorphicAdjust`, lines 928-931) |
| PictureSettings.SetParWidth | win/CS/HandBrakeWPF/ViewModels/PictureSettingsViewModel.cs:351-364 | stores the pixel aspect width and refreshes the label |
| PictureSettings.SetParHeight | win/CS/HandBrakeWPF/ViewModels/PictureSettingsViewModel.cs:333-346 | stores the pixel aspect height and refreshes the label |
| PictureSettings.SetCropTop | win/CS/HandBrakeWPF/ViewModels/PictureSettingsViewModel.cs:197-210 | accepts any 32-bit value, even one that leaves no picture. The top crop becomes even and, except when 2^31 - 1 wraps, within one of the value; the other edges and the controls stay, and the label is refreshed |
| PictureSettings.SetCropBottom | win/CS/HandBrakeWPF/ViewModels/PictureSettingsViewModel.cs:143-156 | accepts any 32-bit value, even one that leaves no picture. The bottom crop becomes even and, except when 2^31 - 1 wraps, within one of the value; the other edges and the controls stay, and the label is refreshed |
| PictureSettings.SetCropLeft | win/CS/HandBrakeWPF/ViewModels/PictureSettingsViewModel.cs:161-174 | accepts any 32-bit value, even one that leaves no picture. The left crop becomes even and, except when 2^31 - 1 wraps, within one of the value; the other edges and the controls stay, and the label is refreshed |
| PictureSettings.SetCropRight | win/CS/HandBrakeWPF/ViewModels/PictureSettingsViewModel.cs:179-192 | accepts any 32-bit value, even one that leaves no picture. The right crop becomes even and, except when 2^31 - 1 wraps, within one of the value; the other edges and the controls stay, and the label is refreshed |
| PictureSettings.AnamorphicAdjust | win/CS/HandBrakeWPF/ViewModels/PictureSettingsViewModel.cs:749-819 | the frame and the mode are kept and the label agrees. Outside Custom, keep-aspect, the display width and the pixel aspect fields are kept. None: its controls, modulus 16, the source width, and the keep-aspect height or the old height. Strict: its controls, modulus 16, zero width and the capped zero height. Loose: its controls, the modulus kept, the source width and the capped zero height. Custom: its controls, keep-aspect on, the source width, the old height, the source pixel aspect, and the display width kept (0 without a title) |
| PictureSettings.SetMode | win/CS/HandBrakeWPF/ViewModels/PictureSettingsViewModel.cs:369-382 | is the anamorphic adjustment of the panel with the new mode: the mode is stored, the frame kept and the label agrees. None and Strict set modulus 16, Loose and Custom keep it. Strict zeroes the width, every other mode sets the source width |
| PictureProperties.HeightForWidthReduced | win/CS/HandBrakeWPF/ViewModels/PictureSettingsViewModel.cs:1040-1042 | the source's keep-aspect height formula equals width * par height * cropped height / (par width * cropped width) |
| PictureProperties.WidthForHeightReduced | win/CS/HandBrakeWPF/ViewModels/PictureSettingsViewModel.cs:980-982 | the source's keep-aspect width formula equals height * par width * cropped width / (par height * cropped height) |
| PictureProperties.KeptFormulasInverse | win/CS/HandBrakeWPF/ViewModels/PictureSettingsViewModel.cs:980-982 | before rounding, the width formula undoes the height formula |
| PictureProperties.HeightForWidthKeepsAspect | win/CS/HandBrakeWPF/ViewModels/PictureSettingsViewModel.cs:1040-1042 | before rounding, the keep-aspect height gives the output the source's display aspect |
| PictureProperties.KeptHeightReference | win/CS/HandBrakeWPF/ViewModels/PictureSettingsViewModel.cs:1032-1044 | the height set under None with keep-aspect is the reduced reference formula rounded to the modulus |
| PictureProperties.KeptWidthReference | win/CS/HandBrakeWPF/ViewModels/PictureSettingsViewModel.cs:974-986 | the width set under None with keep-aspect is the reduced reference formula rounded to the modulus |
| PictureProperties.WidthAdjustIdempotent | win/CS/HandBrakeWPF/ViewModels/PictureSettingsViewModel.cs:1019-1067 | running the width adjustment twice is the same as once |
| PictureProperties.HeightAdjustIdempotent | win/CS/HandBrakeWPF/ViewModels/PictureSettingsViewModel.cs:964-993 | running the height adjustment twice is the same as once |
| PictureProperties.DisplaySizeIgnoresAspectFields | win/CS/HandBrakeWPF/ViewModels/PictureSettingsViewModel.cs:884-898 | the display size depends neither on keep-aspect (both Custom branches agree) nor on the custom pixel aspect fields |
| PictureProperties.LooseDisplayWidthReduced | win/CS/HandBrakeWPF/ViewModels/PictureSettingsViewModel.cs:870-880 | for a nonzero output width, the output width cancels and the loose display width is the pixel aspect width |
| PictureProperties.LooseSizeExact | win/CS/HandBrakeWPF/ViewModels/PictureSettingsViewModel.cs:863-882 | for a cropped size with columns and rows, a nonzero pixel aspect height and a nonzero modulus, the loose `double` evaluation stays finite and its size is the exact display width and height, truncated |
| PictureProperties.LooseKeepsFilmAspect | win/CS/HandBrakeWPF/ViewModels/PictureSettingsViewModel.cs:870-876 | under Loose, display width over output height equals the source display width over the cropped height |
| PictureProperties.LooseHeightNearest | win/CS/HandBrakeWPF/ViewModels/PictureSettingsViewModel.cs:866-868 | the loose height is a nearest multiple of the modulus to the storage-aspect height plus a half, ties upward |
| PictureProperties.StrictSquarePixels | win/CS/HandBrakeWPF/ViewModels/PictureSettingsViewModel.cs:851-858 | Strict on a square-pixel 1920x1080 title reports 1920x1080 |
| PictureProperties.StrictNtscWidescreen | win/CS/HandBrakeWPF/ViewModels/PictureSettingsViewModel.cs:851-858 | Strict on 720x480 with pixel aspect 10:11 reports 655x480 |
| PictureProperties.Loose1080Height1280 | win/CS/HandBrakeWPF/ViewModels/PictureSettingsViewModel.cs:866-868 | on a square-pixel 1080p frame the loose height for width 1280 is 720 |
| PictureProperties.Loose1080Height1920 | win/CS/HandBrakeWPF/ViewModels/PictureSettingsViewModel.cs:866-868 | on a square-pixel 1080p frame the loose height for width 1920 is 1088 |
| PictureProperties.Loose1080DisplayWidth1280 | win/CS/HandBrakeWPF/ViewModels/PictureSettingsViewModel.cs:873-882 | the loose display width at width 1280 truncates to 1280 |
| PictureProperties.Loose1080DisplayWidth1920 | win/CS/HandBrakeWPF/ViewModels/PictureSettingsViewModel.cs:873-882 | the loose display width at width 1920 truncates to 1934 |
| PictureProperties.LooseAt1280 | win/CS/HandBrakeWPF/ViewModels/PictureSettingsViewModel.cs:785-796 | switching a 1080p panel to Loose and setting width 1280 shows 1280x720 |
| PictureProperties.LooseAtFullWidth | win/CS/HandBrakeWPF/ViewModels/PictureSettingsViewModel.cs:785-796 | switching a 1080p panel to Loose shows 1934x1088 |
| PictureProperties.CustomHeight1000 | win/CS/HandBrakeWPF/ViewModels/PictureSettingsViewModel.cs:884-898 | under Custom, height 1000 shows as 1008 |
| PictureProperties.LooseZeroCroppedHeight | win/CS/HandBrakeWPF/ViewModels/PictureSettingsViewModel.cs:863-882 | under Loose, a crop that leaves no rows but some columns reports 0x0 at any modulus from 2 up |
| PictureProperties.StrictFullCrop | win/CS/HandBrakeWPF/ViewModels/PictureSettingsViewModel.cs:197-210 | Strict on a 1080-line title cropped by 1080 rows from the top shows "1920x0" |
| PictureProperties.FullTopCropFrame | win/CS/HandBrakeWPF/ViewModels/PictureSettingsViewModel.cs:197-210 | the top crop setter keeps the even value 1080 and the strict mode |
| PictureProperties.StrictSizeOfFullTopCrop | win/CS/HandBrakeWPF/ViewModels/PictureSettingsViewModel.cs:835-857 | a strict square-pixel 1920x1080 frame with 1080 rows cropped from the top has display size 1920x0 |
| PictureProperties.StrictSquareSize | win/CS/HandBrakeWPF/ViewModels/PictureSettingsViewModel.cs:851-858 | with a 1:1 pixel aspect the strict display size is the cropped size itself |
| PictureProperties.StrictCropWraps | win/CS/HandBrakeWPF/ViewModels/PictureSettingsViewModel.cs:836 | Strict on a 1080-line title with top crop `int.MinValue` shows "1920x-2147482568": the cropped height 1080 + 2^31 wraps |
| PictureProperties.MinimumTopCropFrame | win/CS/HandBrakeWPF/ViewModels/PictureSettingsViewModel.cs:197-210 | the top crop setter keeps `int.MinValue`, an even value |
| PictureProperties.StrictSizeOfMinimumTopCrop | win/CS/HandBrakeWPF/ViewModels/PictureSettingsViewModel.cs:835-857 | a strict square-pixel 1920x1080 frame with top crop `int.MinValue` has display size 1920x-2147482568 |
| PictureProperties.HeightWithoutTitle | win/CS/HandBrakeWPF/ViewModels/PictureSettingsViewModel.cs:964-986 | on the panel as constructed (no title, None, keep-aspect), setting the height makes the width the cast of NaN and leaves "No Title Selected" |
| PictureProperties.LabelTextRoundTrip | win/CS/HandBrakeWPF/ViewModels/PictureSettingsViewModel.cs:1006-1014 | the label's "{width}x{height}" text reads back as the same label, so distinct sizes give distinct texts |
| PictureProperties.ParseJoined | win/CS/HandBrakeWPF/ViewModels/PictureSettingsViewModel.cs:1006-1014 | two integer texts without an "x", joined by "x", read back as the label of those two integers |
| IntText.IntToString | win/CS/HandBrake.ApplicationServices/Utilities/PlistUtility.cs:694-701 | `int.ToString()` writes an optional minus sign followed by digits |
| IntText.ParseIntToString | win/CS/HandBrake.ApplicationServices/Utilities/PlistUtility.cs:155-172 | `int.Parse` reads every 32-bit integer's text back as that integer |
| IntText.ParseRejectsEmpty | win/CS/HandBrake.ApplicationServices/Utilities/PlistUtility.cs:155-157 | `int.Parse` throws a format error on the empty text and on a lone sign |
| IntText.ParseInt32 | win/CS/HandBrake.ApplicationServices/Utilities/PlistUtility.cs:155-172 | `int.Parse`: blank text is a format error, and only a leading minus sign gives a negative number, and with one every nonzero result is negative |
| PresetModel.KeyNameRoundTrip | win/CS/HandBrake.ApplicationServices/Utilities/PlistUtility.cs:136-399 | every key's text selects that key in the import's switch |
| PresetModel.KeyNameInjective | win/CS/HandBrake.ApplicationServices/Utilities/PlistUtility.cs:136-399 | no two keys share a text |
| PresetModel.KeyName | win/CS/HandBrake.ApplicationServices/Utilities/PlistUtility.cs:577-733 | the text written for each key; `KeyNameRoundTrip` and `KeyNameInjective` state that every key has its own text |
| PresetModel.KeyOf | win/CS/HandBrake.ApplicationServices/Utilities/PlistUtility.cs:136-399 | the switch of the import; `KeyNameRoundTrip` states that it selects each key from that key's text |
| PlistImport.Start | win/CS/HandBrake.ApplicationServices/Utilities/PlistUtility.cs:57-60 | the import starts from a new task with filters off, no quality mode and no picture settings mode |
| PlistImport.DecodeAnamorphic | win/CS/HandBrake.ApplicationServices/Utilities/PlistUtility.cs:176-192 | "0" is None, "2" Loose, "3" Custom, and every other text Strict, each in both directions |
| PlistImport.DecodeDecomb | win/CS/HandBrake.ApplicationServices/Utilities/PlistUtility.cs:198-212 | never Bob; Off exactly when the text is not "1", "2" or "3" |
| PlistImport.DecodeDeinterlace | win/CS/HandBrake.ApplicationServices/Utilities/PlistUtility.cs:222-241 | never Bob; the field is left alone exactly when the text is not "0" to "4" |
| PlistImport.DecodeDenoise | win/CS/HandBrake.ApplicationServices/Utilities/PlistUtility.cs:248-268 | the field is left alone exactly when the text is not "0" to "4" |
| PlistImport.DecodeDetelecine | win/CS/HandBrake.ApplicationServices/Utilities/PlistUtility.cs:275-285 | Off exactly when the text is neither "1" nor "2" |
| PlistImport.DecodeFramerateMode | win/CS/HandBrake.ApplicationServices/Utilities/PlistUtility.cs:314-327 | PFR exactly when the text is neither "vfr" nor "cfr" |
| PlistImport.DecodeFramerate | win/CS/HandBrake.ApplicationServices/Utilities/PlistUtility.cs:303-313 | "Same as source" clears the frame rate, empty text keeps it, and other text succeeds exactly when `double.Parse` does and stores its value |
| PlistImport.DecodeBitrate | win/CS/HandBrake.ApplicationServices/Utilities/PlistUtility.cs:294-299 | empty text keeps the bitrate; other text succeeds exactly when `int.Parse` does and stores its value |
| PlistImport.DecodeQuality | win/CS/HandBrake.ApplicationServices/Utilities/PlistUtility.cs:331-336 | empty text keeps the quality; other text succeeds exactly when `double.Parse` does and stores its value |
| PlistImport.ApplyOutput | win/CS/HandBrake.ApplicationServices/Utilities/PlistUtility.cs:138-150 | only `FileFormat` sets the container, and it sets nothing else |
| PlistImport.ApplyPicture | win/CS/HandBrake.ApplicationServices/Utilities/PlistUtility.cs:152-192 | fails exactly for a crop, width or height value that `int.Parse` rejects, and never changes the maximum size |
| PlistImport.ApplyFilter | win/CS/HandBrake.ApplicationServices/Utilities/PlistUtility.cs:195-292 | fails exactly for a deblock value that `int.Parse` rejects; an empty custom text leaves the filters alone |
| PlistImport.ApplyVideo | win/CS/HandBrake.ApplicationServices/Utilities/PlistUtility.cs:294-346 | only a non-empty bitrate, frame rate or quality text can fail, and no key sets the rate type |
| PlistImport.ApplyAudio | win/CS/HandBrake.ApplicationServices/Utilities/PlistUtility.cs:381-395 | each passthru key changes only its own flag |
| PlistImport.ApplyGeneral | win/CS/HandBrake.ApplicationServices/Utilities/PlistUtility.cs:337-379 | of the task, a general key changes at most the chapter markers and the encoder options |
| PlistImport.Apply | win/CS/HandBrake.ApplicationServices/Utilities/PlistUtility.cs:136-399 | an integer key fails exactly when `int.Parse` rejects its value; only integer keys and the bitrate, frame rate and quality keys can fail; no key changes the maximum size |
| PlistImport.Step | win/CS/HandBrake.ApplicationServices/Utilities/PlistUtility.cs:130-136 | a key text the switch does not know is skipped, and no pair changes the maximum size |
| PlistImport.Fold | win/CS/HandBrake.ApplicationServices/Utilities/PlistUtility.cs:129-399 | the loop over the pairs never changes the maximum size |
| PlistImport.ApplyQualityMode | win/CS/HandBrake.ApplicationServices/Utilities/PlistUtility.cs:403-411 | quality mode "1" gives average bitrate, "2" constant quality, and any other leaves the task; only the rate type changes |
| PlistImport.ResetFilters | win/CS/HandBrake.ApplicationServices/Utilities/PlistUtility.cs:414-422 | without filters, the four filters are off, deblock is 0 and grayscale is off; nothing else changes |
| PlistImport.ApplyMaximumSize | win/CS/HandBrake.ApplicationServices/Utilities/PlistUtility.cs:424-428 | a source-maximum preset gets maximum width := height and maximum height := width; only those change |
| PlistImport.Finish | win/CS/HandBrake.ApplicationServices/Utilities/PlistUtility.cs:401-438 | the preset carries the name, description, version, picture settings mode and filter flag the loop gathered |
| PlistImport.Import | win/CS/HandBrake.ApplicationServices/Utilities/PlistUtility.cs:48-438 | an imported preset that is not source-maximum keeps the new task's maximum size |
| PlistExport.GetNullBoolValue | win/CS/HandBrake.ApplicationServices/Utilities/PlistUtility.cs:555-563 | the text is "1" or "0", and "0" exactly for false (null and true give "1") |
| PlistExport.AddEncodeElement | win/CS/HandBrake.ApplicationServices/Utilities/PlistUtility.cs:771-782 | an empty integer value is written as "0", so no integer element is empty; every other value is written as given |
| PlistExport.NullableIntText | win/CS/HandBrake.ApplicationServices/Utilities/PlistUtility.cs:694-701 | `int?.ToString()` is empty exactly for null |
| PlistExport.NullableRealText | win/CS/HandBrake.ApplicationServices/Utilities/PlistUtility.cs:717-720 | `double?.ToString()` is empty for null and the formatted value otherwise |
| PlistExport.AnamorphicCode | win/CS/HandBrake.ApplicationServices/Utilities/PlistUtility.cs:698 | the mode's code lies in 0..3 |
| PlistExport.DecombCode | win/CS/HandBrake.ApplicationServices/Utilities/PlistUtility.cs:599-621 | the decomb code is one of "0" to "4", "0" exactly for Off |
| PlistExport.DeinterlaceCode | win/CS/HandBrake.ApplicationServices/Utilities/PlistUtility.cs:624-650 | the deinterlace code is one of "0" to "5", "0" exactly for Off |
| PlistExport.DenoiseCode | win/CS/HandBrake.ApplicationServices/Utilities/PlistUtility.cs:652-674 | the denoise code is one of "0" to "4", "0" exactly for Off |
| PlistExport.DetelecineCode | win/CS/HandBrake.ApplicationServices/Utilities/PlistUtility.cs:676-690 | the detelecine code lies in 0..2, 0 exactly for Off and 1 exactly for Custom |
| PlistExport.FileFormatText | win/CS/HandBrake.ApplicationServices/Utilities/PlistUtility.cs:588 | "MP4 file" exactly for MP4 and M4V, and "MKV file" otherwise |
| PlistExport.QualityTypeCode | win/CS/HandBrake.ApplicationServices/Utilities/PlistUtility.cs:722-724 | 1 exactly with a bitrate, 2 exactly with a quality and no bitrate, 0 exactly with neither |
| PlistExport.UsesMaxText | win/CS/HandBrake.ApplicationServices/Utilities/PlistUtility.cs:710 | "0" exactly when both maxima are 0 (a null maximum compares unequal to 0 and gives "1") |
| PlistExport.Position | win/CS/HandBrake.ApplicationServices/Utilities/PlistUtility.cs:577-733 | every written key has a position among the 49 written elements; only the import-only `VideoFramerateMode` has none |
| PlistExport.KeyAt | win/CS/HandBrake.ApplicationServices/Utilities/PlistUtility.cs:577-733 | the key written at each position has that position, so the two order tables agree |
| PlistExport.PositionKeyAt | win/CS/HandBrake.ApplicationServices/Utilities/PlistUtility.cs:577-733 | every written key is the key at its position |
| PlistExport.WrittenEntry | win/CS/HandBrake.ApplicationServices/Utilities/PlistUtility.cs:577-733 | the element written for a key carries that key, and no integer element is written empty |
| PlistExport.PassthruEntry | win/CS/HandBrake.ApplicationServices/Utilities/PlistUtility.cs:579-583 | each passthru element carries its key and is an integer element holding "0" or "1" |
| PlistExport.OutputEntry | win/CS/HandBrake.ApplicationServices/Utilities/PlistUtility.cs:586-594 | each output and crop element carries its key |
| PlistExport.FilterEntry | win/CS/HandBrake.ApplicationServices/Utilities/PlistUtility.cs:597-691 | each filter element carries its key |
| PlistExport.PictureEntry | win/CS/HandBrake.ApplicationServices/Utilities/PlistUtility.cs:694-701 | each picture element carries its key and is an integer element that is never empty (a null width, height or modulus is written "0") |
| PlistExport.PresetEntry | win/CS/HandBrake.ApplicationServices/Utilities/PlistUtility.cs:704-712 | each preset element carries its key |
| PlistExport.VideoEntry | win/CS/HandBrake.ApplicationServices/Utilities/PlistUtility.cs:715-732 | each video element carries its key |
| PlistExport.SettingsEntries | win/CS/HandBrake.ApplicationServices/Utilities/PlistUtility.cs:577-733 | 49 elements: every key but the import-only `VideoFramerateMode` gets the element written for it at its position, and no two elements share a key |
| PlistExport.ExportPairs | win/CS/HandBrake.ApplicationServices/Utilities/PlistUtility.cs:771-782 | a reader sees each element, in order, as a key text that names the element's key and the element's value |
| PlistExport.EncodeSettingsAsWritten | win/CS/HandBrake.ApplicationServices/Utilities/PlistUtility.cs:676-691 | as the source writes it: 49 elements, and a custom detelecine writes the custom decomb text as its custom text |
| PlistExport.EncodeSettings | win/CS/HandBrake.ApplicationServices/Utilities/PlistUtility.cs:676-691 | corrected: 49 elements, and a custom detelecine writes its own custom text |
| PlistProperties.AnamorphicRoundTrip | win/CS/HandBrake.ApplicationServices/Utilities/PlistUtility.cs:698 | every anamorphic mode's exported code reads back as the same mode |
| PlistProperties.DecombRoundTrip | win/CS/HandBrake.ApplicationServices/Utilities/PlistUtility.cs:599-621 | Off, Default, Fast and Custom read back as themselves; Bob, written "4", reads back as Off |
| PlistProperties.DeinterlaceRoundTrip | win/CS/HandBrake.ApplicationServices/Utilities/PlistUtility.cs:624-650 | every deinterlace setting but Bob reads back as itself; Bob, written "5", is not decoded |
| PlistProperties.DenoiseRoundTrip | win/CS/HandBrake.ApplicationServices/Utilities/PlistUtility.cs:652-674 | every denoise setting reads back as itself |
| PlistProperties.DetelecineRoundTrip | win/CS/HandBrake.ApplicationServices/Utilities/PlistUtility.cs:676-690 | every detelecine setting's code reads back as itself |
| PlistProperties.QualityTypeText | win/CS/HandBrake.ApplicationServices/Utilities/PlistUtility.cs:722-726 | the exported quality type text is "1" with a bitrate, else "2" with a quality, else "0" |
| PlistProperties.PassthruFlagRoundTrip | win/CS/HandBrake.ApplicationServices/Utilities/PlistUtility.cs:381-395 | an exported passthru flag reads back as its value, a null one as true |
| PlistProperties.LastValueFound | win/CS/HandBrake.ApplicationServices/Utilities/PlistUtility.cs:130-136 | the value the loop last sees for a key is the value of a pair naming it; there is none exactly when no pair names the key |
| PlistProperties.LastKeyFound | win/CS/HandBrake.ApplicationServices/Utilities/PlistUtility.cs:130-136 | of two keys, the one named last is one of them and occurs; there is none exactly when neither occurs |
| PlistProperties.ApplyFrame | win/CS/HandBrake.ApplicationServices/Utilities/PlistUtility.cs:136-399 | a key's case changes the picture, filter or video part of the task only for a key of that section, and the loop's locals only for a general key |
| PlistProperties.ApplySetsUseFilters | win/CS/HandBrake.ApplicationServices/Utilities/PlistUtility.cs:373-375 | only `UsesPictureFilters` sets the filter flag, to value == "1" |
| PlistProperties.ApplySetsQualityMode | win/CS/HandBrake.ApplicationServices/Utilities/PlistUtility.cs:337-339 | only `VideoQualityType` sets the quality mode, to its value |
| PlistProperties.ApplySetsSettingsMode | win/CS/HandBrake.ApplicationServices/Utilities/PlistUtility.cs:370-378 | `UsesMaxPictureSettings` sets source maximum, `UsesPictureSettings` custom, and no other key changes the mode |
| PlistProperties.ApplyKeepsRateType | win/CS/HandBrake.ApplicationServices/Utilities/PlistUtility.cs:136-399 | no key sets the rate type inside the loop |
| PlistProperties.StepLocals | win/CS/HandBrake.ApplicationServices/Utilities/PlistUtility.cs:130-136 | one pair with a known or unknown key changes each local only through its own key |
| PlistProperties.FoldUseFilters | win/CS/HandBrake.ApplicationServices/Utilities/PlistUtility.cs:373-375 | after the loop, the filter flag is the last `UsesPictureFilters` value == "1", or the starting flag |
| PlistProperties.FoldQualityMode | win/CS/HandBrake.ApplicationServices/Utilities/PlistUtility.cs:337-339 | after the loop, the quality mode is the last `VideoQualityType` value, or the starting one |
| PlistProperties.FoldSettingsMode | win/CS/HandBrake.ApplicationServices/Utilities/PlistUtility.cs:370-378 | after the loop, the picture settings mode is set by whichever of the two keys came last |
| PlistProperties.FoldKeepsRateType | win/CS/HandBrake.ApplicationServices/Utilities/PlistUtility.cs:136-399 | the loop never changes the rate type |
| PlistProperties.ApplySetsHasCropping | win/CS/HandBrake.ApplicationServices/Utilities/PlistUtility.cs:152-154 | only `PictureAutoCrop` sets the cropping flag, to value != "1" |
| PlistProperties.ApplySetsAnamorphic | win/CS/HandBrake.ApplicationServices/Utilities/PlistUtility.cs:176-192 | only `PicturePAR` sets the anamorphic mode |
| PlistProperties.ApplySetsDetelecine | win/CS/HandBrake.ApplicationServices/Utilities/PlistUtility.cs:275-285 | only `PictureDetelecine` sets the detelecine filter |
| PlistProperties.ApplySetsCustomDetelecine | win/CS/HandBrake.ApplicationServices/Utilities/PlistUtility.cs:286-291 | only a non-empty `PictureDetelecineCustom` value sets the custom detelecine text |
| PlistProperties.StepFields | win/CS/HandBrake.ApplicationServices/Utilities/PlistUtility.cs:130-136 | one pair changes the cropping flag, anamorphic mode and detelecine fields only through their own keys |
| PlistProperties.FoldHasCropping | win/CS/HandBrake.ApplicationServices/Utilities/PlistUtility.cs:152-154 | after the loop, cropping is on unless the last `PictureAutoCrop` value is "1" |
| PlistProperties.FoldAnamorphic | win/CS/HandBrake.ApplicationServices/Utilities/PlistUtility.cs:176-192 | after the loop, the anamorphic mode is the last `PicturePAR` value's |
| PlistProperties.FoldDetelecine | win/CS/HandBrake.ApplicationServices/Utilities/PlistUtility.cs:275-285 | after the loop, the detelecine filter is the last `PictureDetelecine` value's |
| PlistProperties.FoldCustomDetelecine | win/CS/HandBrake.ApplicationServices/Utilities/PlistUtility.cs:286-291 | after the loop, the custom detelecine text is the last non-empty `PictureDetelecineCustom` value, or the starting text when there is none, so an empty value leaves an earlier text in place |
| PlistProperties.LastNonEmptyOfLast | win/CS/HandBrake.ApplicationServices/Utilities/PlistUtility.cs:286-291 | the last non-empty value for a key is not empty, is absent when the key is, and is the last value whenever that is not empty |
| PlistProperties.StepRejectsBadInteger | win/CS/HandBrake.ApplicationServices/Utilities/PlistUtility.cs:155-197 | one step on an integer key whose value does not parse as a 32-bit integer fails |
| PlistProperties.FoldFirst | win/CS/HandBrake.ApplicationServices/Utilities/PlistUtility.cs:129-399 | the loop fails when its first pair fails, and otherwise goes on from that pair's state with the rest |
| PlistProperties.FoldRejectsBadInteger | win/CS/HandBrake.ApplicationServices/Utilities/PlistUtility.cs:130-197 | such a value aborts the loop wherever it stands |
| PlistProperties.ImportRejectsBadInteger | win/CS/HandBrake.ApplicationServices/Utilities/PlistUtility.cs:155-197 | such a value makes the whole import fail |
| PlistProperties.FinishFields | win/CS/HandBrake.ApplicationServices/Utilities/PlistUtility.cs:401-438 | after the loop the code keeps cropping, anamorphic mode and custom detelecine text, keeps the detelecine filter when filters are on, and sets the rate type from quality mode "1"/"2" |
| PlistProperties.FilterReset | win/CS/HandBrake.ApplicationServices/Utilities/PlistUtility.cs:414-422 | unless the last `UsesPictureFilters` is "1", the imported preset has filters off, all four filters Off, deblock 0 and grayscale off, whatever filter keys came before |
| PlistProperties.ImportedUsesFilters | win/CS/HandBrake.ApplicationServices/Utilities/PlistUtility.cs:373-375 | the imported preset uses picture filters exactly when the last `UsesPictureFilters` value is "1" |
| PlistProperties.ImportedHasCropping | win/CS/HandBrake.ApplicationServices/Utilities/PlistUtility.cs:152-154 | the imported cropping flag is off exactly when the last `PictureAutoCrop` value is "1", and the new task's without one |
| PlistProperties.ImportedAnamorphic | win/CS/HandBrake.ApplicationServices/Utilities/PlistUtility.cs:176-192 | the imported anamorphic mode is the last `PicturePAR` value's, and the new task's without one |
| PlistProperties.ImportedDetelecine | win/CS/HandBrake.ApplicationServices/Utilities/PlistUtility.cs:275-285 | with picture filters used, the imported detelecine filter is the last `PictureDetelecine` value's, and the new task's without one |
| PlistProperties.ImportedCustomDetelecine | win/CS/HandBrake.ApplicationServices/Utilities/PlistUtility.cs:286-291 | a non-empty last `PictureDetelecineCustom` value is the imported custom detelecine text |
| PlistProperties.ImportedCustomDetelecineText | win/CS/HandBrake.ApplicationServices/Utilities/PlistUtility.cs:286-291 | when the import succeeds, its custom detelecine text is the last non-empty `PictureDetelecineCustom` value, or the new task's text when there is none |
| PlistProperties.ImportedRateType | win/CS/HandBrake.ApplicationServices/Utilities/PlistUtility.cs:403-411 | the imported rate type is average bitrate for a last `VideoQualityType` of "1", constant quality for "2", and the new task's otherwise |
| PlistProperties.SourceMaximumSwap | win/CS/HandBrake.ApplicationServices/Utilities/PlistUtility.cs:424-428 | when `UsesMaxPictureSettings` comes after `UsesPictureSettings`, the preset is source-maximum with maximum width = height and maximum height = width |
| PlistReimport.LastValueAt | win/CS/HandBrake.ApplicationServices/Utilities/PlistUtility.cs:130-136 | a pair that no later pair overrides holds the last value of its key |
| PlistReimport.LastKeyAt | win/CS/HandBrake.ApplicationServices/Utilities/PlistUtility.cs:130-136 | a key that neither key follows is the last of the two |
| PlistReimport.WrittenKeys | win/CS/HandBrake.ApplicationServices/Utilities/PlistUtility.cs:577-733 | the import recognises the key written at each position as that key |
| PlistReimport.WrittenValue | win/CS/HandBrake.ApplicationServices/Utilities/PlistUtility.cs:577-733 | for every written key, the value the import keeps is the one element written for it |
| PlistReimport.SettingsKeysOrder | win/CS/HandBrake.ApplicationServices/Utilities/PlistUtility.cs:710-712 | "UsesPictureSettings" is written two places after "UsesMaxPictureSettings" |
| PlistReimport.WrittenFiltersFlag | win/CS/HandBrake.ApplicationServices/Utilities/PlistUtility.cs:711 | the last "UsesPictureFilters" value written is "1" |
| PlistReimport.WrittenAnamorphicCode | win/CS/HandBrake.ApplicationServices/Utilities/PlistUtility.cs:698 | the last "PicturePAR" value written is the text of the preset's anamorphic code |
| PlistReimport.WrittenDetelecineCode | win/CS/HandBrake.ApplicationServices/Utilities/PlistUtility.cs:690 | the last "PictureDetelecine" value written is the text of the preset's detelecine code |
| PlistReimport.WrittenQualityType | win/CS/HandBrake.ApplicationServices/Utilities/PlistUtility.cs:722-726 | the last "VideoQualityType" value written is "1" for a bitrate, else "2" for a quality, else "0" |
| PlistReimport.WrittenCustomDetelecine | win/CS/HandBrake.ApplicationServices/Utilities/PlistUtility.cs:691 | for a Custom detelecine filter, the last "PictureDetelecineCustom" value written is the custom text given to the export |
| PlistReimport.WrittenLastKey | win/CS/HandBrake.ApplicationServices/Utilities/PlistUtility.cs:710-712 | of two written keys, the one written later is the last one the import sees |
| PlistReimport.ImportOfFold | win/CS/HandBrake.ApplicationServices/Utilities/PlistUtility.cs:48-438 | the import succeeds exactly when its loop does and its result is the loop's state finished |
| PlistReimport.WrittenFiltersOn | win/CS/HandBrake.ApplicationServices/Utilities/PlistUtility.cs:711 | the loop over an exported preset, when it succeeds, turns filters on |
| PlistReimport.ReimportUsesFilters | win/CS/HandBrake.ApplicationServices/Utilities/PlistUtility.cs:711 | an exported preset re-imports (when the import succeeds) with picture filters used |
| PlistReimport.ReimportCustomSettings | win/CS/HandBrake.ApplicationServices/Utilities/PlistUtility.cs:710-712 | an exported preset re-imports (when the import succeeds) with custom picture settings, since `UsesPictureSettings` follows `UsesMaxPictureSettings` |
| PlistReimport.ReimportNoCropping | win/CS/HandBrake.ApplicationServices/Utilities/PlistUtility.cs:593 | an exported preset re-imports (when the import succeeds) with cropping off, since auto-crop is written "1" |
| PlistReimport.ReimportAnamorphic | win/CS/HandBrake.ApplicationServices/Utilities/PlistUtility.cs:698 | an exported preset re-imports (when the import succeeds) with its anamorphic mode |
| PlistReimport.ReimportDetelecine | win/CS/HandBrake.ApplicationServices/Utilities/PlistUtility.cs:676-690 | an exported preset re-imports (when the import succeeds) with its detelecine filter |
| PlistReimport.ReimportRateType | win/CS/HandBrake.ApplicationServices/Utilities/PlistUtility.cs:722-726 | an exported preset re-imports (when the import succeeds) as average bitrate when it has a bitrate, constant quality when it has only a quality, and the new task's rate type otherwise |
| PlistReimport.ReimportCustomDetelecine | win/CS/HandBrake.ApplicationServices/Utilities/PlistUtility.cs:691 | with a custom detelecine filter, when the import succeeds, the non-empty text written for `PictureDetelecineCustom` is what re-imports |
| PlistReimport.StepSucceeds | win/CS/HandBrake.ApplicationServices/Utilities/PlistUtility.cs:136-399 | a pair succeeds when its key text is unknown or its value is readable: an integer key's value parses, and a bitrate, frame rate or quality value is empty or parses |
| PlistReimport.FoldSucceeds | win/CS/HandBrake.ApplicationServices/Utilities/PlistUtility.cs:129-399 | the loop runs to the end when every known key's value is readable |
| PlistReimport.NullableIntReadable | win/CS/HandBrake.ApplicationServices/Utilities/PlistUtility.cs:694 | `int?.ToString()` of a 32-bit number, written as an integer element (`0` for null), parses back |
| PlistReimport.WrittenReadable | win/CS/HandBrake.ApplicationServices/Utilities/PlistUtility.cs:577-733 | every element the export writes for a task whose crops, deblock, sizes and bitrate fit in 32 bits, and whose frame rate and quality text `parseDouble` accepts, is readable by the import |
| PlistReimport.ReimportSucceeds | win/CS/HandBrake.ApplicationServices/Utilities/PlistUtility.cs:577-733 | for such a task the re-import of the exported preset succeeds, whatever text the custom detelecine element carries |
| PlistReimport.DetelecineCustomAsWritten | win/CS/HandBrake.ApplicationServices/Utilities/PlistUtility.cs:691 | as written, a custom detelecine re-imports (when the import succeeds) with the custom decomb text, which loses the detelecine text whenever the two differ |
| PlistReimport.DetelecineCustomRoundTrip | win/CS/HandBrake.ApplicationServices/Utilities/PlistUtility.cs:691 | writing the detelecine text instead, a custom detelecine re-imports (when the import succeeds) with its own text |
| PlistReimport.DetelecineCustomLost | win/CS/HandBrake.ApplicationServices/Utilities/PlistUtility.cs:691 | as written, a custom detelecine whose numbers read back re-imports without error, with the custom decomb text in place of a different detelecine text |
| PlistReimport.DetelecineExampleLost | win/CS/HandBrake.ApplicationServices/Utilities/PlistUtility.cs:691 | the preset with every number unset or zero, decomb text "a" and detelecine text "b" re-imports without error with detelecine text "a" |
| PlistReimport.DetelecineCustomKept | win/CS/HandBrake.ApplicationServices/Utilities/PlistUtility.cs:691 | writing the detelecine text instead, such a preset re-imports without error with its own detelecine text |

## Left out

- Picture panel `SetPreset` and `SetSource` (PictureSettingsViewModel.cs:569-738): these setter sequences depend on the `Title` and `Preset` types, which are not part of this model.
- Property-change notifications, the Caliburn and IoC plumbing, and the `SourceInfo` text with its double formatting: none of these carry geometry state.
- IEEE 754 rounding, finite overflow and the sign of zero and of infinity: a finite `double` is an exact real, and there is one unsigned infinity. No panel formula's result depends on these signs: the only addition adds the constant 0.5, and every infinity then goes through `GetModulusValue`, which gives NaN whatever the infinity's sign.
- The value of `(int)` on NaN or an infinity: C# leaves it unspecified. The model uses `CastOfNonFinite`, -2^31, which is what the x86 and x64 runtimes produce.
- Numerics.DToInt: `(int)` of a finite `double` outside the 32-bit range is left unspecified by C#; the model truncates without bound. A large pixel aspect ratio, a large width or height, or a crop near 2^30 that makes the cropped size wrap can put a display size beyond that range.
- PictureGeometry.StrictSize: its width is such a cast, unbounded as `DToInt` is.
- PictureGeometry.LooseSize: its width and height are such casts, unbounded as `DToInt` is.
- PictureGeometry.CustomHeight: its cast is unbounded as `DToInt` is, so a height within half a modulus of 2^31 - 1 that rounds up stays beyond the range.
- PictureGeometry.CalculateAnamorphicSizes: inherits the unbounded casts of `StrictSize`, `LooseSize` and `CustomHeight`; the cropped size itself is wrapped to 32 bits as in the source.
- PictureGeometry.SourceAspect: its components are 32-bit `int` products in the source. The model computes them unbounded.
- PictureGeometry.KeptHeight: the cropped width and height are wrapped to 32 bits as in the source, but the products of the source resolution and the source aspect are 32-bit `int` products in the source. The model computes them unbounded, so it differs once they exceed 2^31 - 1 (a pixel aspect numerator over about 1000 on a 1080-line source). Its final `(int)` cast is unbounded as `DToInt` is.
- PictureGeometry.KeptWidth: the same 32-bit product overflow and unbounded cast as `KeptHeight` are not modelled.
- `double.Parse` and `double.ToString`: they are the parameters `parseDouble` and `formatDouble`, because their culture-dependent formatting is runtime code.
- The build number the export writes comes from the user settings service; it is the parameter `build`.
- `Converters.GetFileFormat` and the `EnumHelper` lookups are not visible; the import's file format is the parameter `fileFormat`. The `VideoEncoder` and `AudioEncoderFallback` keys, which only go through `EnumHelper`, are not modelled.
- The audio track list (PlistUtility.cs:62-125 and 793-830) and its `double.Parse` and text-replacement hacks are not modelled.
- XML reading and writing, `loadFile`'s error dialog and the preset's `Category` are I/O and UI; the dictionary is given as key/value pairs.
- A null C# string is not modelled: every text is a sequence of characters.
- PlistReimport.ReimportNoCropping: it and the other `Reimport*` theorems state what an exported preset reads back as when the import succeeds. `PlistReimport.ReimportSucceeds` proves success separately, for a preset whose integers fit in 32 bits and whose frame rate and quality text `parseDouble` accepts.
- PlistReimport.DetelecineCustomAsWritten: likewise conditional on the import succeeding; `PlistReimport.DetelecineCustomLost` drops that condition for a preset whose numbers read back.
- PlistReimport.DetelecineCustomRoundTrip: likewise conditional on the import succeeding; `PlistReimport.DetelecineCustomKept` drops that condition for a preset whose numbers read back.
- PresetModel.KeyOf: it carries no contract of its own. That it inverts `KeyName` is stated by `KeyNameRoundTrip`, because a direct postcondition over its 50 text cases is too costly to prove.
- The import reads `VideoFramerateMode` while the export writes `VideFrameratePFR`, so the frame rate mode does not round-trip; the model keeps both key texts as written and states no round trip for that field.
- The import ignores `PictureModulus`, and the export writes it; no round trip is stated for it.

## Findings

| source | as written | input that shows it | evidently intended | confidence | as-written member | corrected member |
|---|---|---|---|---|---|---|
| win/CS/HandBrake.ApplicationServices/Utilities/PlistUtility.cs:691 | `PictureDetelecineCustom` is written from the task's custom decomb text | a custom detelecine filter with every number unset or zero, custom decomb text "a" and custom detelecine text "b": it reads back with detelecine text "a" | write the custom detelecine text | not executed | PlistReimport.DetelecineExampleLost | PlistReimport.DetelecineCustomKept |

`PlistReimport.DetelecineCustomLost` and `PlistReimport.DetelecineCustomAsWritten`
state the same loss for every preset whose custom decomb text is non-empty and
differs from its custom detelecine text.
`PlistExport.EncodeSettingsAsWritten` is the export as the source writes it,
and `PlistExport.EncodeSettings` is the corrected export. The other
`Reimport*` theorems take the text written for `PictureDetelecineCustom` as
a parameter, so they hold for both.

=== FILE: encoding_types.dfy ===
/** Encode-task vocabulary shared by the picture settings and the preset
    converter. */
module EncodingTypes {

  /** The anamorphic policy; the enum order gives the codes 0..3 that presets store. */
  datatype Anamorphic = None | Strict | Loose | Custom

  /** Pixels removed from each edge of the source frame. */
  datatype Cropping = Cropping(top: int, bottom: int, left: int, right: int)
}

=== FILE: int_text.dfy ===
/** 32-bit integers: their unchecked wrap-around, and their decimal text as
    the .NET runtime writes it with `int.ToString()` and reads it back with
    `int.Parse` (invariant culture: `-` and `+` signs, ASCII digits,
    surrounding white space allowed). */
module IntText {
  import opened Wrappers

  const Int32Min: int := -0x8000_0000
  const Int32Max: int := 0x7FFF_FFFF

  /** A C# `int`. */
  type Int32 = x: int | Int32Min <= x <= Int32Max

  /** The result of unchecked 32-bit `int` arithmetic whose exact value is `x`:
      `x` taken modulo 2^32 into the range of an `int`. */
  function WrapInt32(x: int): (r: Int32)
    ensures Int32Min <= x <= Int32Max ==> r == x
    ensures (r - x) % 0x1_0000_0000 == 0
  {
    (x - Int32Min) % 0x1_0000_0000 + Int32Min
  }

  /** Why `int.Parse` throws. */
  datatype ParseError = FormatError | OverflowError

  predicate IsDigit(c: char) {
    '0' <= c <= '9'
  }

  predicate AllDigits(s: string) {
    forall i :: 0 <= i < |s| ==> IsDigit(s[i])
  }

  /** White space that `int.Parse` skips: tab, line feed, vertical tab, form feed, carriage return, space. */
  predicate IsWhite(c: char) {
    c == ' ' || '\t' <= c <= '\r'
  }

  function DigitChar(d: int): (c: char)
    requires 0 <= d < 10
    ensures IsDigit(c) && c as int - '0' as int == d
  {
    ('0' as int + d) as char
  }

  /** The shortest decimal digits of `n`: no leading zero, "0" for zero. */
  function NatDigits(n: nat): (s: string)
    ensures |s| > 0 && AllDigits(s)
    ensures |s| > 1 ==> s[0] != '0'
    decreases n
  {
    if n < 10 then [DigitChar(n)] else NatDigits(n / 10) + [DigitChar(n % 10)]
  }

  /** `int.ToString()`: a minus sign for a negative number, then digits. */
  function IntToString(n: int): (s: string)
    ensures |s| > 0 && (s[0] == '-' || IsDigit(s[0]))
    ensures forall i :: 0 < i < |s| ==> IsDigit(s[i])
  {
    if n < 0 then "-" + NatDigits(-n) else NatDigits(n)
  }

  /** The number a run of digits denotes. */
  function DigitsValue(s: string): nat
    requires AllDigits(s)
  {
    if |s| == 0 then 0 else DigitsValue(s[..|s| - 1]) * 10 + (s[|s| - 1] as int - '0' as int)
  }

  /** `s` with the white space `int.Parse` skips removed from both ends. */
  function TrimWhite(s: string): (t: string)
    ensures |t| <= |s|
    ensures |t| > 0 ==> !IsWhite(t[0]) && !IsWhite(t[|t| - 1])
    decreases |s|
  {
    if |s| > 0 && IsWhite(s[0]) then TrimWhite(s[1..])
    else if |s| > 0 && IsWhite(s[|s| - 1]) then TrimWhite(s[..|s| - 1])
    else s
  }

  /** `int.Parse(s)`: an optional sign followed by one or more digits, within
      the range of a C# `int`; anything else throws. */
  function ParseInt32(s: string): (r: Result<Int32, ParseError>)
    ensures TrimWhite(s) == "" ==> r == Failure(FormatError)
    ensures r.Success? && r.value < 0 ==> TrimWhite(s)[0] == '-'
    ensures r.Success? && r.value != 0 && TrimWhite(s)[0] == '-' ==> r.value < 0
  {
    var t := TrimWhite(s);
    var negative := |t| > 0 && t[0] == '-';
    var digits := if |t| > 0 && (t[0] == '-' || t[0] == '+') then t[1..] else t;
    if |digits| == 0 || !AllDigits(digits) then Failure(FormatError)
    else
      var v: int := if negative then -(DigitsValue(digits) as int) else DigitsValue(digits);
      if Int32Min <= v <= Int32Max then Success(v) else Failure(OverflowError)
  }

  lemma {:induction false} DigitsValueOfNatDigits(n: nat)
    ensures DigitsValue(NatDigits(n)) == n
    decreases n
  {
    if n >= 10 {
      var prefix := NatDigits(n / 10);
      var s := prefix + [DigitChar(n % 10)];
      assert s[..|s| - 1] == prefix;
      DigitsValueOfNatDigits(n / 10);
    }
  }

  /** Text written by `int.ToString()` reads back as the same number. */
  lemma ParseIntToString(n: Int32)
    ensures ParseInt32(IntToString(n)) == Success(n)
  {
    var text := IntToString(n);
    var magnitude: nat := if n < 0 then -(n as int) else n as int;
    var digits := NatDigits(magnitude);
    assert text[|text| - 1] == digits[|digits| - 1];
    assert TrimWhite(text) == text;
    DigitsValueOfNatDigits(magnitude);
    if n < 0 {
      assert text[1..] == digits;
    }
  }

  /** Empty text and text without digits are rejected. */
  lemma ParseRejectsEmpty()
    ensures ParseInt32("") == Failure(FormatError)
    ensures ParseInt32("-") == Failure(FormatError)
  {
  }
}

=== FILE: numerics.dfy ===
/** The arithmetic of the C# runtime that the picture geometry relies on:
    `double` as an exact real, an infinity or NaN, integers unbounded,
    truncating casts, the truncating `%` on `double` and on `int`, and
    `Math.Round` with its default midpoint rule. */
module Numerics {

  /** A C# `double` as the picture formulas meet it: an exact finite value,
      an infinity or NaN. Infinities carry no sign: every formula that can
      produce one adds at most the constant 0.5 to it and then only multiplies,
      divides, rounds, casts, tests for NaN or takes a remainder, and none of
      those results depends on the sign. A negative zero behaves as zero. */
  datatype Double = Finite(value: real) | Infinite | NaN

  /** `a * b`: an infinity times zero is NaN. */
  function DMul(a: Double, b: Double): (r: Double)
    ensures a.Finite? && b.Finite? ==> r == Finite(a.value * b.value)
    ensures a.NaN? || b.NaN? ==> r.NaN?
  {
    match (a, b)
    case (Finite(_), Finite(_)) => Finite(a.value * b.value)
    case (NaN, _) => NaN
    case (_, NaN) => NaN
    case (Finite(x), Infinite) => if x == 0.0 then NaN else Infinite
    case (Infinite, Finite(y)) => if y == 0.0 then NaN else Infinite
    case (Infinite, Infinite) => Infinite
  }

  /** `a / b`: a nonzero number over zero is infinite, zero over zero and an
      infinity over an infinity are NaN, a number over an infinity is zero. */
  function DDiv(a: Double, b: Double): (r: Double)
    ensures a.Finite? && b.Finite? && b.value != 0.0 ==> r == Finite(a.value / b.value)
    ensures a.Finite? && b == Finite(0.0) ==> (r.NaN? <==> a.value == 0.0) && (r.Infinite? <==> a.value != 0.0)
    ensures a.NaN? || b.NaN? ==> r.NaN?
  {
    match (a, b)
    case (Finite(x), Finite(y)) => if y != 0.0 then Finite(a.value / b.value) else if x == 0.0 then NaN else Infinite
    case (NaN, _) => NaN
    case (_, NaN) => NaN
    case (Finite(_), Infinite) => Finite(0.0)
    case (Infinite, Finite(_)) => Infinite
    case (Infinite, Infinite) => NaN
  }

  /** `a + c` for a finite constant `c`. */
  function DAdd(a: Double, c: real): (r: Double)
    ensures a.Finite? <==> r.Finite?
    ensures a.Finite? ==> r.value == a.value + c
    ensures a.NaN? <==> r.NaN?
  {
    match a
    case Finite(x) => Finite(x + c)
    case _ => a
  }

  /** `Math.Round(a, 0)`: rounds half to even; an infinity and NaN stay. */
  function DRound(a: Double): (r: Double)
    ensures a.Finite? ==> r.Finite? && Abs(r.value - a.value) <= 0.5
    ensures !a.Finite? ==> r == a
  {
    match a
    case Finite(x) => Finite(RoundHalfEven(x) as real)
    case _ => a
  }

  /** What `(int)` gives for NaN or an infinity. C# leaves the value
      unspecified; the x86 and x64 conversion instruction the .NET runtime
      uses returns this "integer indefinite" value, the least 32-bit integer. */
  const CastOfNonFinite: int := -0x8000_0000

  /** `(int)a`: truncates a finite value toward zero. */
  function DToInt(a: Double): (r: int)
    ensures a.Finite? && 0.0 <= a.value ==> 0 <= r && r as real <= a.value < r as real + 1.0
    ensures a.Finite? && a.value < 0.0 ==> r <= 0 && a.value <= r as real < a.value + 1.0
    ensures !a.Finite? ==> r == CastOfNonFinite
  {
    if a.Finite? then Trunc(a.value) else CastOfNonFinite
  }

  /** Casting a rounded finite value gives the rounded integer. */
  lemma CastRounded(x: real)
    ensures DToInt(DRound(Finite(x))) == RoundHalfEven(x)
  {
    var n := RoundHalfEven(x);
    assert (n as real).Floor == n;
    assert n < 0 ==> (-(n as real)).Floor == -n;
  }

  function Abs(x: real): real {
    if x < 0.0 then -x else x
  }

  /** `(int)x` and `Math.Truncate(x)`: rounds toward zero. */
  function Trunc(x: real): (r: int)
    ensures 0.0 <= x ==> 0 <= r && r as real <= x < r as real + 1.0
    ensures x < 0.0 ==> r <= 0 && x <= r as real < x + 1.0
  {
    if x >= 0.0 then x.Floor else -((-x).Floor)
  }

  /** True when `x` is a whole number. */
  predicate IsWhole(x: real) {
    x.Floor as real == x
  }

  /** True when `x` is a whole multiple of the integer `m`. */
  predicate IsMultipleOf(x: real, m: int) {
    IsWhole(x) && (m == 0 ==> x == 0.0) && (m != 0 ==> IsWhole(x / m as real))
  }

  /** Converting a product to `real` distributes over the factors. */
  lemma {:induction false} RealOfProduct(k: int, m: int)
    ensures (k * m) as real == k as real * m as real
    decreases if k < 0 then -k else k
  {
    if k > 0 {
      RealOfProduct(k - 1, m);
      assert k * m == (k - 1) * m + m;
      assert k as real * m as real == (k - 1) as real * m as real + m as real;
    } else if k < 0 {
      RealOfProduct(k + 1, m);
      assert k * m == (k + 1) * m - m;
      assert k as real * m as real == (k + 1) as real * m as real - m as real;
    }
  }

  /** `k * m` is a multiple of `m`. */
  lemma WholeMultiple(k: int, m: int)
    requires m != 0
    ensures IsMultipleOf(k as real * m as real, m)
  {
    RealOfProduct(k, m);
    assert (k as real * m as real) / m as real == k as real;
  }

  /** The C# `%` operator on `double`: the remainder takes the sign of the
      dividend and is smaller in magnitude than the divisor. */
  function DoubleRem(x: real, d: real): (r: real)
    requires d != 0.0
    ensures 0.0 <= x && 0.0 < d ==> 0.0 <= r < d
    ensures x < 0.0 && 0.0 < d ==> -d < r <= 0.0
  {
    RemBounds(x, d);
    x - Trunc(x / d) as real * d
  }

  lemma RemBounds(x: real, d: real)
    requires d != 0.0
    ensures 0.0 <= x && 0.0 < d ==> 0.0 <= x - Trunc(x / d) as real * d < d
    ensures x < 0.0 && 0.0 < d ==> -d < x - Trunc(x / d) as real * d <= 0.0
  {
    var q := x / d;
    var t := Trunc(q) as real;
    assert x == q * d;
    if d > 0.0 {
      if 0.0 <= x {
        if q < 0.0 {
          MulLt(q, 0.0, d);
        }
        ScaledBounds(x, q, d, t, t + 1.0);
      } else {
        if q >= 0.0 {
          MulLe(0.0, q, d);
        }
        ScaledBounds(t * d, t, d, q, q + 1.0);
        assert (q + 1.0) * d == q * d + d;
      }
    }
  }

  /** From `lo <= q < hi` and `x == q * d` with positive `d`. */
  lemma ScaledBounds(x: real, q: real, d: real, lo: real, hi: real)
    requires x == q * d && 0.0 < d && lo <= q < hi
    ensures lo * d <= x < hi * d
  {
    MulLe(lo, q, d);
    MulLt(q, hi, d);
  }

  /** The quotient whose multiple `DoubleRem` subtracts. */
  function DoubleQuot(x: real, d: real): int
    requires d != 0.0
  {
    Trunc(x / d)
  }

  lemma DoubleRemSplit(x: real, d: real)
    requires d != 0.0
    ensures x - DoubleRem(x, d) == DoubleQuot(x, d) as real * d
  {
  }

  /** The C# `%` operator on `int` (truncating division). */
  function IntRem(a: int, b: int): (r: int)
    requires b != 0
    ensures 0 <= a ==> 0 <= r < if b < 0 then -b else b
    ensures a < 0 ==> -(if b < 0 then -b else b) < r <= 0
  {
    if a >= 0 then a % b else -((-a) % b)
  }

  /** `Math.Round(x, 0)` with the default midpoint rule, round half to even. */
  function RoundHalfEven(x: real): (r: int)
    ensures Abs(r as real - x) <= 0.5
    ensures Abs(r as real - x) == 0.5 ==> r % 2 == 0
  {
    var f := x.Floor;
    var frac := x - f as real;
    if frac < 0.5 then f
    else if frac > 0.5 then f + 1
    else if f % 2 == 0 then f
    else f + 1
  }

  /** Truncating a whole number leaves it unchanged. */
  lemma TruncWhole(x: real)
    ensures IsWhole(x) ==> Trunc(x) as real == x
  {
    if x < 0.0 && IsWhole(x) {
      assert (-x).Floor == -(x.Floor);
    }
  }

  /** Rounding a whole number leaves it unchanged. */
  lemma RoundWhole(x: real)
    ensures IsWhole(x) ==> RoundHalfEven(x) as real == x
  {
  }

  lemma MulLe(a: real, b: real, c: real)
    requires a <= b && 0.0 <= c
    ensures a * c <= b * c
  {
  }

  lemma MulLt(a: real, b: real, c: real)
    requires a < b && 0.0 < c
    ensures a * c < b * c
  {
  }
}

=== FILE: picture_geometry.dfy ===
/** The picture geometry of the picture settings panel
    (win/CS/HandBrakeWPF/ViewModels/PictureSettingsViewModel.cs): the encode
    task's picture fields together with the scanned title's frame, and the
    formulas the panel derives from them. */
module PictureGeometry {
  import opened Wrappers
  import opened Numerics
  import opened EncodingTypes
  import opened PictureMath
  import opened IntText

  /** `System.Drawing.Size`. */
  datatype Size = Size(width: int, height: int) {
    /** `Size.IsEmpty`: both components are zero. */
    predicate IsEmpty() {
      width == 0 && height == 0
    }
  }

  /** The scanned title's frame size and pixel aspect, and the crop applied to it. */
  datatype Frame = Frame(resolution: Size, par: Size, crop: Cropping)

  /** The frame, and the encode task's picture settings as the panel's getters
      read them (an unset width, height or display width reads as 0). */
  datatype Picture = Picture(
    frame: Frame,
    mode: Anamorphic,
    modulus: Nullable<int>,
    keepAspect: bool,
    width: int,
    height: int,
    displayWidth: int,
    parWidth: int,
    parHeight: int)

  /** No title is loaded. */
  predicate Blank(f: Frame) {
    f.resolution.IsEmpty()
  }

  /** The cropped width, an unchecked `int` subtraction in the source: the
      exact difference wrapped into the 32-bit range. */
  function CroppedWidth(f: Frame): (r: Int32)
    ensures Int32Min <= f.resolution.width - f.crop.left - f.crop.right <= Int32Max ==>
              r == f.resolution.width - f.crop.left - f.crop.right
  {
    WrapInt32(f.resolution.width - f.crop.left - f.crop.right)
  }

  /** The cropped height, wrapped the same way. */
  function CroppedHeight(f: Frame): (r: Int32)
    ensures Int32Min <= f.resolution.height - f.crop.top - f.crop.bottom <= Int32Max ==>
              r == f.resolution.height - f.crop.top - f.crop.bottom
  {
    WrapInt32(f.resolution.height - f.crop.top - f.crop.bottom)
  }

  /** A loaded title with a positive frame, pixel aspect and cropped picture:
      the states in which every formula of the panel stays finite for a
      nonzero modulus. */
  predicate Loaded(f: Frame) {
    0 < f.resolution.width && 0 < f.resolution.height &&
    0 < f.par.width && 0 < f.par.height &&
    0 < CroppedWidth(f) && 0 < CroppedHeight(f)
  }

  /** `SourceAspect`: the display aspect as a pair, width * par_width over
      height * par_height; a component is zero exactly when one of its
      factors is. */
  function SourceAspect(f: Frame): (r: Size)
    ensures r.width == 0 <==> f.par.width == 0 || f.resolution.width == 0
    ensures r.height == 0 <==> f.par.height == 0 || f.resolution.height == 0
  {
    Size(f.par.width * f.resolution.width, f.par.height * f.resolution.height)
  }

  /** The size left after cropping, as the source computes it. */
  function Cropped(f: Frame): Size {
    Size(CroppedWidth(f), CroppedHeight(f))
  }

  /** A cropped picture with at least one column and one row. */
  predicate Visible(c: Size) {
    0 < c.width && 0 < c.height
  }

  /** The width at which the cropped picture `c` displays: its width scaled
      by the source pixel aspect `par`. */
  function SourceDisplayWidth(c: Size, par: Size): (r: real)
    requires par.height != 0
    ensures r * par.height as real == c.width as real * par.width as real
  {
    c.width as real * par.width as real / par.height as real
  }

  /** `sourceDisplayWidth` as the source computes it in `double`: infinite or
      NaN when the source pixel aspect height is zero. */
  function SourceDisplayWidthDouble(c: Size, par: Size): (r: Double)
    ensures par.height != 0 ==> r == Finite(SourceDisplayWidth(c, par))
    ensures par.height == 0 ==> !r.Finite?
  {
    DDiv(Finite(c.width as real * par.width as real), Finite(par.height as real))
  }

  /** The strict mode's display size (`None` falls through to it) for the
      cropped picture `c`: the source display width rounded half to even,
      and the cropped height. */
  function StrictSize(c: Size, par: Size): (r: Size)
    ensures r.height == c.height
    ensures par.height != 0 ==>
              Abs(r.width as real - SourceDisplayWidth(c, par)) <= 0.5 &&
              (Abs(r.width as real - SourceDisplayWidth(c, par)) == 0.5 ==> r.width % 2 == 0)
    ensures par.height == 0 ==> r.width == CastOfNonFinite
  {
    if par.height != 0 then
      CastRounded(SourceDisplayWidth(c, par));
      Size(DToInt(DRound(SourceDisplayWidthDouble(c, par))), c.height)
    else
      Size(DToInt(DRound(SourceDisplayWidthDouble(c, par))), c.height)
  }

  /** The height the custom mode reports: the height rounded to the modulus,
      0 with no modulus, and the cast of NaN for a zero modulus. */
  function CustomHeight(modulus: Nullable<int>, height: int): (r: int)
    ensures modulus.Null? ==> r == 0
    ensures modulus == Some(0) ==> r == CastOfNonFinite
    ensures modulus.Some? && modulus.value != 0 ==> IsMultipleOf(r as real, modulus.value)
    ensures modulus.Some? && modulus.value != 0 && IsMultipleOf(height as real, modulus.value) ==> r == height
  {
    var v := GetModulusValueDouble(Finite(height as real), modulus);
    TruncWhole(if v.Finite? then v.value else 0.0);
    DToInt(v)
  }

  /** The loose mode's output width before truncation: the width rounded to
      the modulus, a multiple of it. */
  function LooseWidth(modulus: Nullable<int>, width: int): (r: real)
    requires modulus != Some(0)
    ensures modulus.Null? ==> r == 0.0
    ensures modulus.Some? ==> IsMultipleOf(r, modulus.value)
  {
    GetModulusValue(width as real, modulus)
  }

  /** The loose mode's output height: the height that keeps the storage
      aspect of the cropped picture, plus a half, rounded to the modulus. */
  function LooseHeight(c: Size, modulus: Nullable<int>, width: int): (r: real)
    requires Visible(c) && modulus != Some(0)
    ensures modulus.Some? ==> IsMultipleOf(r, modulus.value)
  {
    var storageAspect := c.width as real / c.height as real;
    GetModulusValue(LooseWidth(modulus, width) / storageAspect + 0.5, modulus)
  }

  /** The loose mode's display width before truncation: the output width
      times the output pixel aspect (pixelAspectWidth / pixelAspectHeight,
      where pixelAspectHeight is the output width), or 0 where the source's
      formula gives NaN. */
  function LooseDisplayWidth(c: Size, par: Size, modulus: Nullable<int>, width: int): (r: real)
    requires Visible(c) && par.height != 0 && modulus != Some(0)
    ensures LooseWidth(modulus, width) == 0.0 ==> r == 0.0
    ensures LooseWidth(modulus, width) != 0.0 ==>
              r * c.height as real == LooseHeight(c, modulus, width) * SourceDisplayWidth(c, par)
  {
    GuardedScale(LooseWidth(modulus, width),
                 PixelAspectWidth(LooseHeight(c, modulus, width), SourceDisplayWidth(c, par), c.height as real))
  }

  /** The loose mode's pixel aspect width: the output height times the
      source display width over the cropped height. */
  function PixelAspectWidth(height: real, sourceDisplayWidth: real, croppedHeight: real): (r: real)
    requires croppedHeight != 0.0
    ensures r * croppedHeight == height * sourceDisplayWidth
  {
    height * sourceDisplayWidth / croppedHeight
  }

  /** `calcWidth * pixelAspectWidth / calcWidth`, with the NaN of a zero
      width turned into 0 as the source's `double.IsNaN` guard does. */
  function GuardedScale(calcWidth: real, pixelAspectWidth: real): (r: real)
    ensures calcWidth != 0.0 ==> r == pixelAspectWidth
    ensures calcWidth == 0.0 ==> r == 0.0
  {
    if calcWidth == 0.0 then 0.0 else calcWidth * pixelAspectWidth / calcWidth
  }

  /** The loose mode's display size for the cropped picture `c`, step by
      step in `double` as the source computes it. With no modulus it is 0x0;
      with a zero modulus or a zero cropped width the height is NaN, and the
      width NaN turned into 0. */
  function LooseSize(c: Size, par: Size, modulus: Nullable<int>, width: int): (r: Size)
    ensures modulus.Null? ==> r == Size(0, 0)
    ensures modulus.Some? && (modulus.value == 0 || c.width == 0) ==> r == Size(0, CastOfNonFinite)
  {
    var croppedWidth, croppedHeight := Finite(c.width as real), Finite(c.height as real);
    var storageAspect := DDiv(croppedWidth, croppedHeight);
    var calcWidth := GetModulusValueDouble(Finite(width as real), modulus);
    var calcHeight := GetModulusValueDouble(DAdd(DDiv(calcWidth, storageAspect), 0.5), modulus);
    var pixelAspectWidth := DDiv(DMul(calcHeight, SourceDisplayWidthDouble(c, par)), croppedHeight);
    var disWidthLoose := DDiv(DMul(calcWidth, pixelAspectWidth), calcWidth);
    Size(DToInt(if disWidthLoose.NaN? then Finite(0.0) else disWidthLoose), DToInt(calcHeight))
  }

  /** `CalculateAnamorphicSizes`: the display size the current settings give. */
  function CalculateAnamorphicSizes(p: Picture): (r: Size)
    ensures Blank(p.frame) ==> r == Size(0, 0)
    ensures !Blank(p.frame) && (p.mode == None || p.mode == Strict) ==>
              r.height == CroppedHeight(p.frame) &&
              (p.frame.par.height != 0 ==> r.width == RoundHalfEven(SourceDisplayWidth(Cropped(p.frame), p.frame.par))) &&
              (p.frame.par.height == 0 ==> r.width == CastOfNonFinite)
    ensures !Blank(p.frame) && p.mode == Loose && p.modulus.Null? ==> r == Size(0, 0)
    ensures !Blank(p.frame) && p.mode == Loose && p.modulus.Some? && (p.modulus.value == 0 || CroppedWidth(p.frame) == 0) ==>
              r == Size(0, CastOfNonFinite)
    ensures !Blank(p.frame) && p.mode == Custom ==>
              r.width == p.displayWidth && r.height == CustomHeight(p.modulus, p.height)
  {
    var f := p.frame;
    if Blank(f) then Size(0, 0)
    else
      match p.mode
      case None => StrictSize(Cropped(f), f.par)
      case Strict => StrictSize(Cropped(f), f.par)
      case Loose => LooseSize(Cropped(f), f.par, p.modulus, p.width)
      case Custom => Size(p.displayWidth, CustomHeight(p.modulus, p.height))
  }

  lemma PositiveProduct(a: real, b: real, c: real)
    requires 0.0 < a && 0.0 < b && 0.0 < c
    ensures 0.0 < a * b * c
  {
    MulLt(0.0, a, b);
    MulLt(0.0, a * b, c);
  }

  /** The divisor of the keep-aspect height: source height * source aspect
      width * cropped width, the source aspect width being par width * source
      width (`SourceAspect`, here without its 32-bit overflow). */
  function HeightDivisor(f: Frame): real {
    f.resolution.height as real * (f.par.width as real * f.resolution.width as real) * CroppedWidth(f) as real
  }

  /** The divisor of the keep-aspect width: source width * source aspect
      height * cropped height. */
  function WidthDivisor(f: Frame): real {
    f.resolution.width as real * (f.par.height as real * f.resolution.height as real) * CroppedHeight(f) as real
  }

  /** A loaded title gives both keep-aspect divisors a positive value. */
  lemma LoadedDivisors(f: Frame)
    requires Loaded(f)
    ensures 0.0 < HeightDivisor(f) && 0.0 < WidthDivisor(f)
  {
    var rw, rh := f.resolution.width as real, f.resolution.height as real;
    var pw, ph := f.par.width as real, f.par.height as real;
    PositiveProduct(pw, rw, 1.0);
    PositiveProduct(ph, rh, 1.0);
    PositiveProduct(rh, pw * rw, CroppedWidth(f) as real);
    PositiveProduct(rw, ph * rh, CroppedHeight(f) as real);
  }

  /** The dividend of the keep-aspect height for output width `w`: width *
      source width * source aspect height * cropped height. */
  function HeightDividend(f: Frame, w: real): real {
    w * f.resolution.width as real * (f.par.height as real * f.resolution.height as real) * CroppedHeight(f) as real
  }

  /** The dividend of the keep-aspect width for output height `h`. */
  function WidthDividend(f: Frame, h: real): real {
    h * f.resolution.height as real * (f.par.width as real * f.resolution.width as real) * CroppedWidth(f) as real
  }

  /** The height that keeps the display aspect for output width `w` with
      square output pixels, in the source's order of operations. */
  function HeightForWidth(f: Frame, w: real): (r: real)
    requires HeightDivisor(f) != 0.0
    ensures r * HeightDivisor(f) == HeightDividend(f, w)
  {
    HeightDividend(f, w) / HeightDivisor(f)
  }

  /** The width that keeps the display aspect for output height `h`. */
  function WidthForHeight(f: Frame, h: real): (r: real)
    requires WidthDivisor(f) != 0.0
    ensures r * WidthDivisor(f) == WidthDividend(f, h)
  {
    WidthDividend(f, h) / WidthDivisor(f)
  }

  /** A finite quotient rounded to a nonzero modulus and then to an integer
      is the multiple of the modulus itself. */
  lemma RoundedToModulus(num: real, divisor: real, modulus: Nullable<int>)
    requires modulus.Some? && modulus.value != 0 && divisor != 0.0
    ensures DToInt(DRound(GetModulusValueDouble(DDiv(Finite(num), Finite(divisor)), modulus))) as real ==
              GetModulusValue(num / divisor, modulus)
  {
    var v := GetModulusValue(num / divisor, modulus);
    RoundWhole(v);
    CastRounded(v);
  }

  /** The keep-aspect height for `width`, evaluated in `double`, rounded to
      the modulus and then to an integer: 0 with no modulus, the cast of NaN
      when the modulus or the divisor is zero, and otherwise the keep-aspect
      height rounded to the modulus. */
  function KeptHeight(f: Frame, modulus: Nullable<int>, width: int): (h: int)
    ensures modulus.Null? ==> h == 0
    ensures modulus.Some? && (modulus.value == 0 || HeightDivisor(f) == 0.0) ==> h == CastOfNonFinite
    ensures modulus.Some? && modulus.value != 0 && HeightDivisor(f) != 0.0 ==>
              h as real == GetModulusValue(HeightForWidth(f, width as real), modulus) &&
              IsMultipleOf(h as real, modulus.value)
  {
    var newHeight := DDiv(Finite(HeightDividend(f, width as real)), Finite(HeightDivisor(f)));
    var v := GetModulusValueDouble(newHeight, modulus);
    if modulus.Some? && modulus.value != 0 && HeightDivisor(f) != 0.0 then
      RoundedToModulus(HeightDividend(f, width as real), HeightDivisor(f), modulus);
      DToInt(DRound(v))
    else
      DToInt(DRound(v))
  }

  /** The keep-aspect width for `height`, evaluated the same way. */
  function KeptWidth(f: Frame, modulus: Nullable<int>, height: int): (w: int)
    ensures modulus.Null? ==> w == 0
    ensures modulus.Some? && (modulus.value == 0 || WidthDivisor(f) == 0.0) ==> w == CastOfNonFinite
    ensures modulus.Some? && modulus.value != 0 && WidthDivisor(f) != 0.0 ==>
              w as real == GetModulusValue(WidthForHeight(f, height as real), modulus) &&
              IsMultipleOf(w as real, modulus.value)
  {
    var newWidth := DDiv(Finite(WidthDividend(f, height as real)), Finite(WidthDivisor(f)));
    var v := GetModulusValueDouble(newWidth, modulus);
    if modulus.Some? && modulus.value != 0 && WidthDivisor(f) != 0.0 then
      RoundedToModulus(WidthDividend(f, height as real), WidthDivisor(f), modulus);
      DToInt(DRound(v))
    else
      DToInt(DRound(v))
  }
}

=== FILE: picture_math.dfy ===
/** The rounding primitives of the picture settings panel
    (win/CS/HandBrakeWPF/ViewModels/PictureSettingsViewModel.cs). */
module PictureMath {
  import opened Wrappers
  import opened Numerics
  import opened IntText

  /** `GetModulusValue`: rounds `value` to a multiple of the selected modulus,
      using the C# remainder and sending a remainder of at least half a step up.
      With no modulus selected the answer is 0; a zero modulus would give NaN. */
  function GetModulusValue(value: real, modulus: Nullable<int>): (r: real)
    requires modulus != Some(0)
    ensures modulus.Null? ==> r == 0.0
    ensures modulus.Some? ==> IsMultipleOf(r, modulus.value)
    ensures modulus.Some? && IsMultipleOf(value, modulus.value) ==> r == value
    ensures modulus.Some? && 0 < modulus.value && 0.0 <= value ==>
              0.0 <= r && Abs(r - value) <= modulus.value as real / 2.0
  {
    if modulus.Null? then 0.0
    else
      var m := modulus.value as real;
      var remainder := DoubleRem(value, m);
      ModulusCases(value, modulus.value);
      if remainder == 0.0 then value
      else if remainder >= m / 2.0 then value + (m - remainder)
      else value - remainder
  }

  /** `GetModulusValue` on a `double` that may be infinite or NaN, and with a
      modulus that may be zero: the remainder is then NaN, and so is the
      answer. With no modulus selected the answer is 0 whatever the value. */
  function GetModulusValueDouble(value: Double, modulus: Nullable<int>): (r: Double)
    ensures modulus.Null? ==> r == Finite(0.0)
    ensures modulus.Some? && (modulus.value == 0 || !value.Finite?) ==> r.NaN?
    ensures modulus.Some? && modulus.value != 0 && value.Finite? ==>
              r.Finite? && IsMultipleOf(r.value, modulus.value)
  {
    if modulus.Null? then Finite(0.0)
    else if modulus.value == 0 || !value.Finite? then NaN
    else Finite(GetModulusValue(value.value, modulus))
  }

  /** The two candidates `GetModulusValue` picks from are multiples of the modulus,
      and a zero remainder means the value already is one. */
  lemma ModulusCases(value: real, m: int)
    requires m != 0
    ensures IsMultipleOf(value - DoubleRem(value, m as real), m)
    ensures IsMultipleOf(value - DoubleRem(value, m as real) + m as real, m)
    ensures IsMultipleOf(value, m) <==> DoubleRem(value, m as real) == 0.0
  {
    LowerCandidate(value, m);
    UpperCandidate(value, m);
    if IsMultipleOf(value, m) {
      ExactQuotient(value, m);
    }
  }

  lemma LowerCandidate(value: real, m: int)
    requires m != 0
    ensures IsMultipleOf(value - DoubleRem(value, m as real), m)
  {
    var q := DoubleQuot(value, m as real);
    DoubleRemSplit(value, m as real);
    var a := value - DoubleRem(value, m as real);
    assert a == q as real * m as real;
    WholeMultiple(q, m);
  }

  lemma UpperCandidate(value: real, m: int)
    requires m != 0
    ensures IsMultipleOf(value - DoubleRem(value, m as real) + m as real, m)
  {
    var q := DoubleQuot(value, m as real);
    DoubleRemSplit(value, m as real);
    var a := value - DoubleRem(value, m as real) + m as real;
    assert a == q as real * m as real + m as real;
    NextMultiple(q, m);
  }

  lemma NextMultiple(q: int, m: int)
    requires m != 0
    ensures IsMultipleOf(q as real * m as real + m as real, m)
  {
    var k := q + 1;
    WholeMultiple(k, m);
    var a := k as real * m as real;
    var b := q as real * m as real + m as real;
    assert a == b;
    assert IsMultipleOf(a, m);
  }

  lemma ExactQuotient(value: real, m: int)
    requires m != 0 && IsMultipleOf(value, m)
    ensures DoubleRem(value, m as real) == 0.0
  {
    var k := (value / m as real).Floor;
    assert Trunc(value / m as real) == k;
    assert value == (value / m as real) * m as real;
  }

  /** `CorrectForModulus`: makes a crop value even by moving an odd value one
      step, by adding the C# remainder `newValue % 2` when the value grew and
      subtracting it otherwise. The addition is unchecked 32-bit arithmetic,
      so the largest `int`, which is odd, wraps round to the least. */
  function CorrectForModulus(oldValue: int, newValue: Int32): (r: Int32)
    ensures r % 2 == 0
    ensures newValue % 2 == 0 ==> r == newValue
    ensures newValue == Int32Max && oldValue < newValue ==> r == Int32Min
    ensures !(newValue == Int32Max && oldValue < newValue) ==> -1 <= r - newValue <= 1
    ensures 0 <= newValue < Int32Max && oldValue < newValue ==> newValue <= r
    ensures 0 <= newValue && newValue <= oldValue ==> r <= newValue
  {
    var remainder := IntRem(newValue, 2);
    if remainder == 0 then newValue
    else if newValue > oldValue then WrapInt32(newValue + remainder)
    else WrapInt32(newValue - remainder)
  }

  /** `getRes`: the value, capped at `max`. */
  function GetRes(value: int, max: int): (r: int)
    ensures r <= value && r <= max
    ensures r == value || r == max
  {
    if value > max then max else value
  }

  /** For a non-negative value, `GetModulusValue` returns a nearest multiple of
      the modulus, and of two nearest multiples the larger: a remainder of
      exactly half a step rounds up. */
  lemma GetModulusValueNearest(value: real, m: int, k: int)
    requires 0 < m && 0.0 <= value
    ensures Abs(GetModulusValue(value, Some(m)) - value) <= Abs(k as real * m as real - value)
    ensures Abs(k as real * m as real - value) == Abs(GetModulusValue(value, Some(m)) - value) ==>
              k as real * m as real <= GetModulusValue(value, Some(m))
  {
    RemainderCell(value, m);
    ModulusRule(value, m);
    NearestFromRemainder(value, m, k);
  }

  /** `NearestMultiple` for the quotient and remainder `DoubleRem` gives. */
  lemma NearestFromRemainder(value: real, m: int, k: int)
    requires 0 < m
    requires value - DoubleRem(value, m as real) == DoubleQuot(value, m as real) as real * m as real
    requires 0.0 <= DoubleRem(value, m as real) < m as real
    ensures var rem := DoubleRem(value, m as real);
            var r := if rem == 0.0 then value else if rem >= m as real / 2.0 then value + (m as real - rem) else value - rem;
            Abs(r - value) <= Abs(k as real * m as real - value) &&
            (Abs(k as real * m as real - value) == Abs(r - value) ==> k as real * m as real <= r)
  {
    var rem := DoubleRem(value, m as real);
    var r := if rem == 0.0 then value else if rem >= m as real / 2.0 then value + (m as real - rem) else value - rem;
    NearestMultiple(value, m, DoubleQuot(value, m as real), k, rem, r);
  }

  /** A non-negative value lies in the cell `[q * m, q * m + m)` of the grid
      of multiples of a positive modulus, `DoubleRem` above its start. */
  lemma RemainderCell(value: real, m: int)
    requires 0 < m && 0.0 <= value
    ensures value - DoubleRem(value, m as real) == DoubleQuot(value, m as real) as real * m as real
    ensures 0.0 <= DoubleRem(value, m as real) < m as real
  {
    DoubleRemSplit(value, m as real);
  }

  /** The rule `GetModulusValue` applies for a nonzero modulus. */
  lemma ModulusRule(value: real, m: int)
    requires m != 0
    ensures var rem := DoubleRem(value, m as real);
            GetModulusValue(value, Some(m)) ==
              if rem == 0.0 then value else if rem >= m as real / 2.0 then value + (m as real - rem) else value - rem
  {
  }

  /** The rounding rule of `GetModulusValue` on plain numbers: `value` lies
      `rem` above the multiple `q * m`, and `r` is the multiple the rule
      picks. */
  lemma NearestMultiple(value: real, m: int, q: int, k: int, rem: real, r: real)
    requires 0 < m
    requires value - rem == q as real * m as real && 0.0 <= rem < m as real
    requires r == if rem == 0.0 then value else if rem >= m as real / 2.0 then value + (m as real - rem) else value - rem
    ensures Abs(r - value) <= Abs(k as real * m as real - value)
    ensures Abs(k as real * m as real - value) == Abs(r - value) ==> k as real * m as real <= r
  {
    var base := q as real * m as real;
    var candidate := k as real * m as real;
    GridPosition(q, k, m, base, candidate);
    NearestOnGrid(value, base, m as real, rem, candidate, r);
  }

  /** The rounding rule of `GetModulusValue`, restated on the grid cell
      `[base, base + step)` that holds the value, for a candidate multiple
      lying on the same grid. */
  lemma NearestOnGrid(value: real, base: real, step: real, rem: real, candidate: real, r: real)
    requires 0.0 < step && value == base + rem && 0.0 <= rem < step
    requires r == if rem == 0.0 then value else if rem >= step / 2.0 then value + (step - rem) else value - rem
    requires candidate <= base - step || candidate == base || candidate == base + step || candidate >= base + 2.0 * step
    ensures Abs(r - value) <= Abs(candidate - value)
    ensures Abs(candidate - value) == Abs(r - value) ==> candidate <= r
  {
  }

  /** Where the multiple `candidate == k * m` lies relative to the multiple
      `base == q * m`. */
  lemma GridPosition(q: int, k: int, m: int, base: real, candidate: real)
    requires 0 < m && base == q as real * m as real && candidate == k as real * m as real
    ensures candidate <= base - m as real || candidate == base || candidate == base + m as real ||
            candidate >= base + 2.0 * m as real
  {
    MultipleDifference(k, q, m);
    if k < q {
      FactorBelow(k - q, m);
    } else if k == q {
      assert (k - q) as real * m as real == 0.0;
    } else if k == q + 1 {
      FactorOne(k - q, m);
    } else {
      FactorAbove(k - q, m);
    }
  }

  /** The distance between two multiples of `m` is the multiple of the
      difference of the factors. */
  lemma MultipleDifference(k: int, q: int, m: int)
    ensures k as real * m as real - q as real * m as real == (k - q) as real * m as real
  {
  }

  lemma FactorBelow(d: int, m: int)
    requires d <= -1 && 0 < m
    ensures d as real * m as real <= -(m as real)
  {
    MulLe(d as real, -1.0, m as real);
  }

  lemma FactorOne(d: int, m: int)
    requires d == 1
    ensures d as real * m as real == m as real
  {
  }

  lemma FactorAbove(d: int, m: int)
    requires 2 <= d && 0 < m
    ensures 2.0 * m as real <= d as real * m as real
  {
    MulLe(2.0, d as real, m as real);
  }

  /** For a negative value the C# remainder is negative, so `GetModulusValue`
      never rounds down: it returns the least multiple of the modulus that is
      not below the value. */
  lemma GetModulusValueNegative(value: real, m: int, k: int)
    requires 0 < m && value < 0.0
    ensures value <= GetModulusValue(value, Some(m)) < value + m as real
    ensures value <= k as real * m as real ==> GetModulusValue(value, Some(m)) <= k as real * m as real
  {
    DoubleRemSplit(value, m as real);
    CeilingMultiple(value, m, DoubleQuot(value, m as real), k, DoubleRem(value, m as real), GetModulusValue(value, Some(m)));
  }

  /** The rounding rule on plain numbers when `value` lies `-rem` below the
      multiple `q * m`: the rule picks that multiple, which no multiple not
      below the value undercuts. */
  lemma CeilingMultiple(value: real, m: int, q: int, k: int, rem: real, r: real)
    requires 0 < m
    requires value - rem == q as real * m as real && -(m as real) < rem <= 0.0
    requires r == if rem == 0.0 then value else if rem >= m as real / 2.0 then value + (m as real - rem) else value - rem
    ensures value <= r < value + m as real
    ensures value <= k as real * m as real ==> r <= k as real * m as real
  {
    assert r == q as real * m as real;
    if k < q {
      MulLe(k as real, (q - 1) as real, m as real);
      assert (q - 1) as real * m as real == q as real * m as real - m as real;
    } else {
      MulLe(q as real, k as real, m as real);
    }
  }

  /** Worked values: 1000 at modulus 16 has remainder 8, exactly half a step,
      and rounds up to 1008; 720.5 rounds down to 720; no modulus gives 0. */
  lemma GetModulusValueExamples()
    ensures GetModulusValue(1000.0, Some(16)) == 1008.0
    ensures GetModulusValue(720.5, Some(16)) == 720.0
    ensures GetModulusValue(1000.0, Null) == 0.0
  {
    assert Trunc(1000.0 / 16.0) == 62;
    assert Trunc(720.5 / 16.0) == 45;
  }

  /** Further worked values: 1080.5 has remainder 8.5 at modulus 16 and
      rounds up to 1088; 1920 and 1280 are already multiples of 16. */
  lemma GetModulusValueExamples1080()
    ensures GetModulusValue(1080.5, Some(16)) == 1088.0
    ensures GetModulusValue(1920.0, Some(16)) == 1920.0
    ensures GetModulusValue(1280.0, Some(16)) == 1280.0
  {
    assert Trunc(1080.5 / 16.0) == 67;
    assert Trunc(1920.0 / 16.0) == 120;
    assert Trunc(1280.0 / 16.0) == 80;
  }

  /** An odd negative crop value moves down when it grew and up otherwise,
      the opposite of the non-negative case, because the C# remainder of a
      negative odd number is -1. */
  lemma CorrectForModulusNegative(oldValue: int, newValue: Int32)
    requires newValue < 0 && newValue % 2 != 0
    ensures CorrectForModulus(oldValue, newValue) == newValue - 1 <==> oldValue < newValue
    ensures CorrectForModulus(oldValue, newValue) == newValue + 1 <==> newValue <= oldValue
  {
  }
}

=== FILE: picture_properties.dfy ===
/** Properties of the picture settings panel that relate several calls or
    compare the source's formulas with simpler reference formulas. */
module PictureProperties {
  import opened Wrappers
  import opened Numerics
  import opened IntText
  import opened EncodingTypes
  import opened PictureMath
  import opened PictureGeometry
  import opened PictureSettings

  /** A common nonzero factor cancels from a quotient. */
  lemma CancelFactor(x: real, y: real, a: real, num: real, den: real)
    requires y != 0.0 && a != 0.0 && num == x * a && den == y * a
    ensures num / den == x / y
  {
  }

  /** Regrouping the factors of a keep-aspect dividend. */
  lemma RegroupDividend(x: real, a: real, b: real, c: real, d: real)
    ensures x * a * (b * c) * d == (x * b * d) * (a * c)
  {
  }

  /** Regrouping the factors of a keep-aspect divisor. */
  lemma RegroupDivisor(a: real, b: real, c: real, d: real)
    ensures a * (b * c) * d == (b * d) * (c * a)
  {
  }

  /** The frame size cancels from a keep-aspect quotient: x * a * (p * b) * c
      over b * (q * a) * d is x * p * c over q * d. */
  lemma ReducedQuotient(x: real, a: real, p: real, b: real, c: real, q: real, d: real, num: real, den: real)
    requires 0.0 < a && 0.0 < b && 0.0 < q && 0.0 < d
    requires num == x * a * (p * b) * c && den == b * (q * a) * d
    ensures num / den == x * p * c / (q * d)
  {
    RegroupDividend(x, a, p, b, c);
    RegroupDivisor(b, q, a, d);
    PositiveProduct(q, d, 1.0);
    PositiveProduct(a, b, 1.0);
    CancelFactor(x * p * c, q * d, a * b, num, den);
  }

  /** The source's keep-aspect height is width * par_height * cropped height
      / (par_width * cropped width): the frame size cancels out. */
  lemma HeightForWidthReduced(f: Frame, w: real)
    requires Loaded(f)
    ensures HeightForWidth(f, w) ==
              w * f.par.height as real * CroppedHeight(f) as real / (f.par.width as real * CroppedWidth(f) as real)
  {
    ReducedQuotient(w, f.resolution.width as real, f.par.height as real, f.resolution.height as real, CroppedHeight(f) as real,
                    f.par.width as real, CroppedWidth(f) as real, HeightDividend(f, w), HeightDivisor(f));
  }

  /** The source's keep-aspect width is height * par_width * cropped width
      / (par_height * cropped height). */
  lemma WidthForHeightReduced(f: Frame, h: real)
    requires Loaded(f)
    ensures WidthForHeight(f, h) ==
              h * f.par.width as real * CroppedWidth(f) as real / (f.par.height as real * CroppedHeight(f) as real)
  {
    ReducedQuotient(h, f.resolution.height as real, f.par.width as real, f.resolution.width as real, CroppedWidth(f) as real,
                    f.par.height as real, CroppedHeight(f) as real, WidthDividend(f, h), WidthDivisor(f));
  }

  lemma ScaleRoundTrip(w: real, a: real, b: real, h: real, back: real)
    requires a != 0.0 && b != 0.0 && h == w * a / b && back == h * b / a
    ensures back == w
  {
  }

  lemma QuotientProduct(x: real, a: real, b: real, h: real, d: real)
    requires a != 0.0 && b != 0.0 && h == x * a / b && d == b / a
    ensures h * d == x
  {
  }

  /** Scaling by `p * c / (q * d)` and back by `q * d / (p * c)` is the identity. */
  lemma InverseScales(w: real, p: real, c: real, q: real, d: real, h: real, back: real)
    requires 0.0 < p && 0.0 < c && 0.0 < q && 0.0 < d
    requires h == w * p * c / (q * d) && back == h * q * d / (p * c)
    ensures back == w
  {
    PositiveProduct(p, c, 1.0);
    PositiveProduct(q, d, 1.0);
    assert w * p * c == w * (p * c);
    assert h * q * d == h * (q * d);
    ScaleRoundTrip(w, p * c, q * d, h, back);
  }

  /** Before rounding, the keep-aspect formulas of `WidthAdjust` and
      `HeightAdjust` are inverse to each other. */
  lemma KeptFormulasInverse(f: Frame, w: real)
    requires Loaded(f)
    ensures WidthForHeight(f, HeightForWidth(f, w)) == w
  {
    LoadedDivisors(f);
    var h := HeightForWidth(f, w);
    HeightForWidthReduced(f, w);
    WidthForHeightReduced(f, h);
    InverseScales(w, f.par.height as real, CroppedHeight(f) as real, f.par.width as real, CroppedWidth(f) as real,
                  h, WidthForHeight(f, h));
  }

  /** A height `w * p * c / (q * d)` times the display width `d * q / p` is `w * c`. */
  lemma AspectProduct(w: real, p: real, c: real, q: real, d: real, h: real, display: real)
    requires 0.0 < p && 0.0 < q && 0.0 < d
    requires h == w * p * c / (q * d) && display == d * q / p
    ensures h * display == w * c
  {
    PositiveProduct(q, d, 1.0);
    assert w * p * c == (w * c) * p;
    assert d * q / p == (q * d) / p;
    QuotientProduct(w * c, p, q * d, h, display);
  }

  /** Before rounding, the keep-aspect height gives square output pixels the
      display aspect of the cropped source: width / height equals the source
      display width / cropped height. */
  lemma HeightForWidthKeepsAspect(f: Frame, w: real)
    requires Loaded(f)
    ensures HeightForWidth(f, w) * SourceDisplayWidth(Cropped(f), f.par) == w * CroppedHeight(f) as real
  {
    LoadedDivisors(f);
    HeightForWidthReduced(f, w);
    AspectProduct(w, f.par.height as real, CroppedHeight(f) as real, f.par.width as real, CroppedWidth(f) as real,
                  HeightForWidth(f, w), SourceDisplayWidth(Cropped(f), f.par));
  }

  /** The height `WidthAdjust` sets under `None` with keep-aspect is the
      reference height width * par_height * cropped height / (par_width *
      cropped width), rounded to the modulus. */
  lemma KeptHeightReference(f: Frame, modulus: Nullable<int>, width: int)
    requires Loaded(f) && modulus != Some(0)
    ensures KeptHeight(f, modulus, width) as real ==
              GetModulusValue(width as real * f.par.height as real * CroppedHeight(f) as real /
                              (f.par.width as real * CroppedWidth(f) as real), modulus)
  {
    HeightForWidthReduced(f, width as real);
    RoundWhole(GetModulusValue(HeightForWidth(f, width as real), modulus));
  }

  /** The width `HeightAdjust` sets under `None` with keep-aspect is the
      reference width height * par_width * cropped width / (par_height *
      cropped height), rounded to the modulus. */
  lemma KeptWidthReference(f: Frame, modulus: Nullable<int>, height: int)
    requires Loaded(f) && modulus != Some(0)
    ensures KeptWidth(f, modulus, height) as real ==
              GetModulusValue(height as real * f.par.width as real * CroppedWidth(f) as real /
                              (f.par.height as real * CroppedHeight(f) as real), modulus)
  {
    WidthForHeightReduced(f, height as real);
    RoundWhole(GetModulusValue(WidthForHeight(f, height as real), modulus));
  }

  /** Running `WidthAdjust` a second time changes nothing. */
  lemma WidthAdjustIdempotent(s: Panel)
    ensures WidthAdjust(WidthAdjust(s)) == WidthAdjust(s)
  {
    var q := AdjustForWidth(s.picture);
    assert AdjustForWidth(q) == q;
  }

  /** Running `HeightAdjust` a second time changes nothing. */
  lemma HeightAdjustIdempotent(s: Panel)
    ensures HeightAdjust(HeightAdjust(s)) == HeightAdjust(s)
  {
    var q := AdjustForHeight(s.picture);
    assert AdjustForHeight(q) == q;
  }

  /** The display size depends neither on the keep-aspect flag nor on the
      custom pixel aspect fields: the custom mode reports the display width
      and the height as they are. */
  lemma DisplaySizeIgnoresAspectFields(p: Picture, keep: bool, parWidth: int, parHeight: int)
    ensures CalculateAnamorphicSizes(p.(keepAspect := keep, parWidth := parWidth, parHeight := parHeight)) ==
              CalculateAnamorphicSizes(p)
  {
  }

  /** Where the output width is not zero, the loose display width is the
      pixel aspect width: the width cancels out of `calcWidth * pixelAspectWidth / calcWidth`. */
  lemma LooseDisplayWidthReduced(c: Size, par: Size, modulus: Nullable<int>, width: int)
    requires Visible(c) && par.height != 0 && modulus != Some(0) && LooseWidth(modulus, width) != 0.0
    ensures LooseDisplayWidth(c, par, modulus, width) ==
              PixelAspectWidth(LooseHeight(c, modulus, width), SourceDisplayWidth(c, par), c.height as real)
  {
  }

  /** The pixel aspect width times the cropped height is the output height
      times the source display width. */
  lemma PixelAspectWidthTimesHeight(height: real, sourceDisplayWidth: real, croppedHeight: real)
    requires croppedHeight != 0.0
    ensures PixelAspectWidth(height, sourceDisplayWidth, croppedHeight) * croppedHeight == height * sourceDisplayWidth
  {
  }

  /** Under `Loose`, the display width over the output height is the film
      aspect, the source display width over the cropped height, before
      truncation to an integer. */
  lemma LooseKeepsFilmAspect(c: Size, par: Size, modulus: Nullable<int>, width: int)
    requires Visible(c) && par.height != 0 && modulus != Some(0) && LooseWidth(modulus, width) != 0.0
    ensures LooseDisplayWidth(c, par, modulus, width) * c.height as real ==
              LooseHeight(c, modulus, width) * SourceDisplayWidth(c, par)
  {
    LooseDisplayWidthReduced(c, par, modulus, width);
    PixelAspectWidthTimesHeight(LooseHeight(c, modulus, width), SourceDisplayWidth(c, par), c.height as real);
  }

  /** For a visible cropped picture, a nonzero pixel aspect height and a
      nonzero modulus the loose mode's `double` evaluation stays finite and
      agrees with the exact formulas: the display width and the height are
      `LooseDisplayWidth` and `LooseHeight`, truncated. */
  lemma LooseSizeExact(c: Size, par: Size, modulus: Nullable<int>, width: int)
    requires Visible(c) && par.height != 0 && modulus != Some(0)
    ensures LooseSize(c, par, modulus, width) ==
              Size(Trunc(LooseDisplayWidth(c, par, modulus, width)), Trunc(LooseHeight(c, modulus, width)))
  {
    var cw, ch := c.width as real, c.height as real;
    var storageAspect := cw / ch;
    NonNegativeQuotient(cw, ch, storageAspect);
    assert storageAspect != 0.0 by {
      assert storageAspect * ch == cw;
    }
    var calcWidth := LooseWidth(modulus, width);
    var calcHeight := LooseHeight(c, modulus, width);
    var sdw := SourceDisplayWidth(c, par);
    assert DDiv(Finite(cw), Finite(ch)) == Finite(storageAspect);
    assert GetModulusValueDouble(Finite(width as real), modulus) == Finite(calcWidth);
    assert GetModulusValueDouble(DAdd(DDiv(Finite(calcWidth), Finite(storageAspect)), 0.5), modulus) == Finite(calcHeight);
    PixelAspectWidthDouble(calcHeight, sdw, ch);
    GuardedScaleDouble(calcWidth, PixelAspectWidth(calcHeight, sdw, ch));
  }

  /** The pixel aspect width evaluated in `double` is finite for a nonzero
      cropped height. */
  lemma PixelAspectWidthDouble(height: real, sourceDisplayWidth: real, croppedHeight: real)
    requires croppedHeight != 0.0
    ensures DDiv(DMul(Finite(height), Finite(sourceDisplayWidth)), Finite(croppedHeight)) ==
              Finite(PixelAspectWidth(height, sourceDisplayWidth, croppedHeight))
  {
  }

  /** `calcWidth * pixelAspectWidth / calcWidth` in `double`, with a NaN
      turned into 0, is `GuardedScale`. */
  lemma GuardedScaleDouble(calcWidth: real, pixelAspectWidth: real)
    ensures var d := DDiv(DMul(Finite(calcWidth), Finite(pixelAspectWidth)), Finite(calcWidth));
            (if d.NaN? then Finite(0.0) else d) == Finite(GuardedScale(calcWidth, pixelAspectWidth))
  {
  }

  lemma NonNegativeQuotient(x: real, y: real, q: real)
    requires 0.0 <= x && 0.0 < y && q == x / y
    ensures 0.0 <= q
  {
  }

  /** Under `Loose`, for a non-negative width and a positive modulus the
      output height is a nearest multiple of the modulus to the height that
      keeps the storage aspect, plus a half; of two nearest, the larger. */
  lemma LooseHeightNearest(c: Size, m: int, width: int, k: int)
    requires Visible(c) && 0 < m && 0 <= width
    ensures var target := LooseWidth(Some(m), width) / (c.width as real / c.height as real) + 0.5;
            Abs(LooseHeight(c, Some(m), width) - target) <= Abs(k as real * m as real - target) &&
            (Abs(LooseHeight(c, Some(m), width) - target) == Abs(k as real * m as real - target) ==>
               k as real * m as real <= LooseHeight(c, Some(m), width))
  {
    var storageAspect := c.width as real / c.height as real;
    var calcWidth := LooseWidth(Some(m), width);
    var scaled := calcWidth / storageAspect;
    NonNegativeQuotient(c.width as real, c.height as real, storageAspect);
    NonNegativeQuotient(calcWidth, storageAspect, scaled);
    GetModulusValueNearest(scaled + 0.5, m, k);
  }

  /** A panel with an uncropped title of the given size and pixel aspect,
      modulus 16, keep-aspect on, and the output size set to the source size. */
  function Opened(resolution: Size, par: Size, mode: Anamorphic): Panel {
    Panel(Picture(Frame(resolution, par, Cropping(0, 0, 0, 0)), mode, Some(16), true,
                  resolution.width, resolution.height, resolution.width, par.width, par.height),
          NoTitleSelected, Controls(true, true, false, true, false))
  }

  /** Strict on a square-pixel 1080p title reports the source size. */
  lemma StrictSquarePixels()
    ensures SetMode(Opened(Size(1920, 1080), Size(1, 1), None), Strict).displaySize == Dimensions(Size(1920, 1080))
  {
    assert Cropped(Frame(Size(1920, 1080), Size(1, 1), Cropping(0, 0, 0, 0))) == Size(1920, 1080);
    assert RoundHalfEven(1920.0 * 1.0 / 1.0) == 1920;
  }

  /** Strict on a 720x480 title with pixel aspect 10:11 reports 655x480: the
      display width 7200 / 11 = 654.54... rounds to 655. */
  lemma StrictNtscWidescreen()
    ensures SetMode(Opened(Size(720, 480), Size(10, 11), None), Strict).displaySize == Dimensions(Size(655, 480))
  {
    assert (720.0 * 10.0 / 11.0).Floor == 654;
    assert RoundHalfEven(720.0 * 10.0 / 11.0) == 655;
  }

  /** The loose-mode output height for an uncropped 1080p picture at width
      1280: 1280 / (1920 / 1080) + 0.5 = 720.5 rounds to 720. */
  lemma Loose1080Height1280()
    ensures LooseHeight(Size(1920, 1080), Some(16), 1280) == 720.0
  {
    GetModulusValueExamples();
    GetModulusValueExamples1080();
    var storageAspect := 1920.0 / 1080.0;
    assert LooseWidth(Some(16), 1280) == 1280.0;
    assert 1280.0 / storageAspect + 0.5 == 720.5;
  }

  /** The loose-mode output height for an uncropped 1080p picture at width
      1920: 1920 / (1920 / 1080) + 0.5 = 1080.5 rounds to 1088. */
  lemma Loose1080Height1920()
    ensures LooseHeight(Size(1920, 1080), Some(16), 1920) == 1088.0
  {
    GetModulusValueExamples1080();
    var storageAspect := 1920.0 / 1080.0;
    assert LooseWidth(Some(16), 1920) == 1920.0;
    assert 1920.0 / storageAspect + 0.5 == 1080.5;
  }

  /** The loose-mode display width for an uncropped square-pixel 1080p
      picture at width 1280. */
  lemma Loose1080DisplayWidth1280()
    ensures Trunc(LooseDisplayWidth(Size(1920, 1080), Size(1, 1), Some(16), 1280)) == 1280
  {
    Loose1080Height1280();
    GetModulusValueExamples1080();
    LooseDisplayWidthReduced(Size(1920, 1080), Size(1, 1), Some(16), 1280);
    assert LooseDisplayWidth(Size(1920, 1080), Size(1, 1), Some(16), 1280) == 1280.0;
  }

  /** The loose-mode display width for an uncropped square-pixel 1080p
      picture at width 1920. */
  lemma Loose1080DisplayWidth1920()
    ensures Trunc(LooseDisplayWidth(Size(1920, 1080), Size(1, 1), Some(16), 1920)) == 1934
  {
    Loose1080Height1920();
    GetModulusValueExamples1080();
    LooseDisplayWidthReduced(Size(1920, 1080), Size(1, 1), Some(16), 1920);
    assert LooseDisplayWidth(Size(1920, 1080), Size(1, 1), Some(16), 1920) == 1088.0 * 1920.0 / 1080.0;
  }

  /** Loose on a square-pixel 1080p title at width 1280 reports 1280x720:
      the storage-aspect height 720 plus a half rounds down to 720. */
  lemma LooseAt1280()
    ensures var s := SetMode(Opened(Size(1920, 1080), Size(1, 1), None), Loose);
            SetWidth(s, 1280).displaySize == Dimensions(Size(1280, 720))
  {
    Loose1080Height1280();
    Loose1080DisplayWidth1280();
    LooseSizeExact(Size(1920, 1080), Size(1, 1), Some(16), 1280);
  }

  /** Loose on a square-pixel 1080p title at the full width reports
      1934x1088: the storage-aspect height 1080 plus a half has remainder 8.5
      at modulus 16 and rounds up to 1088. */
  lemma LooseAtFullWidth()
    ensures SetMode(Opened(Size(1920, 1080), Size(1, 1), None), Loose).displaySize == Dimensions(Size(1934, 1088))
  {
    Loose1080Height1920();
    Loose1080DisplayWidth1920();
    LooseSizeExact(Size(1920, 1080), Size(1, 1), Some(16), 1920);
  }

  /** Custom on a 1080p title with height 1000 reports height 1008: 1000 has
      remainder 8, half of the modulus 16, and rounds up. */
  lemma CustomHeight1000()
    ensures var s := SetMode(Opened(Size(1920, 1080), Size(1, 1), None), Custom);
            SetHeight(s, 1000).displaySize == Dimensions(Size(1920, 1008))
  {
    assert Trunc(1000.0 / 16.0) == 62;
    assert CustomHeight(Some(16), 1000) == 1008;
  }

  /** Under `Loose`, a crop that leaves no rows but some columns gives an
      infinite storage aspect; the height rounds from 0.5 to 0 at any modulus
      from 2 up, the pixel aspect width is NaN, and the NaN guard reports 0x0. */
  lemma LooseZeroCroppedHeight(c: Size, par: Size, m: int, width: int)
    requires c.height == 0 && c.width != 0 && 2 <= m
    ensures LooseSize(c, par, Some(m), width) == Size(0, 0)
  {
    var calcWidth := GetModulusValueDouble(Finite(width as real), Some(m));
    assert DDiv(Finite(c.width as real), Finite(0.0)) == Infinite;
    assert DDiv(calcWidth, Infinite) == Finite(0.0);
    assert Trunc(0.5 / m as real) == 0;
    assert GetModulusValue(0.5, Some(m)) == 0.0;
  }

  /** Strict on a 1080p title cropped by 1080 rows from the top reports
      1920x0: the crop setter accepts a crop that leaves no picture. */
  lemma StrictFullCrop()
    ensures var s := SetMode(Opened(Size(1920, 1080), Size(1, 1), None), Strict);
            SetCropTop(s, 1080).displaySize == Dimensions(Size(1920, 0))
  {
    var p := SetCropTop(SetMode(Opened(Size(1920, 1080), Size(1, 1), None), Strict), 1080).picture;
    FullTopCropFrame();
    StrictSizeOfFullTopCrop(p);
  }

  /** Cropping 1080 rows from the top of the strict 1080p panel keeps the
      value as it is, an even number. */
  lemma FullTopCropFrame()
    ensures var p := SetCropTop(SetMode(Opened(Size(1920, 1080), Size(1, 1), None), Strict), 1080).picture;
            p.frame == Frame(Size(1920, 1080), Size(1, 1), Cropping(1080, 0, 0, 0)) && p.mode == Strict
  {
    assert CorrectForModulus(0, 1080) == 1080;
  }

  /** The strict display size of a square-pixel 1080p frame without rows. */
  lemma StrictSizeOfFullTopCrop(p: Picture)
    requires p.frame == Frame(Size(1920, 1080), Size(1, 1), Cropping(1080, 0, 0, 0)) && p.mode == Strict
    ensures CalculateAnamorphicSizes(p) == Size(1920, 0)
  {
    assert Cropped(p.frame) == Size(1920, 0);
    StrictSquareSize(Size(1920, 0));
  }

  /** Strict on a 1080p title cropped by `int.MinValue` rows from the top
      reports 1920x-2147482568: the cropped height 1080 + 2^31 is an
      unchecked `int` subtraction and wraps to a negative number. */
  lemma StrictCropWraps()
    ensures var s := SetMode(Opened(Size(1920, 1080), Size(1, 1), None), Strict);
            SetCropTop(s, Int32Min).displaySize == Dimensions(Size(1920, -2147482568))
  {
    var p := SetCropTop(SetMode(Opened(Size(1920, 1080), Size(1, 1), None), Strict), Int32Min).picture;
    MinimumTopCropFrame();
    StrictSizeOfMinimumTopCrop(p);
  }

  /** `int.MinValue` is even, so the top crop setter keeps it. */
  lemma MinimumTopCropFrame()
    ensures var p := SetCropTop(SetMode(Opened(Size(1920, 1080), Size(1, 1), None), Strict), Int32Min).picture;
            p.frame == Frame(Size(1920, 1080), Size(1, 1), Cropping(Int32Min, 0, 0, 0)) && p.mode == Strict
  {
    assert CorrectForModulus(0, Int32Min) == Int32Min;
  }

  /** The strict display size of a square-pixel 1080p frame whose top crop
      is `int.MinValue`: the height 1080 - int.MinValue wraps. */
  lemma StrictSizeOfMinimumTopCrop(p: Picture)
    requires p.frame == Frame(Size(1920, 1080), Size(1, 1), Cropping(Int32Min, 0, 0, 0)) && p.mode == Strict
    ensures CalculateAnamorphicSizes(p) == Size(1920, -2147482568)
  {
    assert Cropped(p.frame) == Size(1920, -2147482568);
    StrictSquareSize(Size(1920, -2147482568));
  }

  /** With square pixels the strict display size is the cropped size. */
  lemma StrictSquareSize(c: Size)
    ensures StrictSize(c, Size(1, 1)) == c
  {
    assert SourceDisplayWidth(c, Size(1, 1)) == c.width as real;
    RoundWhole(c.width as real);
  }

  /** The panel as its constructor leaves it: no title, no anamorphic mode,
      modulus 16, keep-aspect on, and the width and height controls enabled
      as their fields are initialised. */
  function Fresh(): Panel {
    Panel(Picture(Frame(Size(0, 0), Size(0, 0), Cropping(0, 0, 0, 0)), None, Some(16), true, 0, 0, 0, 0, 0),
          NoTitleSelected, Controls(true, true, false, false, false))
  }

  /** Setting the height before any title is loaded divides zero by zero in
      `HeightAdjust`: the width becomes the cast of NaN. */
  lemma HeightWithoutTitle(value: int)
    ensures SetHeight(Fresh(), value).picture.width == CastOfNonFinite
    ensures SetHeight(Fresh(), value).displaySize == NoTitleSelected
  {
  }

  /** Two texts joined by an 'x', where the first holds no 'x', split back
      at the first 'x' into the two texts. */
  lemma SplitAtFirstX(a: string, b: string)
    requires forall i :: 0 <= i < |a| ==> a[i] != 'x'
    ensures FirstIndexOf(a + "x" + b, 'x') == |a|
    ensures (a + "x" + b)[..|a|] == a && (a + "x" + b)[|a| + 1..] == b
  {
    var t := a + "x" + b;
    assert t[|a|] == 'x';
    assert forall i :: 0 <= i < |a| ==> t[i] == a[i];
    assert t[..|a|] == a;
    assert t[|a| + 1..] == b;
  }

  /** The label text reads back as the label, for dimensions in the range of
      a C# `int`; so distinct labels show distinct text. */
  lemma LabelTextRoundTrip(l: DisplayLabel)
    requires l.Dimensions? ==> Int32Min <= l.size.width <= Int32Max && Int32Min <= l.size.height <= Int32Max
    ensures ParseLabel(LabelText(l)) == Some(l)
  {
    if l.Dimensions? {
      var a, b := IntToString(l.size.width), IntToString(l.size.height);
      assert forall i :: 0 <= i < |a| ==> a[i] != 'x';
      ParseIntToString(l.size.width);
      ParseIntToString(l.size.height);
      ParseJoined(a, b, l.size.width, l.size.height);
    }
  }

  /** Two integer texts joined by an 'x', where the first holds no 'x',
      read back as the label of the two integers. */
  lemma ParseJoined(a: string, b: string, w: Int32, h: Int32)
    requires forall i :: 0 <= i < |a| ==> a[i] != 'x'
    requires ParseInt32(a) == Success(w) && ParseInt32(b) == Success(h)
    ensures ParseLabel(a + "x" + b) == Some(Dimensions(Size(w, h)))
  {
    SplitAtFirstX(a, b);
    JoinedNotBlankText(a, b);
  }

  /** A text with an 'x' in it is not the no-title text. */
  lemma JoinedNotBlankText(a: string, b: string)
    ensures a + "x" + b != "No Title Selected"
  {
    var t := a + "x" + b;
    assert t[|a|] == 'x';
    assert 'x' in t;
    assert 'x' !in "No Title Selected";
  }
}

=== FILE: picture_settings.dfy ===
/** The picture settings panel (win/CS/HandBrakeWPF/ViewModels/PictureSettingsViewModel.cs)
    as a state machine: the picture geometry plus the panel's own label and
    control flags, and one pure transition per property setter.
    Property-change notifications carry no state and are dropped. */
module PictureSettings {
  import opened Wrappers
  import opened Numerics
  import opened IntText
  import opened EncodingTypes
  import opened PictureMath
  import opened PictureGeometry

  /** Which controls the panel enables or shows. */
  datatype Controls = Controls(
    widthEnabled: bool,
    heightEnabled: bool,
    showCustomAnamorphic: bool,
    showModulus: bool,
    showDisplaySize: bool)

  /** The display size label: no title, or the computed display dimensions. */
  datatype DisplayLabel = NoTitleSelected | Dimensions(size: Size)

  datatype Panel = Panel(picture: Picture, displaySize: DisplayLabel, controls: Controls)

  /** The label `SetDisplaySize` shows for a picture. */
  function Label(p: Picture): (l: DisplayLabel)
    ensures l.NoTitleSelected? <==> Blank(p.frame)
  {
    if Blank(p.frame) then NoTitleSelected else Dimensions(CalculateAnamorphicSizes(p))
  }

  /** The text of the label: "No Title Selected", or "{width}x{height}". */
  function LabelText(l: DisplayLabel): string {
    match l
    case NoTitleSelected => "No Title Selected"
    case Dimensions(size) => IntToString(size.width) + "x" + IntToString(size.height)
  }

  /** The position of the first `c` in `s`, or `|s|` when there is none. */
  function FirstIndexOf(s: string, c: char): (i: nat)
    ensures i <= |s|
    ensures forall j :: 0 <= j < i ==> s[j] != c
    ensures i < |s| ==> s[i] == c
  {
    if |s| == 0 then 0 else if s[0] == c then 0 else 1 + FirstIndexOf(s[1..], c)
  }

  /** Reads a label back from its text: the fixed text, or two integers
      separated by the first 'x'. */
  function ParseLabel(t: string): Nullable<DisplayLabel> {
    if t == "No Title Selected" then Some(NoTitleSelected)
    else
      var i := FirstIndexOf(t, 'x');
      if i == |t| then Null
      else
        match (ParseInt32(t[..i]), ParseInt32(t[i + 1..]))
        case (Success(w), Success(h)) => Some(Dimensions(Size(w, h)))
        case _ => Null
  }

  /** The label agrees with the picture. */
  predicate Labelled(s: Panel) {
    s.displaySize == Label(s.picture)
  }

  /** `SetDisplaySize`: refreshes the label and nothing else. */
  function SetDisplaySize(s: Panel): (r: Panel)
    ensures r.picture == s.picture && r.controls == s.controls && Labelled(r)
  {
    s.(displaySize := Label(s.picture))
  }

  /** `WidthAdjust` on the picture: caps the width at the source width, then
      applies the mode's rule. Under `None` with keep-aspect a zero source
      aspect leaves the height as it is. */
  function AdjustForWidth(p: Picture): (q: Picture)
    ensures q.(width := p.width, height := p.height) == p
    ensures p.mode == Strict ==> q.width == 0 && q.height == 0
    ensures p.mode != Strict ==> q.width == GetRes(p.width, p.frame.resolution.width)
    ensures p.mode == Loose ==> q.height == 0
    ensures p.mode == Custom || (p.mode == None && (!p.keepAspect || SourceAspect(p.frame).IsEmpty())) ==>
              q.height == p.height
    ensures p.mode == None && p.keepAspect && !SourceAspect(p.frame).IsEmpty() ==>
              q.height == KeptHeight(q.frame, q.modulus, q.width)
  {
    var clamped := if p.width > p.frame.resolution.width then p.(width := p.frame.resolution.width) else p;
    match p.mode
    case None =>
      var sa := SourceAspect(clamped.frame);
      if p.keepAspect && !(sa.width == 0 && sa.height == 0) then
        clamped.(height := KeptHeight(clamped.frame, clamped.modulus, clamped.width))
      else clamped
    case Strict => clamped.(width := 0, height := 0)
    case Loose => clamped.(height := 0)
    case Custom => clamped
  }

  /** `WidthAdjust`, run after the width, the modulus or the keep-aspect flag
      changes. Under `None` with keep-aspect and a zero source aspect (both
      components zero: no title, or a 0:0 pixel aspect, among others) the
      source leaves the switch before refreshing the label. */
  function WidthAdjust(s: Panel): (r: Panel)
    ensures r.picture == AdjustForWidth(s.picture) && r.controls == s.controls
    ensures s.picture.mode == None && s.picture.keepAspect && SourceAspect(s.picture.frame).IsEmpty() ==>
              r.displaySize == s.displaySize
    ensures !(s.picture.mode == None && s.picture.keepAspect && SourceAspect(s.picture.frame).IsEmpty()) ==>
              Labelled(r)
  {
    var p := s.picture;
    var q := AdjustForWidth(p);
    if p.mode == None && p.keepAspect && SourceAspect(q.frame).IsEmpty() then s.(picture := q)
    else SetDisplaySize(s.(picture := q))
  }

  /** `HeightAdjust` on the picture: caps the height at the source height;
      under `None` with keep-aspect it recomputes the width, with no guard
      against a zero divisor. */
  function AdjustForHeight(p: Picture): (q: Picture)
    ensures q.(width := p.width, height := p.height) == p
    ensures q.height == GetRes(p.height, p.frame.resolution.height)
    ensures p.mode == None && p.keepAspect ==> q.width == KeptWidth(q.frame, q.modulus, q.height)
    ensures !(p.mode == None && p.keepAspect) ==> q.width == p.width
  {
    var clamped := if p.height > p.frame.resolution.height then p.(height := p.frame.resolution.height) else p;
    if p.mode == None && p.keepAspect then
      clamped.(width := KeptWidth(clamped.frame, clamped.modulus, clamped.height))
    else clamped
  }

  /** `HeightAdjust`, run after the height changes; only `Custom` refreshes
      the label. */
  function HeightAdjust(s: Panel): (r: Panel)
    ensures r.picture == AdjustForHeight(s.picture) && r.controls == s.controls
    ensures s.picture.mode == Custom ==> Labelled(r)
    ensures s.picture.mode != Custom ==> r.displaySize == s.displaySize
  {
    var q := AdjustForHeight(s.picture);
    if s.picture.mode == Custom then SetDisplaySize(s.(picture := q)) else s.(picture := q)
  }

  /** The `Width` setter. */
  function SetWidth(s: Panel, value: int): (r: Panel)
    ensures r.controls == s.controls
    ensures r.picture == AdjustForWidth(s.picture.(width := value))
  {
    WidthAdjust(s.(picture := s.picture.(width := value)))
  }

  /** The `Height` setter. */
  function SetHeight(s: Panel, value: int): (r: Panel)
    ensures r.controls == s.controls
    ensures r.picture == AdjustForHeight(s.picture.(height := value))
  {
    HeightAdjust(s.(picture := s.picture.(height := value)))
  }

  /** The `SelectedModulus` setter; `ModulusAdjust` is `WidthAdjust`. */
  function SetModulus(s: Panel, value: Nullable<int>): (r: Panel)
    ensures r.controls == s.controls
    ensures r.picture == AdjustForWidth(s.picture.(modulus := value))
  {
    WidthAdjust(s.(picture := s.picture.(modulus := value)))
  }

  /** The `MaintainAspectRatio` setter. */
  function SetKeepAspect(s: Panel, value: bool): (r: Panel)
    ensures r.controls == s.controls
    ensures r.picture == AdjustForWidth(s.picture.(keepAspect := value))
  {
    WidthAdjust(s.(picture := s.picture.(keepAspect := value)))
  }

  /** The `DisplayWidth` setter; `CustomAnamorphicAdjust` only refreshes the label. */
  function SetDisplayWidth(s: Panel, value: int): (r: Panel)
    ensures r.picture == s.picture.(displayWidth := value) && r.controls == s.controls && Labelled(r)
  {
    SetDisplaySize(s.(picture := s.picture.(displayWidth := value)))
  }

  /** The `ParWidth` setter. */
  function SetParWidth(s: Panel, value: int): (r: Panel)
    ensures r.picture == s.picture.(parWidth := value) && r.controls == s.controls && Labelled(r)
  {
    SetDisplaySize(s.(picture := s.picture.(parWidth := value)))
  }

  /** The `ParHeight` setter. */
  function SetParHeight(s: Panel, value: int): (r: Panel)
    ensures r.picture == s.picture.(parHeight := value) && r.controls == s.controls && Labelled(r)
  {
    SetDisplaySize(s.(picture := s.picture.(parHeight := value)))
  }

  /** The crop after each crop setter's evening step. */
  function CropTopTo(p: Picture, value: Int32): Picture {
    p.(frame := p.frame.(crop := p.frame.crop.(top := CorrectForModulus(p.frame.crop.top, value))))
  }

  function CropBottomTo(p: Picture, value: Int32): Picture {
    p.(frame := p.frame.(crop := p.frame.crop.(bottom := CorrectForModulus(p.frame.crop.bottom, value))))
  }

  function CropLeftTo(p: Picture, value: Int32): Picture {
    p.(frame := p.frame.(crop := p.frame.crop.(left := CorrectForModulus(p.frame.crop.left, value))))
  }

  function CropRightTo(p: Picture, value: Int32): Picture {
    p.(frame := p.frame.(crop := p.frame.crop.(right := CorrectForModulus(p.frame.crop.right, value))))
  }

  /** The `CropTop` setter: evens the value, then refreshes the label. Any
      crop is accepted, including one that leaves no picture. */
  function SetCropTop(s: Panel, value: Int32): (r: Panel)
    ensures r.picture == CropTopTo(s.picture, value)
    ensures r.picture.frame.crop.top % 2 == 0
    ensures !(value == Int32Max && s.picture.frame.crop.top < value) ==> -1 <= r.picture.frame.crop.top - value <= 1
    ensures r.picture.frame.crop.(top := s.picture.frame.crop.top) == s.picture.frame.crop
    ensures r.controls == s.controls && Labelled(r)
  {
    SetDisplaySize(s.(picture := CropTopTo(s.picture, value)))
  }

  function SetCropBottom(s: Panel, value: Int32): (r: Panel)
    ensures r.picture == CropBottomTo(s.picture, value)
    ensures r.picture.frame.crop.bottom % 2 == 0
    ensures !(value == Int32Max && s.picture.frame.crop.bottom < value) ==> -1 <= r.picture.frame.crop.bottom - value <= 1
    ensures r.picture.frame.crop.(bottom := s.picture.frame.crop.bottom) == s.picture.frame.crop
    ensures r.controls == s.controls && Labelled(r)
  {
    SetDisplaySize(s.(picture := CropBottomTo(s.picture, value)))
  }

  function SetCropLeft(s: Panel, value: Int32): (r: Panel)
    ensures r.picture == CropLeftTo(s.picture, value)
    ensures r.picture.frame.crop.left % 2 == 0
    ensures !(value == Int32Max && s.picture.frame.crop.left < value) ==> -1 <= r.picture.frame.crop.left - value <= 1
    ensures r.picture.frame.crop.(left := s.picture.frame.crop.left) == s.picture.frame.crop
    ensures r.controls == s.controls && Labelled(r)
  {
    SetDisplaySize(s.(picture := CropLeftTo(s.picture, value)))
  }

  function SetCropRight(s: Panel, value: Int32): (r: Panel)
    ensures r.picture == CropRightTo(s.picture, value)
    ensures r.picture.frame.crop.right % 2 == 0
    ensures !(value == Int32Max && s.picture.frame.crop.right < value) ==> -1 <= r.picture.frame.crop.right - value <= 1
    ensures r.picture.frame.crop.(right := s.picture.frame.crop.right) == s.picture.frame.crop
    ensures r.controls == s.controls && Labelled(r)
  {
    SetDisplaySize(s.(picture := CropRightTo(s.picture, value)))
  }

  /** `AnamorphicAdjust`, run after the mode changes: shows the label, sets
      the controls of the mode and resets the dimensions through the setters.
      The frame never changes; outside `Custom` neither do the keep-aspect
      flag, the display width and the pixel aspect fields. */
  function AnamorphicAdjust(s: Panel): (r: Panel)
    ensures Labelled(r)
    ensures r.picture.frame == s.picture.frame && r.picture.mode == s.picture.mode
    ensures s.picture.mode != Custom ==>
              r.picture.keepAspect == s.picture.keepAspect && r.picture.displayWidth == s.picture.displayWidth &&
              r.picture.parWidth == s.picture.parWidth && r.picture.parHeight == s.picture.parHeight
    ensures s.picture.mode == None ==>
              r.controls == Controls(true, true, false, true, false) && r.picture.modulus == Some(16) &&
              r.picture.width == s.picture.frame.resolution.width
    ensures s.picture.mode == None && s.picture.keepAspect && !SourceAspect(s.picture.frame).IsEmpty() ==>
              r.picture.height == KeptHeight(s.picture.frame, Some(16), s.picture.frame.resolution.width)
    ensures s.picture.mode == None && (!s.picture.keepAspect || SourceAspect(s.picture.frame).IsEmpty()) ==>
              r.picture.height == s.picture.height
    ensures s.picture.mode == Strict ==>
              r.controls == Controls(false, false, false, false, true) && r.picture.modulus == Some(16) &&
              r.picture.width == 0 && r.picture.height == GetRes(0, s.picture.frame.resolution.height)
    ensures s.picture.mode == Loose ==>
              r.controls == Controls(true, false, false, true, true) && r.picture.modulus == s.picture.modulus &&
              r.picture.width == s.picture.frame.resolution.width &&
              r.picture.height == GetRes(0, s.picture.frame.resolution.height)
    ensures s.picture.mode == Custom ==>
              r.controls == Controls(true, true, true, true, true) && r.picture.modulus == s.picture.modulus &&
              r.picture.keepAspect && r.picture.width == s.picture.frame.resolution.width &&
              r.picture.height == s.picture.height &&
              r.picture.parWidth == s.picture.frame.par.width && r.picture.parHeight == s.picture.frame.par.height &&
              r.picture.displayWidth == (if Blank(s.picture.frame) then 0 else s.picture.displayWidth)
  {
    var source := s.picture.frame.resolution;
    var shown := SetDisplaySize(s).(controls := s.controls.(showDisplaySize := true));
    match s.picture.mode
    case None =>
      var s1 := shown.(controls := Controls(true, true, false, true, false));
      var s2 := SetModulus(s1, Some(16));
      var s3 := SetWidth(s2, source.width);
      SetDisplaySize(s3)
    case Strict =>
      var s1 := shown.(controls := Controls(false, false, false, false, true));
      var s2 := SetModulus(s1, Some(16));
      var s3 := SetWidth(s2, 0);
      var s4 := SetHeight(s3, 0);
      SetDisplaySize(s4)
    case Loose =>
      var s1 := shown.(controls := Controls(true, false, false, true, true));
      var s2 := SetWidth(s1, source.width);
      var s3 := SetHeight(s2, 0);
      SetDisplaySize(s3)
    case Custom =>
      var s1 := shown.(controls := Controls(true, true, true, true, true));
      var s2 := SetKeepAspect(s1, true);
      var s3 := SetWidth(s2, source.width);
      var s4 := SetDisplayWidth(s3, CalculateAnamorphicSizes(s3.picture).width);
      var s5 := SetParWidth(s4, s.picture.frame.par.width);
      var s6 := SetParHeight(s5, s.picture.frame.par.height);
      SetDisplaySize(s6)
  }

  /** The `SelectedAnamorphicMode` setter: stores the mode and runs
      `AnamorphicAdjust`, which keeps the frame, labels the panel and resets
      the modulus and the width as the mode demands. */
  function SetMode(s: Panel, value: Anamorphic): (r: Panel)
    ensures r == AnamorphicAdjust(s.(picture := s.picture.(mode := value)))
    ensures r.picture.mode == value && r.picture.frame == s.picture.frame && Labelled(r)
    ensures value == None || value == Strict ==> r.picture.modulus == Some(16)
    ensures value == Loose || value == Custom ==> r.picture.modulus == s.picture.modulus
    ensures value == Strict ==> r.picture.width == 0
    ensures value != Strict ==> r.picture.width == s.picture.frame.resolution.width
  {
    AnamorphicAdjust(s.(picture := s.picture.(mode := value)))
  }
}

=== FILE: plist_export.dfy ===
/** `PlistUtility.AddEncodeSettings` (win/CS/HandBrake.ApplicationServices/Utilities/PlistUtility.cs)
    as a pure function from a preset to the key/value elements it writes,
    in the order it writes them. The audio list written before them, the
    audio fallback encoder and the video encoder are not part of this model. */
module PlistExport {
  import opened Wrappers
  import opened IntText
  import opened EncodingTypes
  import opened PresetModel

  /** The plist element that holds a value: `<integer>`, `<string>`, `<real>`,
      or the empty `<true/>` / `<false/>`. */
  datatype ElementType = IntegerElement | StringElement | RealElement | BooleanElement(flag: bool)

  /** A key element and the value element written after it. */
  datatype Entry = Entry(key: Key, elementType: ElementType, value: string)

  /** `getNullBoolValue`: an unset flag is written as allowed. */
  function GetNullBoolValue(value: Nullable<bool>): (r: string)
    ensures r == "1" || r == "0"
    ensures r == "0" <==> value == Some(false)
  {
    if value.Null? then "1" else if value.value then "1" else "0"
  }

  /** `AddEncodeElement`: an integer element is never written empty, because
      the plist reader rejects `<integer />`; it gets "0" instead. Every
      other value is written as given. */
  function AddEncodeElement(key: Key, elementType: ElementType, value: string): (e: Entry)
    ensures e.key == key && e.elementType == elementType
    ensures elementType == IntegerElement ==> e.value != ""
    ensures elementType == IntegerElement && value == "" ==> e.value == "0"
    ensures elementType != IntegerElement || value != "" ==> e.value == value
  {
    var written := if elementType == IntegerElement && value == "" then "0" else value;
    Entry(key, elementType, written)
  }

  /** `AddBooleanElement`: an empty `<true/>` or `<false/>` element. */
  function AddBooleanElement(key: Key, flag: bool): Entry {
    Entry(key, BooleanElement(flag), "")
  }

  function BoolText(b: bool): string {
    if b then "1" else "0"
  }

  /** `int?.ToString()`: empty for null. */
  function NullableIntText(n: Nullable<int>): (r: string)
    ensures n.Null? <==> r == ""
  {
    match n
    case Null => ""
    case Some(v) => IntToString(v)
  }

  /** `double?.ToString()`, with the runtime's number formatting as a parameter: empty for null. */
  function NullableRealText(n: Nullable<real>, formatDouble: real -> string): (r: string)
    ensures n.Null? ==> r == ""
    ensures n.Some? ==> r == formatDouble(n.value)
  {
    match n
    case Null => ""
    case Some(v) => formatDouble(v)
  }

  /** `(int)Anamorphic`: the enum's position. */
  function AnamorphicCode(a: Anamorphic): (r: int)
    ensures 0 <= r <= 3
  {
    match a
    case None => 0
    case Strict => 1
    case Loose => 2
    case Custom => 3
  }

  /** The decomb filter's code: "0" for Off only, each setting its own code. */
  function DecombCode(d: Decomb): (r: string)
    ensures r in {"0", "1", "2", "3", "4"}
    ensures r == "0" <==> d == Decomb.Off
  {
    match d
    case Off => "0"
    case Default => "2"
    case Fast => "3"
    case Bob => "4"
    case Custom => "1"
  }

  /** The deinterlace filter's code: "0" for Off only. */
  function DeinterlaceCode(d: Deinterlace): (r: string)
    ensures r in {"0", "1", "2", "3", "4", "5"}
    ensures r == "0" <==> d == Deinterlace.Off
  {
    match d
    case Off => "0"
    case Fast => "2"
    case Slow => "3"
    case Slower => "4"
    case Bob => "5"
    case Custom => "1"
  }

  /** The denoise filter's code: "0" for Off only. */
  function DenoiseCode(d: Denoise): (r: string)
    ensures r in {"0", "1", "2", "3", "4"}
    ensures r == "0" <==> d == Denoise.Off
  {
    match d
    case Off => "0"
    case Weak => "2"
    case Medium => "3"
    case Strong => "4"
    case Custom => "1"
  }

  /** The detelecine filter's code: 0 for Off only, 1 for Custom only. */
  function DetelecineCode(d: Detelecine): (r: int)
    ensures 0 <= r <= 2
    ensures r == 0 <==> d == Detelecine.Off
    ensures r == 1 <==> d == Detelecine.Custom
  {
    match d
    case Off => 0
    case Default => 2
    case Custom => 1
  }

  /** The file format text: MP4 for both MP4 and M4V, MKV otherwise. */
  function FileFormatText(f: OutputFormat): (r: string)
    ensures r == "MP4 file" || r == "MKV file"
    ensures r == "MP4 file" <==> f == Mp4 || f == M4V
  {
    if f == Mp4 || f == M4V then "MP4 file" else "MKV file"
  }

  /** `VideoQualityType`: 1 when a bitrate is set, else 2 when a quality is set, else 0. */
  function QualityTypeCode(t: EncodeTask): (r: int)
    ensures r == 1 <==> t.video.videoBitrate.Some?
    ensures r == 2 <==> t.video.videoBitrate.Null? && t.video.quality.Some?
    ensures r == 0 <==> t.video.videoBitrate.Null? && t.video.quality.Null?
  {
    if t.video.videoBitrate.Some? then 1 else if t.video.quality.Some? then 2 else 0
  }

  /** `UsesMaxPictureSettings`: the C# test `MaxWidth != 0 || MaxHeight != 0`
      on `int?` values, where a null compares unequal to 0. */
  function UsesMaxText(t: EncodeTask): (r: string)
    ensures r == "0" <==> t.picture.maxWidth == Some(0) && t.picture.maxHeight == Some(0)
  {
    if t.picture.maxWidth != Some(0) || t.picture.maxHeight != Some(0) then "1" else "0"
  }

  /** The number of elements `AddEncodeSettings` writes (the two encoder
      keys aside). */
  const WrittenCount: int := 49

  /** The position at which `AddEncodeSettings` writes each key: the keys
      in the order of the source, which is alphabetical but for
      `x264Option` last. The import-only `VideoFramerateMode` is never
      written. */
  function Position(k: Key): (i: int)
    ensures -1 <= i < WrittenCount
    ensures i == -1 <==> k == Video(VideoFramerateMode)
  {
    match k
    case Audio(AudioAllowAACPass) => 0
    case Audio(AudioAllowAC3Pass) => 1
    case Audio(AudioAllowDTSHDPass) => 2
    case Audio(AudioAllowDTSPass) => 3
    case Audio(AudioAllowMP3Pass) => 4
    case General(ChapterMarkers) => 5
    case Ignored(Default) => 6
    case Output(FileFormat) => 7
    case Ignored(Folder) => 8
    case Output(Mp4HttpOptimize) => 9
    case Output(Mp4LargeFile) => 10
    case Output(Mp4iPodCompatible) => 11
    case Picture(PictureAutoCrop) => 12
    case Picture(PictureBottomCrop) => 13
    case Filter(PictureDeblock) => 14
    case Filter(PictureDecomb) => 15
    case Filter(PictureDecombCustom) => 16
    case Ignored(PictureDecombDeinterlace) => 17
    case Filter(PictureDeinterlace) => 18
    case Filter(PictureDeinterlaceCustom) => 19
    case Filter(PictureDenoise) => 20
    case Filter(PictureDenoiseCustom) => 21
    case Filter(PictureDetelecine) => 22
    case Filter(PictureDetelecineCustom) => 23
    case Picture(PictureHeight) => 24
    case Picture(PictureKeepRatio) => 25
    case Picture(PictureLeftCrop) => 26
    case Ignored(PictureModulus) => 27
    case Picture(PicturePAR) => 28
    case Picture(PictureRightCrop) => 29
    case Picture(PictureTopCrop) => 30
    case Picture(PictureWidth) => 31
    case General(PresetBuildNumber) => 32
    case General(PresetDescription) => 33
    case General(PresetName) => 34
    case Ignored(Type) => 35
    case General(UsesMaxPictureSettings) => 36
    case General(UsesPictureFilters) => 37
    case General(UsesPictureSettings) => 38
    case Video(VideoAvgBitrate) => 39
    case Video(VideoFramerate) => 40
    case Ignored(VideFrameratePFR) => 41
    case Video(VideoGrayScale) => 42
    case Video(VideoQualitySlider) => 43
    case General(VideoQualityType) => 44
    case Ignored(VideoTargetSize) => 45
    case Video(VideoTurboTwoPass) => 46
    case Video(VideoTwoPass) => 47
    case General(X264Option) => 48
    case Video(VideoFramerateMode) => -1
  }

  /** The key of the element written at position `i`: the inverse of
      `Position`, so the two tables cannot disagree. */
  function KeyAt(i: int): (k: Key)
    requires 0 <= i < WrittenCount
    ensures Position(k) == i
  {
    if i == 0 then Audio(AudioAllowAACPass)
    else if i == 1 then Audio(AudioAllowAC3Pass)
    else if i == 2 then Audio(AudioAllowDTSHDPass)
    else if i == 3 then Audio(AudioAllowDTSPass)
    else if i == 4 then Audio(AudioAllowMP3Pass)
    else if i == 5 then General(ChapterMarkers)
    else if i == 6 then Ignored(IgnoredKey.Default)
    else if i == 7 then Output(FileFormat)
    else if i == 8 then Ignored(Folder)
    else if i == 9 then Output(Mp4HttpOptimize)
    else if i == 10 then Output(Mp4LargeFile)
    else if i == 11 then Output(Mp4iPodCompatible)
    else if i == 12 then Picture(PictureAutoCrop)
    else if i == 13 then Picture(PictureBottomCrop)
    else if i == 14 then Filter(PictureDeblock)
    else if i == 15 then Filter(PictureDecomb)
    else if i == 16 then Filter(PictureDecombCustom)
    else if i == 17 then Ignored(PictureDecombDeinterlace)
    else if i == 18 then Filter(PictureDeinterlace)
    else if i == 19 then Filter(PictureDeinterlaceCustom)
    else if i == 20 then Filter(PictureDenoise)
    else if i == 21 then Filter(PictureDenoiseCustom)
    else if i == 22 then Filter(PictureDetelecine)
    else if i == 23 then Filter(PictureDetelecineCustom)
    else if i == 24 then Picture(PictureHeight)
    else if i == 25 then Picture(PictureKeepRatio)
    else if i == 26 then Picture(PictureLeftCrop)
    else if i == 27 then Ignored(PictureModulus)
    else if i == 28 then Picture(PicturePAR)
    else if i == 29 then Picture(PictureRightCrop)
    else if i == 30 then Picture(PictureTopCrop)
    else if i == 31 then Picture(PictureWidth)
    else if i == 32 then General(PresetBuildNumber)
    else if i == 33 then General(PresetDescription)
    else if i == 34 then General(PresetName)
    else if i == 35 then Ignored(Type)
    else if i == 36 then General(UsesMaxPictureSettings)
    else if i == 37 then General(UsesPictureFilters)
    else if i == 38 then General(UsesPictureSettings)
    else if i == 39 then Video(VideoAvgBitrate)
    else if i == 40 then Video(VideoFramerate)
    else if i == 41 then Ignored(VideFrameratePFR)
    else if i == 42 then Video(VideoGrayScale)
    else if i == 43 then Video(VideoQualitySlider)
    else if i == 44 then General(VideoQualityType)
    else if i == 45 then Ignored(VideoTargetSize)
    else if i == 46 then Video(VideoTurboTwoPass)
    else if i == 47 then Video(VideoTwoPass)
    else General(X264Option)
  }

  /** Every key but the import-only `VideoFramerateMode` is written, at its position. */
  lemma PositionKeyAt(k: Key)
    requires k != Video(VideoFramerateMode)
    ensures 0 <= Position(k) < WrittenCount && KeyAt(Position(k)) == k
  {
  }

  /** The audio passthru elements. */
  function PassthruEntry(t: EncodeTask, k: Key): (e: Entry)
    requires 0 <= Position(k) < 5
    ensures e.key == k && e.elementType == IntegerElement
    ensures e.value == "0" || e.value == "1"
  {
    match k
    case Audio(AudioAllowAACPass) => AddEncodeElement(k, IntegerElement, GetNullBoolValue(t.passthru.aac))
    case Audio(AudioAllowAC3Pass) => AddEncodeElement(k, IntegerElement, GetNullBoolValue(t.passthru.ac3))
    case Audio(AudioAllowDTSHDPass) => AddEncodeElement(k, IntegerElement, GetNullBoolValue(t.passthru.dtsHd))
    case Audio(AudioAllowDTSPass) => AddEncodeElement(k, IntegerElement, GetNullBoolValue(t.passthru.dts))
    case Audio(AudioAllowMP3Pass) => AddEncodeElement(k, IntegerElement, GetNullBoolValue(t.passthru.mp3))
  }

  /** Chapter markers, the container, the fixed auto-crop flag and the bottom crop. */
  function OutputEntry(t: EncodeTask, k: Key): (e: Entry)
    requires 5 <= Position(k) < 14
    ensures e.key == k
  {
    match k
    case General(ChapterMarkers) => AddEncodeElement(k, IntegerElement, BoolText(t.includeChapterMarkers))
    case Ignored(Default) => AddEncodeElement(k, IntegerElement, "0")
    case Output(FileFormat) => AddEncodeElement(k, StringElement, FileFormatText(t.output.outputFormat))
    case Ignored(Folder) => AddBooleanElement(k, false)
    case Output(Mp4HttpOptimize) => AddEncodeElement(k, IntegerElement, BoolText(t.output.optimizeMp4))
    case Output(Mp4LargeFile) => AddEncodeElement(k, IntegerElement, BoolText(t.output.largeFile))
    case Output(Mp4iPodCompatible) => AddEncodeElement(k, IntegerElement, BoolText(t.output.ipod5GSupport))
    case Picture(PictureAutoCrop) => AddEncodeElement(k, IntegerElement, "1")
    case Picture(PictureBottomCrop) => AddEncodeElement(k, IntegerElement, IntToString(t.picture.cropping.bottom))
  }

  /** The filters. Each filter's custom text is written only when the filter
      is Custom; for the detelecine filter the text written is the parameter
      `detelecineCustom`. */
  function FilterEntry(t: EncodeTask, detelecineCustom: string, k: Key): (e: Entry)
    requires 14 <= Position(k) < 24
    ensures e.key == k
  {
    match k
    case Filter(PictureDeblock) => AddEncodeElement(k, IntegerElement, IntToString(t.filters.deblock))
    case Filter(PictureDecomb) => AddEncodeElement(k, IntegerElement, DecombCode(t.filters.decomb))
    case Filter(PictureDecombCustom) =>
      AddEncodeElement(k, StringElement, if t.filters.decomb == Decomb.Custom then t.filters.customDecomb else "")
    case Ignored(PictureDecombDeinterlace) => AddEncodeElement(k, IntegerElement, if t.filters.decomb != Decomb.Off then "0" else "1")
    case Filter(PictureDeinterlace) => AddEncodeElement(k, IntegerElement, DeinterlaceCode(t.filters.deinterlace))
    case Filter(PictureDeinterlaceCustom) =>
      AddEncodeElement(k, StringElement, if t.filters.deinterlace == Deinterlace.Custom then t.filters.customDeinterlace else "")
    case Filter(PictureDenoise) => AddEncodeElement(k, IntegerElement, DenoiseCode(t.filters.denoise))
    case Filter(PictureDenoiseCustom) =>
      AddEncodeElement(k, StringElement, if t.filters.denoise == Denoise.Custom then t.filters.customDenoise else "")
    case Filter(PictureDetelecine) => AddEncodeElement(k, IntegerElement, IntToString(DetelecineCode(t.filters.detelecine)))
    case Filter(PictureDetelecineCustom) =>
      AddEncodeElement(k, StringElement, if DetelecineCode(t.filters.detelecine) == 1 then detelecineCustom else "")
  }

  /** The picture settings. */
  function PictureEntry(t: EncodeTask, k: Key): (e: Entry)
    requires 24 <= Position(k) < 32
    ensures e.key == k && e.elementType == IntegerElement && e.value != ""
  {
    match k
    case Picture(PictureHeight) => AddEncodeElement(k, IntegerElement, NullableIntText(t.picture.height))
    case Picture(PictureKeepRatio) => AddEncodeElement(k, IntegerElement, BoolText(t.picture.keepDisplayAspect))
    case Picture(PictureLeftCrop) => AddEncodeElement(k, IntegerElement, IntToString(t.picture.cropping.left))
    case Ignored(PictureModulus) => AddEncodeElement(k, IntegerElement, NullableIntText(t.picture.modulus))
    case Picture(PicturePAR) => AddEncodeElement(k, IntegerElement, IntToString(AnamorphicCode(t.picture.anamorphic)))
    case Picture(PictureRightCrop) => AddEncodeElement(k, IntegerElement, IntToString(t.picture.cropping.right))
    case Picture(PictureTopCrop) => AddEncodeElement(k, IntegerElement, IntToString(t.picture.cropping.top))
    case Picture(PictureWidth) => AddEncodeElement(k, IntegerElement, NullableIntText(t.picture.width))
  }

  /** The preset's own information and settings; `build` is the build number
      the user settings hold. */
  function PresetEntry(p: Preset, build: int, k: Key): (e: Entry)
    requires 32 <= Position(k) < 39
    ensures e.key == k
  {
    match k
    case General(PresetBuildNumber) => AddEncodeElement(k, StringElement, IntToString(build))
    case General(PresetDescription) => AddEncodeElement(k, StringElement, "No Description")
    case General(PresetName) => AddEncodeElement(k, StringElement, p.name)
    case Ignored(Type) => AddEncodeElement(k, IntegerElement, "1")
    case General(UsesMaxPictureSettings) => AddEncodeElement(k, IntegerElement, UsesMaxText(p.task))
    case General(UsesPictureFilters) => AddEncodeElement(k, IntegerElement, "1")
    case General(UsesPictureSettings) => AddEncodeElement(k, IntegerElement, "2")
  }

  /** The video settings and the encoder options. */
  function VideoEntry(t: EncodeTask, formatDouble: real -> string, k: Key): (e: Entry)
    requires 39 <= Position(k) < WrittenCount
    ensures e.key == k
  {
    match k
    case Video(VideoAvgBitrate) => AddEncodeElement(k, StringElement, NullableIntText(t.video.videoBitrate))
    case Video(VideoFramerate) => AddEncodeElement(k, StringElement, NullableRealText(t.video.framerate, formatDouble))
    case Ignored(VideFrameratePFR) => AddEncodeElement(k, IntegerElement, BoolText(t.video.framerateMode == FramerateMode.PFR))
    case Video(VideoGrayScale) => AddEncodeElement(k, IntegerElement, BoolText(t.video.grayscale))
    case Video(VideoQualitySlider) => AddEncodeElement(k, RealElement, NullableRealText(t.video.quality, formatDouble))
    case General(VideoQualityType) => AddEncodeElement(k, IntegerElement, IntToString(QualityTypeCode(t)))
    case Ignored(VideoTargetSize) => AddEncodeElement(k, StringElement, "")
    case Video(VideoTurboTwoPass) => AddEncodeElement(k, IntegerElement, BoolText(t.video.turboFirstPass))
    case Video(VideoTwoPass) => AddEncodeElement(k, IntegerElement, BoolText(t.video.twoPass))
    case General(X264Option) => AddEncodeElement(k, StringElement, t.advancedEncoderOptions)
  }

  /** The element `AddEncodeSettings` writes for the key `k`, by the section
      of the source that writes it. */
  function WrittenEntry(p: Preset, build: int, formatDouble: real -> string, detelecineCustom: string, k: Key): (e: Entry)
    requires k != Video(VideoFramerateMode)
    ensures e.key == k
    ensures e.elementType == IntegerElement ==> e.value != ""
  {
    var i := Position(k);
    if i < 5 then PassthruEntry(p.task, k)
    else if i < 14 then OutputEntry(p.task, k)
    else if i < 24 then FilterEntry(p.task, detelecineCustom, k)
    else if i < 32 then PictureEntry(p.task, k)
    else if i < 39 then PresetEntry(p, build, k)
    else VideoEntry(p.task, formatDouble, k)
  }

  /** All the elements, in the order written, with `detelecineCustom` as
      the custom detelecine text: every key but `VideoFramerateMode` gets
      its element at its position, and no key is written twice. */
  function SettingsEntries(p: Preset, build: int, formatDouble: real -> string, detelecineCustom: string): (es: seq<Entry>)
    ensures |es| == WrittenCount
    ensures forall k :: k != Video(VideoFramerateMode) ==>
              0 <= Position(k) < |es| && es[Position(k)] == WrittenEntry(p, build, formatDouble, detelecineCustom, k)
    ensures forall i, j :: 0 <= i < j < |es| ==> es[i].key != es[j].key
  {
    assert forall k :: k != Video(VideoFramerateMode) ==> KeyAt(Position(k)) == k by {
      forall k | k != Video(VideoFramerateMode) {
        PositionKeyAt(k);
      }
    }
    seq(WrittenCount, i requires 0 <= i < WrittenCount => WrittenEntry(p, build, formatDouble, detelecineCustom, KeyAt(i)))
  }

  /** `AddEncodeSettings` as the source writes it: the custom detelecine
      element carries the custom decomb text. */
  function EncodeSettingsAsWritten(p: Preset, build: int, formatDouble: real -> string): (es: seq<Entry>)
    ensures |es| == WrittenCount
    ensures es[Position(Filter(PictureDetelecineCustom))].value ==
              if p.task.filters.detelecine == Detelecine.Custom then p.task.filters.customDecomb else ""
  {
    SettingsEntries(p, build, formatDouble, p.task.filters.customDecomb)
  }

  /** `AddEncodeSettings` with the custom detelecine element carrying the
      custom detelecine text. */
  function EncodeSettings(p: Preset, build: int, formatDouble: real -> string): (es: seq<Entry>)
    ensures |es| == WrittenCount
    ensures es[Position(Filter(PictureDetelecineCustom))].value ==
              if p.task.filters.detelecine == Detelecine.Custom then p.task.filters.customDetelecine else ""
  {
    SettingsEntries(p, build, formatDouble, p.task.filters.customDetelecine)
  }

  /** The key and value texts a reader of the written dictionary sees: each
      key text names the element's key, and the value is the element's. */
  function ExportPairs(es: seq<Entry>): (pairs: seq<(string, string)>)
    ensures |pairs| == |es|
    ensures forall i :: 0 <= i < |es| ==> KeyOf(pairs[i].0) == Some(es[i].key) && pairs[i].1 == es[i].value
  {
    assert forall i :: 0 <= i < |es| ==> KeyOf(KeyName(es[i].key)) == Some(es[i].key) by {
      forall i | 0 <= i < |es| {
        KeyNameRoundTrip(es[i].key);
      }
    }
    seq(|es|, i requires 0 <= i < |es| => (KeyName(es[i].key), es[i].value))
  }
}

=== FILE: plist_import.dfy ===
/** `PlistUtility.Import` (win/CS/HandBrake.ApplicationServices/Utilities/PlistUtility.cs)
    without the XML: the preset dictionary is the sequence of its key texts
    and value texts (the inner text of each value element), read front to
    back into an encode task, after which the quality mode, the filter
    reset and the maximum-size rule are applied. */
module PlistImport {
  import opened Wrappers
  import opened IntText
  import opened EncodingTypes
  import opened PresetModel

  /** The helpers the import calls but this model does not define:
      `fileFormat` stands for `Converters.GetFileFormat` applied to the text
      with "file" removed and trimmed, `parseDouble` for `double.Parse`. */
  datatype Helpers = Helpers(fileFormat: string -> OutputFormat, parseDouble: string -> Result<real, ParseError>)

  /** The import's working state: the task being filled, the preset's text
      fields, and the three locals resolved after the loop. */
  datatype ImportState = ImportState(
    task: EncodeTask,
    name: string,
    description: string,
    version: string,
    useFilters: bool,
    pictureSettingsMode: PresetPictureSettingsMode,
    qualityMode: string)

  /** The state before the first key: the new preset's text fields and its
      new task, filters off, no picture settings mode, no quality mode. */
  function Start(blank: Preset): (s: ImportState)
    ensures s.task == blank.task && !s.useFilters && s.qualityMode == ""
    ensures s.pictureSettingsMode == PresetPictureSettingsMode.None
  {
    ImportState(blank.task, blank.name, blank.description, blank.version, false, PresetPictureSettingsMode.None, "")
  }

  /** A flag value: only the text "1" is true. */
  function Flag(value: string): bool {
    value == "1"
  }

  /** `PicturePAR`: "0" None, "2" Loose, "3" Custom; any other text reaches
      the switch's default and is Strict. */
  function DecodeAnamorphic(value: string): (r: Anamorphic)
    ensures r == Anamorphic.None <==> value == "0"
    ensures r == Anamorphic.Loose <==> value == "2"
    ensures r == Anamorphic.Custom <==> value == "3"
    ensures r == Anamorphic.Strict <==> value != "0" && value != "2" && value != "3"
  {
    match value
    case "0" => Anamorphic.None
    case "2" => Anamorphic.Loose
    case "3" => Anamorphic.Custom
    case _ => Anamorphic.Strict
  }

  /** `PictureDecomb`: reset to Off, then "1" Custom, "2" Default, "3" Fast.
      No text decodes to Bob. */
  function DecodeDecomb(value: string): (r: Decomb)
    ensures r != Decomb.Bob
    ensures r == Decomb.Off <==> value != "1" && value != "2" && value != "3"
  {
    match value
    case "1" => Decomb.Custom
    case "2" => Decomb.Default
    case "3" => Decomb.Fast
    case _ => Decomb.Off
  }

  /** `PictureDeinterlace`: "0" to "4"; any other text leaves the field as it
      was, so Bob is never decoded. */
  function DecodeDeinterlace(value: string): (r: Nullable<Deinterlace>)
    ensures r != Some(Deinterlace.Bob)
    ensures r.Null? <==> value !in {"0", "1", "2", "3", "4"}
  {
    match value
    case "0" => Some(Deinterlace.Off)
    case "1" => Some(Deinterlace.Custom)
    case "2" => Some(Deinterlace.Fast)
    case "3" => Some(Deinterlace.Slow)
    case "4" => Some(Deinterlace.Slower)
    case _ => Null
  }

  /** `PictureDenoise`: "0" to "4"; any other text leaves the field as it was. */
  function DecodeDenoise(value: string): (r: Nullable<Denoise>)
    ensures r.Null? <==> value !in {"0", "1", "2", "3", "4"}
  {
    match value
    case "0" => Some(Denoise.Off)
    case "1" => Some(Denoise.Custom)
    case "2" => Some(Denoise.Weak)
    case "3" => Some(Denoise.Medium)
    case "4" => Some(Denoise.Strong)
    case _ => Null
  }

  /** `PictureDetelecine`: reset to Off, then "1" Custom, "2" Default. */
  function DecodeDetelecine(value: string): (r: Detelecine)
    ensures r == Detelecine.Off <==> value != "1" && value != "2"
  {
    if value == "1" then Detelecine.Custom
    else if value == "2" then Detelecine.Default
    else Detelecine.Off
  }

  /** `VideoFramerateMode`: "vfr", "cfr", and peak-limited for anything else. */
  function DecodeFramerateMode(value: string): (r: FramerateMode)
    ensures r == FramerateMode.PFR <==> value != "vfr" && value != "cfr"
  {
    match value
    case "vfr" => FramerateMode.VFR
    case "cfr" => FramerateMode.CFR
    case _ => FramerateMode.PFR
  }

  /** `VideoFramerate`: "Same as source" clears the frame rate, empty text
      leaves it, anything else is parsed as a number. */
  function DecodeFramerate(value: string, h: Helpers, current: Nullable<real>): (r: Result<Nullable<real>, ParseError>)
    ensures value == "Same as source" ==> r == Success(Null)
    ensures value == "" ==> r == Success(current)
    ensures value != "" && value != "Same as source" ==> (r.Success? <==> h.parseDouble(value).Success?)
    ensures value != "" && value != "Same as source" && r.Success? ==> r.value == Some(h.parseDouble(value).value)
  {
    if value == "Same as source" then Success(Null)
    else if value == "" then Success(current)
    else
      var x :- h.parseDouble(value);
      Success(Some(x))
  }

  /** `VideoAvgBitrate`: empty text leaves the bitrate, anything else is parsed as an `int`. */
  function DecodeBitrate(value: string, current: Nullable<int>): (r: Result<Nullable<int>, ParseError>)
    ensures value == "" ==> r == Success(current)
    ensures value != "" ==> (r.Success? <==> ParseInt32(value).Success?)
    ensures value != "" && r.Success? ==> r.value == Some(ParseInt32(value).value as int)
  {
    if value == "" then Success(current)
    else
      var n :- ParseInt32(value);
      Success(Some(n as int))
  }

  /** `VideoQualitySlider`: empty text leaves the quality, anything else is parsed as a number. */
  function DecodeQuality(value: string, h: Helpers, current: Nullable<real>): (r: Result<Nullable<real>, ParseError>)
    ensures value == "" ==> r == Success(current)
    ensures value != "" ==> (r.Success? <==> h.parseDouble(value).Success?)
    ensures value != "" && r.Success? ==> r.value == Some(h.parseDouble(value).value)
  {
    if value == "" then Success(current)
    else
      var x :- h.parseDouble(value);
      Success(Some(x))
  }

  /** The output keys of the import's switch: only `FileFormat` sets the
      container, and it sets nothing else. */
  function ApplyOutput(o: TaskOutput, k: OutputKey, value: string, h: Helpers): (r: TaskOutput)
    ensures k != FileFormat ==> r.outputFormat == o.outputFormat
    ensures k == FileFormat ==> r == o.(outputFormat := r.outputFormat)
  {
    match k
    case FileFormat => o.(outputFormat := h.fileFormat(value))
    case Mp4HttpOptimize => o.(optimizeMp4 := Flag(value))
    case Mp4LargeFile => o.(largeFile := Flag(value))
    case Mp4iPodCompatible => o.(ipod5GSupport := Flag(value))
  }

  /** The keys whose value the import parses with `int.Parse`. */
  predicate IsIntegerKey(k: Key) {
    k == Picture(PictureTopCrop) || k == Picture(PictureBottomCrop) || k == Picture(PictureLeftCrop) || k == Picture(PictureRightCrop) ||
    k == Picture(PictureHeight) || k == Picture(PictureWidth) || k == Filter(PictureDeblock)
  }

  /** The loop leaves the maximum size alone: only the rule after it sets it. */
  predicate KeepsMaximumSize(before: TaskPicture, after: TaskPicture) {
    after.maxWidth == before.maxWidth && after.maxHeight == before.maxHeight
  }

  /** The picture keys of the import's switch: a crop or size value that is
      not a 32-bit integer fails, and nothing else does. */
  function ApplyPicture(p: TaskPicture, k: PictureKey, value: string): (r: Result<TaskPicture, ParseError>)
    ensures r.Failure? <==> IsIntegerKey(Picture(k)) && ParseInt32(value).Failure?
    ensures r.Success? ==> KeepsMaximumSize(p, r.value)
  {
    match k
    case PictureAutoCrop => Success(p.(hasCropping := value != "1"))
    case PictureTopCrop =>
      var n :- ParseInt32(value);
      Success(p.(cropping := p.cropping.(top := n)))
    case PictureBottomCrop =>
      var n :- ParseInt32(value);
      Success(p.(cropping := p.cropping.(bottom := n)))
    case PictureLeftCrop =>
      var n :- ParseInt32(value);
      Success(p.(cropping := p.cropping.(left := n)))
    case PictureRightCrop =>
      var n :- ParseInt32(value);
      Success(p.(cropping := p.cropping.(right := n)))
    case PictureHeight =>
      var n :- ParseInt32(value);
      Success(p.(height := Some(n)))
    case PictureWidth =>
      var n :- ParseInt32(value);
      Success(p.(width := Some(n)))
    case PictureKeepRatio => Success(p.(keepDisplayAspect := Flag(value)))
    case PicturePAR => Success(p.(anamorphic := DecodeAnamorphic(value)))
  }

  /** The filter keys of the import's switch: an empty custom text and an
      unknown deinterlace or denoise name leave the field. */
  function ApplyFilter(f: TaskFilters, k: FilterKey, value: string): (r: Result<TaskFilters, ParseError>)
    ensures r.Failure? <==> k == PictureDeblock && ParseInt32(value).Failure?
    ensures value == "" && k in {PictureDecombCustom, PictureDeinterlaceCustom, PictureDenoiseCustom, PictureDetelecineCustom} ==>
              r == Success(f)
  {
    match k
    case PictureDeblock =>
      var n :- ParseInt32(value);
      Success(f.(deblock := n))
    case PictureDecomb => Success(f.(decomb := DecodeDecomb(value)))
    case PictureDecombCustom => Success(if value != "" then f.(customDecomb := value) else f)
    case PictureDeinterlace =>
      Success(match DecodeDeinterlace(value)
              case Some(d) => f.(deinterlace := d)
              case Null => f)
    case PictureDeinterlaceCustom => Success(if value != "" then f.(customDeinterlace := value) else f)
    case PictureDenoise =>
      Success(match DecodeDenoise(value)
              case Some(d) => f.(denoise := d)
              case Null => f)
    case PictureDenoiseCustom => Success(if value != "" then f.(customDenoise := value) else f)
    case PictureDetelecine => Success(f.(detelecine := DecodeDetelecine(value)))
    case PictureDetelecineCustom => Success(if value != "" then f.(customDetelecine := value) else f)
  }

  /** The video keys of the import's switch: only a non-empty bitrate,
      frame rate or quality text can fail, and no key sets the rate type. */
  function ApplyVideo(v: TaskVideo, k: VideoKey, value: string, h: Helpers): (r: Result<TaskVideo, ParseError>)
    ensures r.Failure? ==> value != "" && k in {VideoAvgBitrate, VideoFramerate, VideoQualitySlider}
    ensures r.Success? ==> r.value.videoEncodeRateType == v.videoEncodeRateType
  {
    match k
    case VideoAvgBitrate =>
      var b :- DecodeBitrate(value, v.videoBitrate);
      Success(v.(videoBitrate := b))
    case VideoFramerate =>
      var r :- DecodeFramerate(value, h, v.framerate);
      Success(v.(framerate := r))
    case VideoFramerateMode => Success(v.(framerateMode := DecodeFramerateMode(value)))
    case VideoGrayScale => Success(v.(grayscale := Flag(value)))
    case VideoQualitySlider =>
      var q :- DecodeQuality(value, h, v.quality);
      Success(v.(quality := q))
    case VideoTurboTwoPass => Success(v.(turboFirstPass := Flag(value)))
    case VideoTwoPass => Success(v.(twoPass := Flag(value)))
  }

  /** The passthru keys of the import's switch; each sets its flag. */
  function ApplyAudio(a: Passthru, k: AudioKey, value: string): (r: Passthru)
    ensures k != AudioAllowAACPass ==> r.aac == a.aac
    ensures k != AudioAllowAC3Pass ==> r.ac3 == a.ac3
    ensures k != AudioAllowDTSHDPass ==> r.dtsHd == a.dtsHd
    ensures k != AudioAllowDTSPass ==> r.dts == a.dts
    ensures k != AudioAllowMP3Pass ==> r.mp3 == a.mp3
  {
    match k
    case AudioAllowAACPass => a.(aac := Some(Flag(value)))
    case AudioAllowAC3Pass => a.(ac3 := Some(Flag(value)))
    case AudioAllowDTSHDPass => a.(dtsHd := Some(Flag(value)))
    case AudioAllowDTSPass => a.(dts := Some(Flag(value)))
    case AudioAllowMP3Pass => a.(mp3 := Some(Flag(value)))
  }

  /** The keys that set the import's own locals, the preset's text, the
      chapter markers and the encoder options. */
  function ApplyGeneral(s: ImportState, k: GeneralKey, value: string): (r: ImportState)
    ensures r.task == s.task.(includeChapterMarkers := r.task.includeChapterMarkers,
                              advancedEncoderOptions := r.task.advancedEncoderOptions)
  {
    match k
    case VideoQualityType => s.(qualityMode := value)
    case ChapterMarkers => s.(task := s.task.(includeChapterMarkers := Flag(value)))
    case X264Option => s.(task := s.task.(advancedEncoderOptions := value))
    case PresetBuildNumber => s.(version := value)
    case PresetDescription => s.(description := value)
    case PresetName => s.(name := value)
    case UsesMaxPictureSettings => s.(pictureSettingsMode := PresetPictureSettingsMode.SourceMaximum)
    case UsesPictureFilters => s.(useFilters := Flag(value))
    case UsesPictureSettings => s.(pictureSettingsMode := PresetPictureSettingsMode.Custom)
  }

  /** One case of the import's key switch: the value text stored into the
      field the key names. `int.Parse` and `double.Parse` failures abort the
      import. Keys with no case (and keys the import ignores) change nothing. */
  function Apply(s: ImportState, k: Key, value: string, h: Helpers): (r: Result<ImportState, ParseError>)
    ensures IsIntegerKey(k) ==> (r.Failure? <==> ParseInt32(value).Failure?)
    ensures r.Failure? ==> IsIntegerKey(k) || k in {Video(VideoAvgBitrate), Video(VideoFramerate), Video(VideoQualitySlider)}
    ensures r.Success? ==> KeepsMaximumSize(s.task.picture, r.value.task.picture)
  {
    var t := s.task;
    match k
    case Output(o) => Success(s.(task := t.(output := ApplyOutput(t.output, o, value, h))))
    case Picture(q) =>
      var p :- ApplyPicture(t.picture, q, value);
      Success(s.(task := t.(picture := p)))
    case Filter(q) =>
      var f :- ApplyFilter(t.filters, q, value);
      Success(s.(task := t.(filters := f)))
    case Video(q) =>
      var v :- ApplyVideo(t.video, q, value, h);
      Success(s.(task := t.(video := v)))
    case Audio(a) => Success(s.(task := t.(passthru := ApplyAudio(t.passthru, a, value))))
    case General(g) => Success(ApplyGeneral(s, g, value))
    case Ignored(_) => Success(s)
  }

  /** One key/value pair of the dictionary: a key text the switch has no
      case for is skipped. */
  function Step(s: ImportState, name: string, value: string, h: Helpers): (r: Result<ImportState, ParseError>)
    ensures KeyOf(name).Null? ==> r == Success(s)
    ensures r.Success? ==> KeepsMaximumSize(s.task.picture, r.value.task.picture)
  {
    match KeyOf(name)
    case Null => Success(s)
    case Some(k) => Apply(s, k, value, h)
  }

  /** The loop over the dictionary's pairs, front to back; the first failed
      parse ends the import. */
  function Fold(s: ImportState, pairs: seq<(string, string)>, h: Helpers): (r: Result<ImportState, ParseError>)
    ensures r.Success? ==> KeepsMaximumSize(s.task.picture, r.value.task.picture)
    decreases |pairs|
  {
    if |pairs| == 0 then Success(s)
    else
      var next :- Step(s, pairs[0].0, pairs[0].1, h);
      Fold(next, pairs[1..], h)
  }

  /** After the loop, the quality mode picks the rate type: "1" average
      bitrate, "2" constant quality, anything else leaves it. */
  function ApplyQualityMode(t: EncodeTask, qualityMode: string): (r: EncodeTask)
    ensures qualityMode == "1" ==> r.video.videoEncodeRateType == VideoEncodeRateType.AverageBitrate
    ensures qualityMode == "2" ==> r.video.videoEncodeRateType == VideoEncodeRateType.ConstantQuality
    ensures qualityMode != "1" && qualityMode != "2" ==> r == t
    ensures r == t.(video := t.video.(videoEncodeRateType := r.video.videoEncodeRateType))
  {
    match qualityMode
    case "1" => t.(video := t.video.(videoEncodeRateType := VideoEncodeRateType.AverageBitrate))
    case "2" => t.(video := t.video.(videoEncodeRateType := VideoEncodeRateType.ConstantQuality))
    case _ => t
  }

  /** Without picture filters, every filter is switched off, deblocking is
      0 and grayscale is off; nothing else changes. */
  function ResetFilters(t: EncodeTask, useFilters: bool): (r: EncodeTask)
    ensures useFilters ==> r == t
    ensures !useFilters ==>
              r.filters.detelecine == Detelecine.Off && r.filters.denoise == Denoise.Off &&
              r.filters.deinterlace == Deinterlace.Off && r.filters.decomb == Decomb.Off &&
              r.filters.deblock == 0 && !r.video.grayscale
    ensures r == t.(filters := t.filters.(detelecine := r.filters.detelecine, denoise := r.filters.denoise,
                                          deinterlace := r.filters.deinterlace, decomb := r.filters.decomb,
                                          deblock := r.filters.deblock),
                    video := t.video.(grayscale := r.video.grayscale))
  {
    if useFilters then t
    else
      t.(filters := t.filters.(detelecine := Detelecine.Off, denoise := Denoise.Off, deinterlace := Deinterlace.Off,
                               decomb := Decomb.Off, deblock := 0),
         video := t.video.(grayscale := false))
  }

  /** A source-maximum preset takes its maximum width from the height and
      its maximum height from the width, as the source assigns them. */
  function ApplyMaximumSize(t: EncodeTask, mode: PresetPictureSettingsMode): (r: EncodeTask)
    ensures mode == PresetPictureSettingsMode.SourceMaximum ==>
              r.picture.maxWidth == t.picture.height && r.picture.maxHeight == t.picture.width
    ensures mode != PresetPictureSettingsMode.SourceMaximum ==> r == t
    ensures r == t.(picture := t.picture.(maxWidth := r.picture.maxWidth, maxHeight := r.picture.maxHeight))
  {
    if mode == PresetPictureSettingsMode.SourceMaximum then
      t.(picture := t.picture.(maxWidth := t.picture.height, maxHeight := t.picture.width))
    else t
  }

  /** What follows the loop: the quality mode, then the filter reset, then
      the maximum size, and the preset built from the state. */
  function Finish(s: ImportState): (p: Preset)
    ensures p.name == s.name && p.description == s.description && p.version == s.version
    ensures p.pictureSettingsMode == s.pictureSettingsMode && p.usePictureFilters == s.useFilters
  {
    var rated := ApplyQualityMode(s.task, s.qualityMode);
    var filtered := ResetFilters(rated, s.useFilters);
    var sized := ApplyMaximumSize(filtered, s.pictureSettingsMode);
    Preset(s.name, s.description, s.version, sized, s.pictureSettingsMode, s.useFilters)
  }

  /** `Import`: a new preset and task filled from the dictionary's pairs. */
  function Import(blank: Preset, h: Helpers, pairs: seq<(string, string)>): (r: Result<Preset, ParseError>)
    ensures r.Success? && r.value.pictureSettingsMode != PresetPictureSettingsMode.SourceMaximum ==>
              KeepsMaximumSize(blank.task.picture, r.value.task.picture)
  {
    var s :- Fold(Start(blank), pairs, h);
    Success(Finish(s))
  }
}

=== FILE: plist_preset.dfy ===
/** The preset vocabulary of the plist preset converter
    (win/CS/HandBrake.ApplicationServices/Utilities/PlistUtility.cs): the
    filter and video enums, the encode task fields that a plist preset
    carries, and the plist keys with their text. */
module PresetModel {
  import opened Wrappers
  import opened EncodingTypes

  datatype OutputFormat = Mp4 | M4V | Mkv

  datatype Decomb = Off | Default | Fast | Bob | Custom

  datatype Deinterlace = Off | Fast | Slow | Slower | Bob | Custom

  datatype Denoise = Off | Weak | Medium | Strong | Custom

  datatype Detelecine = Off | Default | Custom

  datatype FramerateMode = VFR | CFR | PFR

  datatype VideoEncodeRateType = TargetSize | AverageBitrate | ConstantQuality

  /** How a preset sets the picture size: not at all, as a maximum, or exactly. */
  datatype PresetPictureSettingsMode = None | SourceMaximum | Custom

  /** The allowed passthru flags; each is a C# `bool?`. */
  datatype Passthru = Passthru(aac: Nullable<bool>, ac3: Nullable<bool>, dtsHd: Nullable<bool>,
                               dts: Nullable<bool>, mp3: Nullable<bool>)

  /** The output settings of an encode task. */
  datatype TaskOutput = TaskOutput(
    outputFormat: OutputFormat,
    optimizeMp4: bool,
    largeFile: bool,
    ipod5GSupport: bool)

  /** The picture settings of an encode task. */
  datatype TaskPicture = TaskPicture(
    hasCropping: bool,
    cropping: Cropping,
    width: Nullable<int>,
    height: Nullable<int>,
    maxWidth: Nullable<int>,
    maxHeight: Nullable<int>,
    keepDisplayAspect: bool,
    anamorphic: Anamorphic,
    modulus: Nullable<int>)

  /** The filters of an encode task, each with its custom text. */
  datatype TaskFilters = TaskFilters(
    deblock: int,
    decomb: Decomb,
    customDecomb: string,
    deinterlace: Deinterlace,
    customDeinterlace: string,
    denoise: Denoise,
    customDenoise: string,
    detelecine: Detelecine,
    customDetelecine: string)

  /** The video settings of an encode task. */
  datatype TaskVideo = TaskVideo(
    videoBitrate: Nullable<int>,
    framerate: Nullable<real>,
    framerateMode: FramerateMode,
    grayscale: bool,
    quality: Nullable<real>,
    videoEncodeRateType: VideoEncodeRateType,
    turboFirstPass: bool,
    twoPass: bool)

  /** The encode task fields a plist preset reads or writes, grouped as the
      plist groups them. The `int?` and `double?` fields are `Nullable`; a
      null C# string is not modelled. */
  datatype EncodeTask = EncodeTask(
    output: TaskOutput,
    picture: TaskPicture,
    filters: TaskFilters,
    video: TaskVideo,
    includeChapterMarkers: bool,
    advancedEncoderOptions: string,
    passthru: Passthru)

  /** A preset: its descriptive text, its task, and how it applies picture settings and filters. */
  datatype Preset = Preset(
    name: string,
    description: string,
    version: string,
    task: EncodeTask,
    pictureSettingsMode: PresetPictureSettingsMode,
    usePictureFilters: bool)

  /** The plist keys the converter reads or writes (the audio list and the
      two encoder keys are not part of this model), grouped by the part of
      the import's state each one sets. */
  /** The output keys. */
  datatype OutputKey =
    | FileFormat | Mp4HttpOptimize | Mp4LargeFile | Mp4iPodCompatible

  /** The picture size, cropping and anamorphic keys. */
  datatype PictureKey =
    | PictureAutoCrop | PictureTopCrop | PictureBottomCrop | PictureLeftCrop | PictureRightCrop | PictureHeight | PictureWidth | PictureKeepRatio | PicturePAR

  /** The filter keys, each filter with its custom text. */
  datatype FilterKey =
    | PictureDeblock | PictureDecomb | PictureDecombCustom | PictureDeinterlace | PictureDeinterlaceCustom | PictureDenoise | PictureDenoiseCustom | PictureDetelecine | PictureDetelecineCustom

  /** The video keys the import stores into the task. */
  datatype VideoKey =
    | VideoAvgBitrate | VideoFramerate | VideoFramerateMode | VideoGrayScale | VideoQualitySlider | VideoTurboTwoPass | VideoTwoPass

  /** The allowed-passthru keys. */
  datatype AudioKey =
    | AudioAllowAACPass | AudioAllowAC3Pass | AudioAllowDTSHDPass | AudioAllowDTSPass | AudioAllowMP3Pass

  /** The keys the import keeps in its own state, and the two task keys outside any group. */
  datatype GeneralKey =
    | VideoQualityType | ChapterMarkers | X264Option | PresetBuildNumber | PresetDescription | PresetName | UsesMaxPictureSettings | UsesPictureFilters | UsesPictureSettings

  /** The keys the import reads and ignores, or does not read. */
  datatype IgnoredKey =
    | PictureModulus | PictureDecombDeinterlace | VideFrameratePFR | VideoTargetSize | Default | Folder | Type

  datatype Key =
    | Output(output: OutputKey)
    | Picture(picture: PictureKey)
    | Filter(filter: FilterKey)
    | Video(video: VideoKey)
    | Audio(audio: AudioKey)
    | General(general: GeneralKey)
    | Ignored(ignored: IgnoredKey)

  /** The text of a key in the plist. `VideFrameratePFR` is spelled as the export writes it. */
  function KeyName(k: Key): string {
    match k
    case Output(FileFormat) => "FileFormat"
    case Output(Mp4HttpOptimize) => "Mp4HttpOptimize"
    case Output(Mp4LargeFile) => "Mp4LargeFile"
    case Output(Mp4iPodCompatible) => "Mp4iPodCompatible"
    case Picture(PictureAutoCrop) => "PictureAutoCrop"
    case Picture(PictureTopCrop) => "PictureTopCrop"
    case Picture(PictureBottomCrop) => "PictureBottomCrop"
    case Picture(PictureLeftCrop) => "PictureLeftCrop"
    case Picture(PictureRightCrop) => "PictureRightCrop"
    case Picture(PictureHeight) => "PictureHeight"
    case Picture(PictureWidth) => "PictureWidth"
    case Picture(PictureKeepRatio) => "PictureKeepRatio"
    case Picture(PicturePAR) => "PicturePAR"
    case Ignored(PictureModulus) => "PictureModulus"
    case Filter(PictureDeblock) => "PictureDeblock"
    case Filter(PictureDecomb) => "PictureDecomb"
    case Filter(PictureDecombCustom) => "PictureDecombCustom"
    case Ignored(PictureDecombDeinterlace) => "PictureDecombDeinterlace"
    case Filter(PictureDeinterlace) => "PictureDeinterlace"
    case Filter(PictureDeinterlaceCustom) => "PictureDeinterlaceCustom"
    case Filter(PictureDenoise) => "PictureDenoise"
    case Filter(PictureDenoiseCustom) => "PictureDenoiseCustom"
    case Filter(PictureDetelecine) => "PictureDetelecine"
    case Filter(PictureDetelecineCustom) => "PictureDetelecineCustom"
    case Video(VideoAvgBitrate) => "VideoAvgBitrate"
    case Video(VideoFramerate) => "VideoFramerate"
    case Video(VideoFramerateMode) => "VideoFramerateMode"
    case Ignored(VideFrameratePFR) => "VideFrameratePFR"
    case Video(VideoGrayScale) => "VideoGrayScale"
    case Video(VideoQualitySlider) => "VideoQualitySlider"
    case General(VideoQualityType) => "VideoQualityType"
    case Ignored(VideoTargetSize) => "VideoTargetSize"
    case Video(VideoTurboTwoPass) => "VideoTurboTwoPass"
    case Video(VideoTwoPass) => "VideoTwoPass"
    case General(ChapterMarkers) => "ChapterMarkers"
    case General(X264Option) => "x264Option"
    case Ignored(Default) => "Default"
    case Ignored(Folder) => "Folder"
    case General(PresetBuildNumber) => "PresetBuildNumber"
    case General(PresetDescription) => "PresetDescription"
    case General(PresetName) => "PresetName"
    case Ignored(Type) => "Type"
    case General(UsesMaxPictureSettings) => "UsesMaxPictureSettings"
    case General(UsesPictureFilters) => "UsesPictureFilters"
    case General(UsesPictureSettings) => "UsesPictureSettings"
    case Audio(AudioAllowAACPass) => "AudioAllowAACPass"
    case Audio(AudioAllowAC3Pass) => "AudioAllowAC3Pass"
    case Audio(AudioAllowDTSHDPass) => "AudioAllowDTSHDPass"
    case Audio(AudioAllowDTSPass) => "AudioAllowDTSPass"
    case Audio(AudioAllowMP3Pass) => "AudioAllowMP3Pass"
  }

  /** The key a plist key text names; any other text is not a key the
      converter knows. The text is matched by its length first and then
      exactly, which selects the same key as one exact comparison per key. */
  function KeyOf(name: string): Nullable<Key> {
    match |name|
    case 4 =>
      (match name
      case "Type" => Some(Ignored(Type))
      case _ => Null)
    case 6 =>
      (match name
      case "Folder" => Some(Ignored(Folder))
      case _ => Null)
    case 7 =>
      (match name
      case "Default" => Some(Ignored(IgnoredKey.Default))
      case _ => Null)
    case 10 =>
      (match name
      case "FileFormat" => Some(Output(FileFormat))
      case "PicturePAR" => Some(Picture(PicturePAR))
      case "x264Option" => Some(General(X264Option))
      case "PresetName" => Some(General(PresetName))
      case _ => Null)
    case 12 =>
      (match name
      case "Mp4LargeFile" => Some(Output(Mp4LargeFile))
      case "PictureWidth" => Some(Picture(PictureWidth))
      case "VideoTwoPass" => Some(Video(VideoTwoPass))
      case _ => Null)
    case 13 =>
      (match name
      case "PictureHeight" => Some(Picture(PictureHeight))
      case "PictureDecomb" => Some(Filter(PictureDecomb))
      case _ => Null)
    case 14 =>
      (match name
      case "PictureTopCrop" => Some(Picture(PictureTopCrop))
      case "PictureModulus" => Some(Ignored(PictureModulus))
      case "PictureDeblock" => Some(Filter(PictureDeblock))
      case "PictureDenoise" => Some(Filter(PictureDenoise))
      case "VideoFramerate" => Some(Video(VideoFramerate))
      case "VideoGrayScale" => Some(Video(VideoGrayScale))
      case "ChapterMarkers" => Some(General(ChapterMarkers))
      case _ => Null)
    case 15 =>
      (match name
      case "Mp4HttpOptimize" => Some(Output(Mp4HttpOptimize))
      case "PictureAutoCrop" => Some(Picture(PictureAutoCrop))
      case "PictureLeftCrop" => Some(Picture(PictureLeftCrop))
      case "VideoAvgBitrate" => Some(Video(VideoAvgBitrate))
      case "VideoTargetSize" => Some(Ignored(VideoTargetSize))
      case _ => Null)
    case 16 =>
      (match name
      case "PictureRightCrop" => Some(Picture(PictureRightCrop))
      case "PictureKeepRatio" => Some(Picture(PictureKeepRatio))
      case "VideFrameratePFR" => Some(Ignored(VideFrameratePFR))
      case "VideoQualityType" => Some(General(VideoQualityType))
      case _ => Null)
    case 17 =>
      (match name
      case "Mp4iPodCompatible" => Some(Output(Mp4iPodCompatible))
      case "PictureBottomCrop" => Some(Picture(PictureBottomCrop))
      case "PictureDetelecine" => Some(Filter(PictureDetelecine))
      case "VideoTurboTwoPass" => Some(Video(VideoTurboTwoPass))
      case "PresetBuildNumber" => Some(General(PresetBuildNumber))
      case "PresetDescription" => Some(General(PresetDescription))
      case "AudioAllowAACPass" => Some(Audio(AudioAllowAACPass))
      case "AudioAllowAC3Pass" => Some(Audio(AudioAllowAC3Pass))
      case "AudioAllowDTSPass" => Some(Audio(AudioAllowDTSPass))
      case "AudioAllowMP3Pass" => Some(Audio(AudioAllowMP3Pass))
      case _ => Null)
    case 18 =>
      (match name
      case "PictureDeinterlace" => Some(Filter(PictureDeinterlace))
      case "VideoFramerateMode" => Some(Video(VideoFramerateMode))
      case "VideoQualitySlider" => Some(Video(VideoQualitySlider))
      case "UsesPictureFilters" => Some(General(UsesPictureFilters))
      case _ => Null)
    case 19 =>
      (match name
      case "PictureDecombCustom" => Some(Filter(PictureDecombCustom))
      case "UsesPictureSettings" => Some(General(UsesPictureSettings))
      case "AudioAllowDTSHDPass" => Some(Audio(AudioAllowDTSHDPass))
      case _ => Null)
    case 20 =>
      (match name
      case "PictureDenoiseCustom" => Some(Filter(PictureDenoiseCustom))
      case _ => Null)
    case 22 =>
      (match name
      case "UsesMaxPictureSettings" => Some(General(UsesMaxPictureSettings))
      case _ => Null)
    case 23 =>
      (match name
      case "PictureDetelecineCustom" => Some(Filter(PictureDetelecineCustom))
      case _ => Null)
    case 24 =>
      (match name
      case "PictureDecombDeinterlace" => Some(Ignored(PictureDecombDeinterlace))
      case "PictureDeinterlaceCustom" => Some(Filter(PictureDeinterlaceCustom))
      case _ => Null)
    case _ => Null
  }

  lemma OutputNameRoundTrip(k: OutputKey)
    ensures KeyOf(KeyName(Output(k))) == Some(Output(k))
  {
  }

  lemma PictureNameRoundTrip(k: PictureKey)
    ensures KeyOf(KeyName(Picture(k))) == Some(Picture(k))
  {
  }

  lemma FilterNameRoundTrip(k: FilterKey)
    ensures KeyOf(KeyName(Filter(k))) == Some(Filter(k))
  {
  }

  lemma VideoNameRoundTrip(k: VideoKey)
    ensures KeyOf(KeyName(Video(k))) == Some(Video(k))
  {
  }

  lemma AudioNameRoundTrip(k: AudioKey)
    ensures KeyOf(KeyName(Audio(k))) == Some(Audio(k))
  {
  }

  lemma GeneralNameRoundTrip(k: GeneralKey)
    ensures KeyOf(KeyName(General(k))) == Some(General(k))
  {
  }

  lemma IgnoredNameRoundTrip(k: IgnoredKey)
    ensures KeyOf(KeyName(Ignored(k))) == Some(Ignored(k))
  {
  }

  /** Every key's text names that key, so the key names are pairwise distinct. */
  lemma KeyNameRoundTrip(k: Key)
    ensures KeyOf(KeyName(k)) == Some(k)
  {
    match k
    case Output(o) => OutputNameRoundTrip(o);
    case Picture(q) => PictureNameRoundTrip(q);
    case Filter(f) => FilterNameRoundTrip(f);
    case Video(v) => VideoNameRoundTrip(v);
    case Audio(a) => AudioNameRoundTrip(a);
    case General(g) => GeneralNameRoundTrip(g);
    case Ignored(n) => IgnoredNameRoundTrip(n);
  }

  lemma KeyNameInjective(a: Key, b: Key)
    ensures KeyName(a) == KeyName(b) ==> a == b
  {
    KeyNameRoundTrip(a);
    KeyNameRoundTrip(b);
  }
}

=== FILE: plist_properties.dfy ===
/** Properties of the plist preset converter: the enum codes the export
    writes and the import reads, the rules applied after the import's loop,
    and what a written preset reads back as. */
module PlistProperties {
  import opened Wrappers
  import opened IntText
  import opened EncodingTypes
  import opened PresetModel
  import opened PlistImport
  import opened PlistExport

  /** The anamorphic code reads back as the same mode, for every mode. */
  lemma AnamorphicRoundTrip(a: Anamorphic)
    ensures DecodeAnamorphic(IntToString(AnamorphicCode(a))) == a
  {
    assert IntToString(0) == "0" && IntToString(1) == "1";
    assert IntToString(2) == "2" && IntToString(3) == "3";
  }

  /** Decomb codes read back as the same filter, except Bob, whose code "4"
      reads back as Off. */
  lemma DecombRoundTrip(d: Decomb)
    ensures DecodeDecomb(DecombCode(d)) == (if d == Decomb.Bob then Decomb.Off else d)
  {
  }

  /** Deinterlace codes read back as the same filter, except Bob, whose code
      "5" is not read at all. */
  lemma DeinterlaceRoundTrip(d: Deinterlace)
    ensures DecodeDeinterlace(DeinterlaceCode(d)) == (if d == Deinterlace.Bob then Null else Some(d))
  {
  }

  /** Every denoise code reads back as the same filter. */
  lemma DenoiseRoundTrip(d: Denoise)
    ensures DecodeDenoise(DenoiseCode(d)) == Some(d)
  {
  }

  /** Every detelecine code reads back as the same filter. */
  lemma DetelecineRoundTrip(d: Detelecine)
    ensures DecodeDetelecine(IntToString(DetelecineCode(d))) == d
  {
    assert IntToString(0) == "0" && IntToString(1) == "1" && IntToString(2) == "2";
  }

  /** The quality type code as text: "1", "2" or "0". */
  lemma QualityTypeText(t: EncodeTask)
    ensures IntToString(QualityTypeCode(t)) ==
              if t.video.videoBitrate.Some? then "1" else if t.video.quality.Some? then "2" else "0"
  {
    assert IntToString(0) == "0" && IntToString(1) == "1" && IntToString(2) == "2";
  }

  /** A passthru flag reads back as itself, and an unset one as allowed. */
  lemma PassthruFlagRoundTrip(b: Nullable<bool>)
    ensures Flag(GetNullBoolValue(b)) == b.GetOr(true)
  {
  }

  /** The value of the last pair whose key text selects `k`. */
  function LastValue(pairs: seq<(string, string)>, k: Key): Nullable<string>
    decreases |pairs|
  {
    if |pairs| == 0 then Null
    else
      match LastValue(pairs[1..], k)
      case Some(v) => Some(v)
      case Null => if KeyOf(pairs[0].0) == Some(k) then Some(pairs[0].1) else Null
  }

  /** The value of the last pair whose key text selects `k` and whose value
      is not empty. */
  function LastNonEmptyValue(pairs: seq<(string, string)>, k: Key): Nullable<string>
    decreases |pairs|
  {
    if |pairs| == 0 then Null
    else
      match LastNonEmptyValue(pairs[1..], k)
      case Some(v) => Some(v)
      case Null => if KeyOf(pairs[0].0) == Some(k) && pairs[0].1 != "" then Some(pairs[0].1) else Null
  }

  /** The last non-empty value for `k` is never empty; there is none when no
      pair names `k`, and it is the last value whenever that is not empty. */
  lemma {:induction false} LastNonEmptyOfLast(pairs: seq<(string, string)>, k: Key)
    ensures LastNonEmptyValue(pairs, k).Some? ==> LastNonEmptyValue(pairs, k).value != ""
    ensures LastValue(pairs, k).Null? ==> LastNonEmptyValue(pairs, k).Null?
    ensures LastValue(pairs, k).Some? && LastValue(pairs, k).value != "" ==>
              LastNonEmptyValue(pairs, k) == LastValue(pairs, k)
    decreases |pairs|
  {
    if |pairs| > 0 {
      LastNonEmptyOfLast(pairs[1..], k);
    }
  }

  /** The last of the keys `a` and `b` in the pairs. */
  function LastKeyOf(pairs: seq<(string, string)>, a: Key, b: Key): Nullable<Key>
    decreases |pairs|
  {
    if |pairs| == 0 then Null
    else
      match LastKeyOf(pairs[1..], a, b)
      case Some(k) => Some(k)
      case Null =>
        var k := KeyOf(pairs[0].0);
        if k == Some(a) || k == Some(b) then k else Null
  }

  /** The last value for `k` is the value of a pair naming `k`; there is
      none exactly when no pair names `k`. */
  lemma {:induction false} LastValueFound(pairs: seq<(string, string)>, k: Key)
    ensures LastValue(pairs, k).Some? ==>
              exists i :: 0 <= i < |pairs| && KeyOf(pairs[i].0) == Some(k) && pairs[i].1 == LastValue(pairs, k).value
    ensures LastValue(pairs, k).Null? <==> forall i :: 0 <= i < |pairs| ==> KeyOf(pairs[i].0) != Some(k)
    decreases |pairs|
  {
    if |pairs| > 0 {
      LastValueFound(pairs[1..], k);
      if LastValue(pairs[1..], k).Some? {
        var j :| 0 <= j < |pairs[1..]| && KeyOf(pairs[1..][j].0) == Some(k) && pairs[1..][j].1 == LastValue(pairs[1..], k).value;
        assert pairs[j + 1] == pairs[1..][j];
      } else {
        forall i | 1 <= i < |pairs|
          ensures KeyOf(pairs[i].0) != Some(k)
        {
          assert pairs[i] == pairs[1..][i - 1];
        }
      }
    }
  }

  /** The last of `a` and `b` is one of them, named by some pair; there is
      none exactly when no pair names either. */
  lemma {:induction false} LastKeyFound(pairs: seq<(string, string)>, a: Key, b: Key)
    ensures LastKeyOf(pairs, a, b).Some? ==>
              (LastKeyOf(pairs, a, b).value == a || LastKeyOf(pairs, a, b).value == b) &&
              exists i :: 0 <= i < |pairs| && KeyOf(pairs[i].0) == LastKeyOf(pairs, a, b)
    ensures LastKeyOf(pairs, a, b).Null? <==>
              forall i :: 0 <= i < |pairs| ==> KeyOf(pairs[i].0) != Some(a) && KeyOf(pairs[i].0) != Some(b)
    decreases |pairs|
  {
    if |pairs| > 0 {
      LastKeyFound(pairs[1..], a, b);
      if LastKeyOf(pairs[1..], a, b).Some? {
        var j :| 0 <= j < |pairs[1..]| && KeyOf(pairs[1..][j].0) == LastKeyOf(pairs[1..], a, b);
        assert pairs[j + 1] == pairs[1..][j];
      } else {
        forall i | 1 <= i < |pairs|
          ensures KeyOf(pairs[i].0) != Some(a) && KeyOf(pairs[i].0) != Some(b)
        {
          assert pairs[i] == pairs[1..][i - 1];
        }
      }
    }
  }

  /** A key's case writes only the part of the state its section names. */
  lemma ApplyFrame(s: ImportState, k: Key, value: string, h: Helpers)
    ensures Apply(s, k, value, h).Success? ==>
              var r := Apply(s, k, value, h).value;
              (!k.Picture? ==> r.task.picture == s.task.picture) &&
              (!k.Filter? ==> r.task.filters == s.task.filters) &&
              (!k.Video? ==> r.task.video == s.task.video) &&
              (!k.General? ==>
                 r.qualityMode == s.qualityMode && r.useFilters == s.useFilters &&
                 r.pictureSettingsMode == s.pictureSettingsMode)
  {
  }

  /** What one key does to the import's locals and to the rate type: only
      its own key sets each local, and no key sets the rate type. */
  lemma ApplySetsUseFilters(s: ImportState, k: Key, value: string, h: Helpers)
    ensures Apply(s, k, value, h).Success? ==>
              Apply(s, k, value, h).value.useFilters == (if k == General(UsesPictureFilters) then Flag(value) else s.useFilters)
  {
    ApplyFrame(s, k, value, h);
  }

  lemma ApplySetsQualityMode(s: ImportState, k: Key, value: string, h: Helpers)
    ensures Apply(s, k, value, h).Success? ==>
              Apply(s, k, value, h).value.qualityMode == (if k == General(VideoQualityType) then value else s.qualityMode)
  {
    ApplyFrame(s, k, value, h);
  }

  lemma ApplySetsSettingsMode(s: ImportState, k: Key, value: string, h: Helpers)
    ensures Apply(s, k, value, h).Success? ==>
              Apply(s, k, value, h).value.pictureSettingsMode ==
                if k == General(UsesMaxPictureSettings) then PresetPictureSettingsMode.SourceMaximum
                else if k == General(UsesPictureSettings) then PresetPictureSettingsMode.Custom
                else s.pictureSettingsMode
  {
    ApplyFrame(s, k, value, h);
  }

  lemma ApplyKeepsRateType(s: ImportState, k: Key, value: string, h: Helpers)
    ensures Apply(s, k, value, h).Success? ==>
              Apply(s, k, value, h).value.task.video.videoEncodeRateType == s.task.video.videoEncodeRateType
  {
    ApplyFrame(s, k, value, h);
    if k.Video? {
      var r := ApplyVideo(s.task.video, k.video, value, h);
      assert r.Success? ==> r.value.videoEncodeRateType == s.task.video.videoEncodeRateType;
    }
  }

  lemma StepLocals(s: ImportState, name: string, value: string, h: Helpers)
    ensures Step(s, name, value, h).Success? ==>
              var n := Step(s, name, value, h).value;
              n.useFilters == (if KeyOf(name) == Some(General(UsesPictureFilters)) then Flag(value) else s.useFilters) &&
              n.qualityMode == (if KeyOf(name) == Some(General(VideoQualityType)) then value else s.qualityMode) &&
              n.pictureSettingsMode == (if KeyOf(name) == Some(General(UsesMaxPictureSettings)) then PresetPictureSettingsMode.SourceMaximum
                                        else if KeyOf(name) == Some(General(UsesPictureSettings)) then PresetPictureSettingsMode.Custom
                                        else s.pictureSettingsMode) &&
              n.task.video.videoEncodeRateType == s.task.video.videoEncodeRateType
  {
    match KeyOf(name)
    case Null =>
    case Some(k) =>
      ApplySetsUseFilters(s, k, value, h);
      ApplySetsQualityMode(s, k, value, h);
      ApplySetsSettingsMode(s, k, value, h);
      ApplyKeepsRateType(s, k, value, h);
  }

  /** After the loop, the filter flag is the last `UsesPictureFilters`
      value's flag, or the starting flag when there is none. */
  lemma {:induction false} FoldUseFilters(s: ImportState, pairs: seq<(string, string)>, h: Helpers)
    ensures Fold(s, pairs, h).Success? ==>
              Fold(s, pairs, h).value.useFilters ==
                match LastValue(pairs, General(UsesPictureFilters))
                case Some(v) => Flag(v)
                case Null => s.useFilters
    decreases |pairs|
  {
    if |pairs| > 0 {
      var step := Step(s, pairs[0].0, pairs[0].1, h);
      if step.Success? {
        StepLocals(s, pairs[0].0, pairs[0].1, h);
        FoldUseFilters(step.value, pairs[1..], h);
      }
    }
  }

  /** After the loop, the quality mode is the last `VideoQualityType` value,
      or the starting one when there is none. */
  lemma {:induction false} FoldQualityMode(s: ImportState, pairs: seq<(string, string)>, h: Helpers)
    ensures Fold(s, pairs, h).Success? ==>
              Fold(s, pairs, h).value.qualityMode == LastValue(pairs, General(VideoQualityType)).GetOr(s.qualityMode)
    decreases |pairs|
  {
    if |pairs| > 0 {
      var step := Step(s, pairs[0].0, pairs[0].1, h);
      if step.Success? {
        StepLocals(s, pairs[0].0, pairs[0].1, h);
        FoldQualityMode(step.value, pairs[1..], h);
      }
    }
  }

  /** After the loop, the picture settings mode is set by whichever of
      `UsesMaxPictureSettings` and `UsesPictureSettings` came last, whatever
      its value. */
  lemma {:induction false} FoldSettingsMode(s: ImportState, pairs: seq<(string, string)>, h: Helpers)
    ensures Fold(s, pairs, h).Success? ==>
              Fold(s, pairs, h).value.pictureSettingsMode ==
                match LastKeyOf(pairs, General(UsesMaxPictureSettings), General(UsesPictureSettings))
                case Some(General(UsesMaxPictureSettings)) => PresetPictureSettingsMode.SourceMaximum
                case Some(_) => PresetPictureSettingsMode.Custom
                case Null => s.pictureSettingsMode
    decreases |pairs|
  {
    if |pairs| > 0 {
      var step := Step(s, pairs[0].0, pairs[0].1, h);
      if step.Success? {
        StepLocals(s, pairs[0].0, pairs[0].1, h);
        FoldSettingsMode(step.value, pairs[1..], h);
      }
    }
  }

  /** No key sets the rate type: only the quality mode after the loop does. */
  lemma {:induction false} FoldKeepsRateType(s: ImportState, pairs: seq<(string, string)>, h: Helpers)
    ensures Fold(s, pairs, h).Success? ==>
              Fold(s, pairs, h).value.task.video.videoEncodeRateType == s.task.video.videoEncodeRateType
    decreases |pairs|
  {
    if |pairs| > 0 {
      var step := Step(s, pairs[0].0, pairs[0].1, h);
      if step.Success? {
        StepLocals(s, pairs[0].0, pairs[0].1, h);
        FoldKeepsRateType(step.value, pairs[1..], h);
      }
    }
  }

  /** What one key does to the cropping flag, the anamorphic mode and the
      detelecine filter: only its own key sets each. */
  lemma ApplySetsHasCropping(s: ImportState, k: Key, value: string, h: Helpers)
    ensures Apply(s, k, value, h).Success? ==>
              Apply(s, k, value, h).value.task.picture.hasCropping == (if k == Picture(PictureAutoCrop) then value != "1" else s.task.picture.hasCropping)
  {
    ApplyFrame(s, k, value, h);
    if k.Picture? {
      var r := ApplyPicture(s.task.picture, k.picture, value);
      assert r.Success? ==> k.picture != PictureAutoCrop ==> r.value.hasCropping == s.task.picture.hasCropping;
    }
  }

  lemma ApplySetsAnamorphic(s: ImportState, k: Key, value: string, h: Helpers)
    ensures Apply(s, k, value, h).Success? ==>
              Apply(s, k, value, h).value.task.picture.anamorphic == (if k == Picture(PicturePAR) then DecodeAnamorphic(value) else s.task.picture.anamorphic)
  {
    ApplyFrame(s, k, value, h);
    if k.Picture? {
      var r := ApplyPicture(s.task.picture, k.picture, value);
      assert r.Success? && k.picture != PicturePAR ==> r.value.anamorphic == s.task.picture.anamorphic;
    }
  }

  lemma ApplySetsDetelecine(s: ImportState, k: Key, value: string, h: Helpers)
    ensures Apply(s, k, value, h).Success? ==>
              Apply(s, k, value, h).value.task.filters.detelecine == (if k == Filter(PictureDetelecine) then DecodeDetelecine(value) else s.task.filters.detelecine)
  {
    ApplyFrame(s, k, value, h);
    if k.Filter? {
      var r := ApplyFilter(s.task.filters, k.filter, value);
      assert r.Success? ==> k.filter != PictureDetelecine ==> r.value.detelecine == s.task.filters.detelecine;
    }
  }

  /** The custom detelecine text is set by its own key, and only when the
      value is not empty. */
  lemma ApplySetsCustomDetelecine(s: ImportState, k: Key, value: string, h: Helpers)
    ensures Apply(s, k, value, h).Success? ==>
              Apply(s, k, value, h).value.task.filters.customDetelecine ==
                (if k == Filter(PictureDetelecineCustom) && value != "" then value else s.task.filters.customDetelecine)
  {
    ApplyFrame(s, k, value, h);
    if k.Filter? {
      var r := ApplyFilter(s.task.filters, k.filter, value);
      assert r.Success? ==> k.filter != PictureDetelecineCustom ==> r.value.customDetelecine == s.task.filters.customDetelecine;
    }
  }

  lemma StepFields(s: ImportState, name: string, value: string, h: Helpers)
    ensures Step(s, name, value, h).Success? ==>
              var t := Step(s, name, value, h).value.task;
              t.picture.hasCropping == (if KeyOf(name) == Some(Picture(PictureAutoCrop)) then value != "1" else s.task.picture.hasCropping) &&
              t.picture.anamorphic == (if KeyOf(name) == Some(Picture(PicturePAR)) then DecodeAnamorphic(value) else s.task.picture.anamorphic) &&
              t.filters.detelecine == (if KeyOf(name) == Some(Filter(PictureDetelecine)) then DecodeDetelecine(value) else s.task.filters.detelecine) &&
              t.filters.customDetelecine == (if KeyOf(name) == Some(Filter(PictureDetelecineCustom)) && value != "" then value
                                     else s.task.filters.customDetelecine)
  {
    match KeyOf(name)
    case Null =>
    case Some(k) =>
      ApplySetsHasCropping(s, k, value, h);
      ApplySetsAnamorphic(s, k, value, h);
      ApplySetsDetelecine(s, k, value, h);
      ApplySetsCustomDetelecine(s, k, value, h);
  }

  /** After the loop, cropping is on unless the last `PictureAutoCrop` value is "1". */
  lemma {:induction false} FoldHasCropping(s: ImportState, pairs: seq<(string, string)>, h: Helpers)
    ensures Fold(s, pairs, h).Success? ==>
              Fold(s, pairs, h).value.task.picture.hasCropping ==
                match LastValue(pairs, Picture(PictureAutoCrop))
                case Some(v) => v != "1"
                case Null => s.task.picture.hasCropping
    decreases |pairs|
  {
    if |pairs| > 0 {
      var step := Step(s, pairs[0].0, pairs[0].1, h);
      if step.Success? {
        StepFields(s, pairs[0].0, pairs[0].1, h);
        FoldHasCropping(step.value, pairs[1..], h);
      }
    }
  }

  /** After the loop, the anamorphic mode is the last `PicturePAR` value's. */
  lemma {:induction false} FoldAnamorphic(s: ImportState, pairs: seq<(string, string)>, h: Helpers)
    ensures Fold(s, pairs, h).Success? ==>
              Fold(s, pairs, h).value.task.picture.anamorphic ==
                match LastValue(pairs, Picture(PicturePAR))
                case Some(v) => DecodeAnamorphic(v)
                case Null => s.task.picture.anamorphic
    decreases |pairs|
  {
    if |pairs| > 0 {
      var step := Step(s, pairs[0].0, pairs[0].1, h);
      if step.Success? {
        StepFields(s, pairs[0].0, pairs[0].1, h);
        FoldAnamorphic(step.value, pairs[1..], h);
      }
    }
  }

  /** After the loop, the detelecine filter is the last `PictureDetelecine` value's. */
  lemma {:induction false} FoldDetelecine(s: ImportState, pairs: seq<(string, string)>, h: Helpers)
    ensures Fold(s, pairs, h).Success? ==>
              Fold(s, pairs, h).value.task.filters.detelecine ==
                match LastValue(pairs, Filter(PictureDetelecine))
                case Some(v) => DecodeDetelecine(v)
                case Null => s.task.filters.detelecine
    decreases |pairs|
  {
    if |pairs| > 0 {
      var step := Step(s, pairs[0].0, pairs[0].1, h);
      if step.Success? {
        StepFields(s, pairs[0].0, pairs[0].1, h);
        FoldDetelecine(step.value, pairs[1..], h);
      }
    }
  }

  /** After the loop, the custom detelecine text is the last non-empty
      `PictureDetelecineCustom` value, and the starting text when there is
      none: an empty value leaves an earlier text in place. In particular it
      is the last value when that is not empty, and the starting text when
      the key is absent. */
  lemma {:induction false} FoldCustomDetelecine(s: ImportState, pairs: seq<(string, string)>, h: Helpers)
    ensures Fold(s, pairs, h).Success? ==>
              Fold(s, pairs, h).value.task.filters.customDetelecine ==
                LastNonEmptyValue(pairs, Filter(PictureDetelecineCustom)).GetOr(s.task.filters.customDetelecine)
    ensures Fold(s, pairs, h).Success? && LastValue(pairs, Filter(PictureDetelecineCustom)).Null? ==>
              Fold(s, pairs, h).value.task.filters.customDetelecine == s.task.filters.customDetelecine
    ensures Fold(s, pairs, h).Success? && LastValue(pairs, Filter(PictureDetelecineCustom)).Some? &&
            LastValue(pairs, Filter(PictureDetelecineCustom)).value != "" ==>
              Fold(s, pairs, h).value.task.filters.customDetelecine == LastValue(pairs, Filter(PictureDetelecineCustom)).value
    decreases |pairs|
  {
    if |pairs| > 0 {
      var step := Step(s, pairs[0].0, pairs[0].1, h);
      if step.Success? {
        StepFields(s, pairs[0].0, pairs[0].1, h);
        FoldCustomDetelecine(step.value, pairs[1..], h);
      }
      LastNonEmptyOfLast(pairs, Filter(PictureDetelecineCustom));
    }
  }

  /** One step on an integer key whose value does not parse fails. */
  lemma StepRejectsBadInteger(s: ImportState, name: string, value: string, h: Helpers)
    requires KeyOf(name).Some? && IsIntegerKey(KeyOf(name).value) && ParseInt32(value).Failure?
    ensures Step(s, name, value, h).Failure?
  {
  }

  /** The loop fails at the first pair or carries on with the rest. */
  lemma FoldFirst(s: ImportState, pairs: seq<(string, string)>, h: Helpers)
    requires |pairs| > 0
    ensures Step(s, pairs[0].0, pairs[0].1, h).Failure? ==> Fold(s, pairs, h).Failure?
    ensures Step(s, pairs[0].0, pairs[0].1, h).Success? ==>
              Fold(s, pairs, h) == Fold(Step(s, pairs[0].0, pairs[0].1, h).value, pairs[1..], h)
  {
  }

  /** The pair at `i` is the pair at `i - 1` of the tail. */
  lemma TailAt(pairs: seq<(string, string)>, i: nat)
    requires 0 < i < |pairs|
    ensures pairs[1..][i - 1] == pairs[i]
  {
  }

  /** A value of an integer key that does not parse as a 32-bit integer
      aborts the whole import, wherever it stands. */
  lemma {:induction false} FoldRejectsBadInteger(s: ImportState, pairs: seq<(string, string)>, h: Helpers, i: nat)
    requires i < |pairs| && KeyOf(pairs[i].0).Some? && IsIntegerKey(KeyOf(pairs[i].0).value)
    requires ParseInt32(pairs[i].1).Failure?
    ensures Fold(s, pairs, h).Failure?
    decreases i
  {
    if i == 0 {
      StepRejectsBadInteger(s, pairs[0].0, pairs[0].1, h);
    } else {
      var step := Step(s, pairs[0].0, pairs[0].1, h);
      FoldFirst(s, pairs, h);
      if step.Success? {
        TailAt(pairs, i);
        FoldRejectsBadInteger(step.value, pairs[1..], h, i - 1);
      }
    }
  }

  lemma ImportRejectsBadInteger(blank: Preset, h: Helpers, pairs: seq<(string, string)>, i: nat)
    requires i < |pairs| && KeyOf(pairs[i].0).Some? && IsIntegerKey(KeyOf(pairs[i].0).value)
    requires ParseInt32(pairs[i].1).Failure?
    ensures Import(blank, h, pairs).Failure?
  {
    FoldRejectsBadInteger(Start(blank), pairs, h, i);
  }

  /** What follows the loop leaves the cropping flag, the anamorphic mode
      and the custom detelecine text; it keeps the detelecine filter when
      the filters are on; and it sets the rate type from the quality mode. */
  lemma FinishFields(s: ImportState)
    ensures Finish(s).task.picture.hasCropping == s.task.picture.hasCropping
    ensures Finish(s).task.picture.anamorphic == s.task.picture.anamorphic
    ensures Finish(s).task.filters.customDetelecine == s.task.filters.customDetelecine
    ensures s.useFilters ==> Finish(s).task.filters.detelecine == s.task.filters.detelecine
    ensures Finish(s).task.video.videoEncodeRateType ==
              match s.qualityMode
              case "1" => VideoEncodeRateType.AverageBitrate
              case "2" => VideoEncodeRateType.ConstantQuality
              case _ => s.task.video.videoEncodeRateType
  {
  }

  /** Unless the last `UsesPictureFilters` value is "1", an imported preset
      has every filter off, no deblocking and no grayscale, whatever filter
      keys the dictionary holds. */
  lemma FilterReset(blank: Preset, h: Helpers, pairs: seq<(string, string)>)
    requires LastValue(pairs, General(UsesPictureFilters)) != Some("1")
    ensures Import(blank, h, pairs).Success? ==>
              var p := Import(blank, h, pairs).value;
              !p.usePictureFilters &&
              p.task.filters.detelecine == Detelecine.Off && p.task.filters.denoise == Denoise.Off &&
              p.task.filters.deinterlace == Deinterlace.Off && p.task.filters.decomb == Decomb.Off &&
              p.task.filters.deblock == 0 && !p.task.video.grayscale
  {
    FoldUseFilters(Start(blank), pairs, h);
  }

  /** The rate type comes from the last `VideoQualityType`: "1" average
      bitrate, "2" constant quality, otherwise the new task's. */
  lemma ImportedRateType(blank: Preset, h: Helpers, pairs: seq<(string, string)>)
    ensures Import(blank, h, pairs).Success? ==>
              Import(blank, h, pairs).value.task.video.videoEncodeRateType ==
                match LastValue(pairs, General(VideoQualityType))
                case Some("1") => VideoEncodeRateType.AverageBitrate
                case Some("2") => VideoEncodeRateType.ConstantQuality
                case _ => blank.task.video.videoEncodeRateType
  {
    FoldQualityMode(Start(blank), pairs, h);
    FoldKeepsRateType(Start(blank), pairs, h);
  }

  /** The picture filters flag comes from the last `UsesPictureFilters` value. */
  lemma ImportedUsesFilters(blank: Preset, h: Helpers, pairs: seq<(string, string)>)
    ensures Import(blank, h, pairs).Success? ==>
              Import(blank, h, pairs).value.usePictureFilters == (LastValue(pairs, General(UsesPictureFilters)) == Some("1"))
  {
    FoldUseFilters(Start(blank), pairs, h);
  }

  /** Cropping is on unless the last `PictureAutoCrop` value is "1"; without one it is the new task's. */
  lemma ImportedHasCropping(blank: Preset, h: Helpers, pairs: seq<(string, string)>)
    ensures Import(blank, h, pairs).Success? ==>
              Import(blank, h, pairs).value.task.picture.hasCropping ==
                match LastValue(pairs, Picture(PictureAutoCrop))
                case Some(v) => v != "1"
                case Null => blank.task.picture.hasCropping
  {
    var r := Fold(Start(blank), pairs, h);
    if r.Success? {
      FinishFields(r.value);
      FoldHasCropping(Start(blank), pairs, h);
    }
  }

  /** The anamorphic mode is decoded from the last `PicturePAR` value; without one it is the new task's. */
  lemma ImportedAnamorphic(blank: Preset, h: Helpers, pairs: seq<(string, string)>)
    ensures Import(blank, h, pairs).Success? ==>
              Import(blank, h, pairs).value.task.picture.anamorphic ==
                match LastValue(pairs, Picture(PicturePAR))
                case Some(v) => DecodeAnamorphic(v)
                case Null => blank.task.picture.anamorphic
  {
    var r := Fold(Start(blank), pairs, h);
    if r.Success? {
      FinishFields(r.value);
      FoldAnamorphic(Start(blank), pairs, h);
    }
  }

  /** With picture filters on, the detelecine filter is decoded from the
      last `PictureDetelecine` value; without one it is the new task's. */
  lemma ImportedDetelecine(blank: Preset, h: Helpers, pairs: seq<(string, string)>)
    ensures Import(blank, h, pairs).Success? && Import(blank, h, pairs).value.usePictureFilters ==>
              Import(blank, h, pairs).value.task.filters.detelecine ==
                match LastValue(pairs, Filter(PictureDetelecine))
                case Some(v) => DecodeDetelecine(v)
                case Null => blank.task.filters.detelecine
  {
    var r := Fold(Start(blank), pairs, h);
    if r.Success? {
      FinishFields(r.value);
      FoldDetelecine(Start(blank), pairs, h);
    }
  }

  /** The custom detelecine text is the last non-empty `PictureDetelecineCustom` value's. */
  lemma ImportedCustomDetelecine(blank: Preset, h: Helpers, pairs: seq<(string, string)>, text: string)
    requires text != "" && LastValue(pairs, Filter(PictureDetelecineCustom)) == Some(text)
    ensures Import(blank, h, pairs).Success? ==> Import(blank, h, pairs).value.task.filters.customDetelecine == text
  {
    var r := Fold(Start(blank), pairs, h);
    if r.Success? {
      FinishFields(r.value);
      FoldCustomDetelecine(Start(blank), pairs, h);
    }
  }

  /** The imported custom detelecine text is the last non-empty
      `PictureDetelecineCustom` value, or the new task's text when there is none. */
  lemma ImportedCustomDetelecineText(blank: Preset, h: Helpers, pairs: seq<(string, string)>)
    ensures Import(blank, h, pairs).Success? ==>
              Import(blank, h, pairs).value.task.filters.customDetelecine ==
                LastNonEmptyValue(pairs, Filter(PictureDetelecineCustom)).GetOr(Start(blank).task.filters.customDetelecine)
  {
    var r := Fold(Start(blank), pairs, h);
    if r.Success? {
      FinishFields(r.value);
      FoldCustomDetelecine(Start(blank), pairs, h);
    }
  }

  /** When `UsesMaxPictureSettings` is the last of the two picture settings
      keys, the preset is a source-maximum preset whose maximum width is its
      height and whose maximum height is its width. */
  lemma SourceMaximumSwap(blank: Preset, h: Helpers, pairs: seq<(string, string)>)
    requires LastKeyOf(pairs, General(UsesMaxPictureSettings), General(UsesPictureSettings)) == Some(General(UsesMaxPictureSettings))
    ensures Import(blank, h, pairs).Success? ==>
              var p := Import(blank, h, pairs).value;
              p.pictureSettingsMode == PresetPictureSettingsMode.SourceMaximum &&
              p.task.picture.maxWidth == p.task.picture.height && p.task.picture.maxHeight == p.task.picture.width
  {
    FoldSettingsMode(Start(blank), pairs, h);
  }
}

=== FILE: plist_reimport.dfy ===
/** What a preset written by `AddEncodeSettings` reads back as through
    `Import`. The export writes every key once, so the value the import
    keeps for a key is the one element written for it. */
module PlistReimport {
  import opened Wrappers
  import opened IntText
  import opened EncodingTypes
  import opened PresetModel
  import opened PlistImport
  import opened PlistExport
  import opened PlistProperties

  /** The value of the pair at `i` is the last one for `k` when no later pair names `k`. */
  lemma {:induction false} LastValueAt(pairs: seq<(string, string)>, i: nat, k: Key)
    requires i < |pairs| && KeyOf(pairs[i].0) == Some(k)
    requires forall j :: i < j < |pairs| ==> KeyOf(pairs[j].0) != Some(k)
    ensures LastValue(pairs, k) == Some(pairs[i].1)
    decreases i
  {
    if i > 0 {
      LastValueAt(pairs[1..], i - 1, k);
    } else {
      forall j | 0 <= j < |pairs[1..]|
        ensures KeyOf(pairs[1..][j].0) != Some(k)
      {
        assert pairs[1..][j] == pairs[j + 1];
      }
      LastValueFound(pairs[1..], k);
    }
  }

  /** The pair at `i`, naming `b`, is the last of `a` and `b` when no later pair names either. */
  lemma {:induction false} LastKeyAt(pairs: seq<(string, string)>, i: nat, a: Key, b: Key)
    requires i < |pairs| && KeyOf(pairs[i].0) == Some(b)
    requires forall j :: i < j < |pairs| ==> KeyOf(pairs[j].0) != Some(a) && KeyOf(pairs[j].0) != Some(b)
    ensures LastKeyOf(pairs, a, b) == Some(b)
    decreases i
  {
    if i > 0 {
      LastKeyAt(pairs[1..], i - 1, a, b);
    } else {
      forall j | 0 <= j < |pairs[1..]|
        ensures KeyOf(pairs[1..][j].0) != Some(a) && KeyOf(pairs[1..][j].0) != Some(b)
      {
        assert pairs[1..][j] == pairs[j + 1];
      }
      LastKeyFound(pairs[1..], a, b);
    }
  }

  /** The key and value texts of the written elements. */
  function Written(p: Preset, build: int, formatDouble: real -> string, detelecineCustom: string): seq<(string, string)> {
    ExportPairs(SettingsEntries(p, build, formatDouble, detelecineCustom))
  }

  /** Each written pair's key text names the key written at its position. */
  lemma WrittenKeys(p: Preset, build: int, formatDouble: real -> string, detelecineCustom: string, j: int)
    requires 0 <= j < WrittenCount
    ensures KeyOf(Written(p, build, formatDouble, detelecineCustom)[j].0) == Some(KeyAt(j))
  {
    var k := KeyAt(j);
    assert SettingsEntries(p, build, formatDouble, detelecineCustom)[Position(k)].key == k;
  }

  /** Reading the written elements, the value kept for a key is the value of
      the one element written for it. */
  lemma WrittenValue(p: Preset, build: int, formatDouble: real -> string, detelecineCustom: string, k: Key)
    requires k != Video(VideoFramerateMode)
    ensures LastValue(Written(p, build, formatDouble, detelecineCustom), k) ==
            Some(WrittenEntry(p, build, formatDouble, detelecineCustom, k).value)
  {
    var pairs := Written(p, build, formatDouble, detelecineCustom);
    PositionKeyAt(k);
    forall j | Position(k) <= j < WrittenCount
      ensures KeyOf(pairs[j].0) == Some(KeyAt(j)) && Position(KeyAt(j)) == j
    {
      WrittenKeys(p, build, formatDouble, detelecineCustom, j);
    }
    LastValueAt(pairs, Position(k), k);
  }

  /** Of two written keys, the one written later is the last read. */
  lemma WrittenLastKey(p: Preset, build: int, formatDouble: real -> string, detelecineCustom: string, a: Key, b: Key)
    requires a != Video(VideoFramerateMode) && b != Video(VideoFramerateMode) && Position(a) < Position(b)
    ensures LastKeyOf(Written(p, build, formatDouble, detelecineCustom), a, b) == Some(b)
  {
    var pairs := Written(p, build, formatDouble, detelecineCustom);
    PositionKeyAt(a);
    PositionKeyAt(b);
    forall j | Position(b) <= j < WrittenCount
      ensures KeyOf(pairs[j].0) == Some(KeyAt(j)) && Position(KeyAt(j)) == j
    {
      WrittenKeys(p, build, formatDouble, detelecineCustom, j);
    }
    LastKeyAt(pairs, Position(b), a, b);
  }

  /** A preset written with custom detelecine text `detelecineCustom` and
      read back into `blank` with the helpers `h`. */
  function Reimport(p: Preset, build: int, formatDouble: real -> string, detelecineCustom: string,
                    blank: Preset, h: Helpers): Result<Preset, ParseError> {
    Import(blank, h, Written(p, build, formatDouble, detelecineCustom))
  }

  /** An import that succeeds is its loop's state, finished. */
  lemma ImportOfFold(blank: Preset, h: Helpers, pairs: seq<(string, string)>)
    ensures Import(blank, h, pairs).Success? <==> Fold(Start(blank), pairs, h).Success?
    ensures Import(blank, h, pairs).Success? ==> Import(blank, h, pairs).value == Finish(Fold(Start(blank), pairs, h).value)
  {
  }

  /** The last "UsesPictureFilters" value written is "1". */
  lemma WrittenFiltersFlag(p: Preset, build: int, formatDouble: real -> string, detelecineCustom: string)
    ensures LastValue(Written(p, build, formatDouble, detelecineCustom), General(UsesPictureFilters)) == Some("1")
  {
    WrittenValue(p, build, formatDouble, detelecineCustom, General(UsesPictureFilters));
  }

  /** The last "PicturePAR" value written is the anamorphic code's text. */
  lemma WrittenAnamorphicCode(p: Preset, build: int, formatDouble: real -> string, detelecineCustom: string)
    ensures LastValue(Written(p, build, formatDouble, detelecineCustom), Picture(PicturePAR)) ==
            Some(IntToString(AnamorphicCode(p.task.picture.anamorphic)))
  {
    WrittenValue(p, build, formatDouble, detelecineCustom, Picture(PicturePAR));
  }

  /** The last "PictureDetelecine" value written is the detelecine code's text. */
  lemma WrittenDetelecineCode(p: Preset, build: int, formatDouble: real -> string, detelecineCustom: string)
    ensures LastValue(Written(p, build, formatDouble, detelecineCustom), Filter(PictureDetelecine)) ==
            Some(IntToString(DetelecineCode(p.task.filters.detelecine)))
  {
    WrittenValue(p, build, formatDouble, detelecineCustom, Filter(PictureDetelecine));
  }

  /** The last "VideoQualityType" value written is "1" for a bitrate,
      else "2" for a quality, else "0". */
  lemma WrittenQualityType(p: Preset, build: int, formatDouble: real -> string, detelecineCustom: string)
    ensures LastValue(Written(p, build, formatDouble, detelecineCustom), General(VideoQualityType)) ==
            Some(if p.task.video.videoBitrate.Some? then "1" else if p.task.video.quality.Some? then "2" else "0")
  {
    WrittenValue(p, build, formatDouble, detelecineCustom, General(VideoQualityType));
    QualityTypeText(p.task);
  }

  /** For a Custom detelecine filter, the last "PictureDetelecineCustom"
      value written is the custom text. */
  lemma WrittenCustomDetelecine(p: Preset, build: int, formatDouble: real -> string, detelecineCustom: string)
    requires p.task.filters.detelecine == Detelecine.Custom
    ensures LastValue(Written(p, build, formatDouble, detelecineCustom), Filter(PictureDetelecineCustom)) ==
            Some(detelecineCustom)
  {
    WrittenValue(p, build, formatDouble, detelecineCustom, Filter(PictureDetelecineCustom));
  }

  /** The loop over a written preset ends with picture filters on. */
  lemma WrittenFiltersOn(p: Preset, build: int, formatDouble: real -> string, detelecineCustom: string, h: Helpers, s: ImportState)
    ensures Fold(s, Written(p, build, formatDouble, detelecineCustom), h).Success? ==>
              Fold(s, Written(p, build, formatDouble, detelecineCustom), h).value.useFilters
  {
    WrittenFiltersFlag(p, build, formatDouble, detelecineCustom);
    FoldUseFilters(s, Written(p, build, formatDouble, detelecineCustom), h);
  }

  /** A written preset reads back with picture filters on. */
  lemma ReimportUsesFilters(p: Preset, build: int, formatDouble: real -> string, detelecineCustom: string,
                            blank: Preset, h: Helpers)
    ensures Reimport(p, build, formatDouble, detelecineCustom, blank, h).Success? ==>
              Reimport(p, build, formatDouble, detelecineCustom, blank, h).value.usePictureFilters
  {
    WrittenFiltersFlag(p, build, formatDouble, detelecineCustom);
    ImportedUsesFilters(blank, h, Written(p, build, formatDouble, detelecineCustom));
  }

  /** `UsesPictureSettings` is written after `UsesMaxPictureSettings`. */
  lemma SettingsKeysOrder()
    ensures Position(General(UsesMaxPictureSettings)) == 36 && Position(General(UsesPictureSettings)) == 38
  {
  }

  /** A written preset reads back with custom picture settings, because
      "UsesPictureSettings" is written after "UsesMaxPictureSettings". */
  lemma ReimportCustomSettings(p: Preset, build: int, formatDouble: real -> string, detelecineCustom: string,
                               blank: Preset, h: Helpers)
    ensures Reimport(p, build, formatDouble, detelecineCustom, blank, h).Success? ==>
              Reimport(p, build, formatDouble, detelecineCustom, blank, h).value.pictureSettingsMode ==
                PresetPictureSettingsMode.Custom
  {
    var pairs := Written(p, build, formatDouble, detelecineCustom);
    ImportOfFold(blank, h, pairs);
    SettingsKeysOrder();
    WrittenLastKey(p, build, formatDouble, detelecineCustom, General(UsesMaxPictureSettings), General(UsesPictureSettings));
    FoldSettingsMode(Start(blank), pairs, h);
  }

  /** The export always writes auto-crop "1", so a written preset reads back
      without cropping, whatever its own flag. */
  lemma ReimportNoCropping(p: Preset, build: int, formatDouble: real -> string, detelecineCustom: string,
                           blank: Preset, h: Helpers)
    ensures Reimport(p, build, formatDouble, detelecineCustom, blank, h).Success? ==>
              !Reimport(p, build, formatDouble, detelecineCustom, blank, h).value.task.picture.hasCropping
  {
    WrittenValue(p, build, formatDouble, detelecineCustom, Picture(PictureAutoCrop));
    ImportedHasCropping(blank, h, Written(p, build, formatDouble, detelecineCustom));
  }

  /** The anamorphic mode reads back as written. */
  lemma ReimportAnamorphic(p: Preset, build: int, formatDouble: real -> string, detelecineCustom: string,
                           blank: Preset, h: Helpers)
    ensures Reimport(p, build, formatDouble, detelecineCustom, blank, h).Success? ==>
              Reimport(p, build, formatDouble, detelecineCustom, blank, h).value.task.picture.anamorphic == p.task.picture.anamorphic
  {
    WrittenAnamorphicCode(p, build, formatDouble, detelecineCustom);
    AnamorphicRoundTrip(p.task.picture.anamorphic);
    ImportedAnamorphic(blank, h, Written(p, build, formatDouble, detelecineCustom));
  }

  /** The detelecine filter reads back as written: the filters are on, so
      the reset after the loop leaves it. */
  lemma ReimportDetelecine(p: Preset, build: int, formatDouble: real -> string, detelecineCustom: string,
                           blank: Preset, h: Helpers)
    ensures Reimport(p, build, formatDouble, detelecineCustom, blank, h).Success? ==>
              Reimport(p, build, formatDouble, detelecineCustom, blank, h).value.task.filters.detelecine == p.task.filters.detelecine
  {
    ReimportUsesFilters(p, build, formatDouble, detelecineCustom, blank, h);
    WrittenDetelecineCode(p, build, formatDouble, detelecineCustom);
    DetelecineRoundTrip(p.task.filters.detelecine);
    ImportedDetelecine(blank, h, Written(p, build, formatDouble, detelecineCustom));
  }

  /** The rate type reads back from the quality type code: average bitrate
      when a bitrate is set, else constant quality when a quality is set,
      else the new task's. */
  lemma ReimportRateType(p: Preset, build: int, formatDouble: real -> string, detelecineCustom: string,
                         blank: Preset, h: Helpers)
    ensures Reimport(p, build, formatDouble, detelecineCustom, blank, h).Success? ==>
              Reimport(p, build, formatDouble, detelecineCustom, blank, h).value.task.video.videoEncodeRateType ==
                if p.task.video.videoBitrate.Some? then VideoEncodeRateType.AverageBitrate
                else if p.task.video.quality.Some? then VideoEncodeRateType.ConstantQuality
                else blank.task.video.videoEncodeRateType
  {
    WrittenQualityType(p, build, formatDouble, detelecineCustom);
    ImportedRateType(blank, h, Written(p, build, formatDouble, detelecineCustom));
  }

  /** For a Custom detelecine filter, the custom text read back is the text
      written for it, when that text is not empty. */
  lemma ReimportCustomDetelecine(p: Preset, build: int, formatDouble: real -> string, detelecineCustom: string,
                                 blank: Preset, h: Helpers)
    requires p.task.filters.detelecine == Detelecine.Custom && detelecineCustom != ""
    ensures Reimport(p, build, formatDouble, detelecineCustom, blank, h).Success? ==>
              Reimport(p, build, formatDouble, detelecineCustom, blank, h).value.task.filters.customDetelecine == detelecineCustom
  {
    WrittenCustomDetelecine(p, build, formatDouble, detelecineCustom);
    ImportedCustomDetelecine(blank, h, Written(p, build, formatDouble, detelecineCustom), detelecineCustom);
  }

  /** A value the import's switch accepts for key `k`: an integer key's
      value parses as a 32-bit integer, and a bitrate, frame rate or quality
      value is empty or parses as its number. */
  predicate Readable(k: Key, value: string, h: Helpers) {
    (IsIntegerKey(k) ==> ParseInt32(value).Success?) &&
    (k == Video(VideoAvgBitrate) ==> value == "" || ParseInt32(value).Success?) &&
    (k == Video(VideoFramerate) || k == Video(VideoQualitySlider) ==> value == "" || h.parseDouble(value).Success?)
  }

  /** A step fails only on a value its key cannot read. */
  lemma StepSucceeds(s: ImportState, name: string, value: string, h: Helpers)
    requires KeyOf(name).Some? ==> Readable(KeyOf(name).value, value, h)
    ensures Step(s, name, value, h).Success?
  {
  }

  /** The loop runs to the end when every named key's value is readable. */
  lemma {:induction false} FoldSucceeds(s: ImportState, pairs: seq<(string, string)>, h: Helpers)
    requires forall i :: 0 <= i < |pairs| && KeyOf(pairs[i].0).Some? ==> Readable(KeyOf(pairs[i].0).value, pairs[i].1, h)
    ensures Fold(s, pairs, h).Success?
    decreases |pairs|
  {
    if |pairs| > 0 {
      StepSucceeds(s, pairs[0].0, pairs[0].1, h);
      var next := Step(s, pairs[0].0, pairs[0].1, h).value;
      assert forall i :: 0 <= i < |pairs[1..]| ==> pairs[1..][i] == pairs[i + 1];
      FoldSucceeds(next, pairs[1..], h);
    }
  }

  /** A number within the range of a C# `int`. */
  predicate IsInt32(x: int) {
    Int32Min <= x <= Int32Max
  }

  /** The numbers of a task that the export writes so that the import reads
      them back: crops, deblock, size and bitrate within 32 bits, and a frame
      rate or quality whose written text `parseDouble` accepts. */
  predicate NumbersReadBack(t: EncodeTask, formatDouble: real -> string, h: Helpers) {
    IsInt32(t.picture.cropping.top) && IsInt32(t.picture.cropping.bottom) &&
    IsInt32(t.picture.cropping.left) && IsInt32(t.picture.cropping.right) &&
    IsInt32(t.filters.deblock) &&
    (t.picture.width.Some? ==> IsInt32(t.picture.width.value)) &&
    (t.picture.height.Some? ==> IsInt32(t.picture.height.value)) &&
    (t.video.videoBitrate.Some? ==> IsInt32(t.video.videoBitrate.value)) &&
    (t.video.framerate.Some? ==> h.parseDouble(formatDouble(t.video.framerate.value)).Success?) &&
    (t.video.quality.Some? ==> h.parseDouble(formatDouble(t.video.quality.value)).Success?)
  }

  /** `int?.ToString()` of a number within 32 bits, written as an integer
      element, reads back as an integer. */
  lemma NullableIntReadable(n: Nullable<int>, k: Key)
    requires n.Some? ==> IsInt32(n.value)
    ensures ParseInt32(AddEncodeElement(k, IntegerElement, NullableIntText(n)).value).Success?
  {
    if n.Some? {
      ParseIntToString(n.value);
    } else {
      ParseIntToString(0);
    }
  }

  /** Each element written for a task whose numbers read back is readable:
      only the integer keys and the bitrate, frame rate and quality need
      their values. */
  lemma WrittenReadable(p: Preset, build: int, formatDouble: real -> string, detelecineCustom: string, h: Helpers, k: Key)
    requires k != Video(VideoFramerateMode)
    requires NumbersReadBack(p.task, formatDouble, h)
    ensures Readable(k, WrittenEntry(p, build, formatDouble, detelecineCustom, k).value, h)
  {
    var t := p.task;
    var value := WrittenEntry(p, build, formatDouble, detelecineCustom, k).value;
    if k == Picture(PictureTopCrop) {
      assert value == IntToString(t.picture.cropping.top);
      ParseIntToString(t.picture.cropping.top);
    } else if k == Picture(PictureBottomCrop) {
      assert value == IntToString(t.picture.cropping.bottom);
      ParseIntToString(t.picture.cropping.bottom);
    } else if k == Picture(PictureLeftCrop) {
      assert value == IntToString(t.picture.cropping.left);
      ParseIntToString(t.picture.cropping.left);
    } else if k == Picture(PictureRightCrop) {
      assert value == IntToString(t.picture.cropping.right);
      ParseIntToString(t.picture.cropping.right);
    } else if k == Picture(PictureWidth) {
      assert value == AddEncodeElement(k, IntegerElement, NullableIntText(t.picture.width)).value;
      NullableIntReadable(t.picture.width, k);
    } else if k == Picture(PictureHeight) {
      assert value == AddEncodeElement(k, IntegerElement, NullableIntText(t.picture.height)).value;
      NullableIntReadable(t.picture.height, k);
    } else if k == Filter(PictureDeblock) {
      assert value == IntToString(t.filters.deblock);
      ParseIntToString(t.filters.deblock);
    } else if k == Video(VideoAvgBitrate) {
      assert value == NullableIntText(t.video.videoBitrate);
      if t.video.videoBitrate.Some? {
        ParseIntToString(t.video.videoBitrate.value);
      }
    } else if k == Video(VideoFramerate) {
      assert value == NullableRealText(t.video.framerate, formatDouble);
    } else if k == Video(VideoQualitySlider) {
      assert value == NullableRealText(t.video.quality, formatDouble);
    }
  }

  /** A preset whose numbers read back re-imports without error, whatever
      text the custom detelecine element carries. */
  lemma ReimportSucceeds(p: Preset, build: int, formatDouble: real -> string, detelecineCustom: string,
                         blank: Preset, h: Helpers)
    requires NumbersReadBack(p.task, formatDouble, h)
    ensures Reimport(p, build, formatDouble, detelecineCustom, blank, h).Success?
  {
    var pairs := Written(p, build, formatDouble, detelecineCustom);
    forall i | 0 <= i < |pairs| && KeyOf(pairs[i].0).Some?
      ensures Readable(KeyOf(pairs[i].0).value, pairs[i].1, h)
    {
      WrittenKeys(p, build, formatDouble, detelecineCustom, i);
      var k := KeyAt(i);
      if k != Video(VideoFramerateMode) {
        PositionKeyAt(k);
        WrittenReadable(p, build, formatDouble, detelecineCustom, h, k);
      }
    }
    FoldSucceeds(Start(blank), pairs, h);
  }

  /** As the source writes it, a custom detelecine setting does not survive
      an export and re-import: the detelecine text read back is the custom
      decomb text, so whenever the two differ the preset's own detelecine
      text is lost. */
  lemma DetelecineCustomAsWritten(p: Preset, build: int, formatDouble: real -> string, blank: Preset, h: Helpers)
    requires p.task.filters.detelecine == Detelecine.Custom
    requires p.task.filters.customDecomb != "" && p.task.filters.customDecomb != p.task.filters.customDetelecine
    ensures var r := Import(blank, h, ExportPairs(EncodeSettingsAsWritten(p, build, formatDouble)));
            r.Success? ==> r.value.task.filters.customDetelecine == p.task.filters.customDecomb != p.task.filters.customDetelecine
  {
    ReimportCustomDetelecine(p, build, formatDouble, p.task.filters.customDecomb, blank, h);
  }

  /** When the preset's numbers read back, the as-written re-import
      succeeds, and it replaces the detelecine text with the decomb text. */
  lemma DetelecineCustomLost(p: Preset, build: int, formatDouble: real -> string, blank: Preset, h: Helpers)
    requires p.task.filters.detelecine == Detelecine.Custom
    requires p.task.filters.customDecomb != "" && p.task.filters.customDecomb != p.task.filters.customDetelecine
    requires NumbersReadBack(p.task, formatDouble, h)
    ensures var r := Import(blank, h, ExportPairs(EncodeSettingsAsWritten(p, build, formatDouble)));
            r.Success? && r.value.task.filters.customDetelecine == p.task.filters.customDecomb != p.task.filters.customDetelecine
  {
    ReimportSucceeds(p, build, formatDouble, p.task.filters.customDecomb, blank, h);
    DetelecineCustomAsWritten(p, build, formatDouble, blank, h);
  }

  /** A preset with every number unset or zero, custom decomb text "a" and
      custom detelecine text "b". */
  function DetelecineExample(): (p: Preset)
    ensures p.task.filters.detelecine == Detelecine.Custom
  {
    var task := EncodeTask(
      TaskOutput(OutputFormat.Mp4, false, false, false),
      TaskPicture(false, Cropping(0, 0, 0, 0), Null, Null, Null, Null, false, Anamorphic.None, Null),
      TaskFilters(0, Decomb.Off, "a", Deinterlace.Off, "", Denoise.Off, "", Detelecine.Custom, "b"),
      TaskVideo(Null, Null, FramerateMode.VFR, false, Null, VideoEncodeRateType.ConstantQuality, false, false),
      false, "", Passthru(Null, Null, Null, Null, Null));
    Preset("", "", "", task, PresetPictureSettingsMode.None, false)
  }

  /** Exported as written and read back, that preset comes back with
      detelecine text "a" in place of "b", whatever the build, number
      formatting, blank preset and helpers. */
  lemma DetelecineExampleLost(build: int, formatDouble: real -> string, blank: Preset, h: Helpers)
    ensures var r := Import(blank, h, ExportPairs(EncodeSettingsAsWritten(DetelecineExample(), build, formatDouble)));
            r.Success? && r.value.task.filters.customDetelecine == "a"
  {
    DetelecineCustomLost(DetelecineExample(), build, formatDouble, blank, h);
  }

  /** With the custom detelecine element carrying the detelecine text, a
      custom detelecine setting survives an export and re-import. */
  lemma DetelecineCustomRoundTrip(p: Preset, build: int, formatDouble: real -> string, blank: Preset, h: Helpers)
    requires p.task.filters.detelecine == Detelecine.Custom && p.task.filters.customDetelecine != ""
    ensures var r := Import(blank, h, ExportPairs(EncodeSettings(p, build, formatDouble)));
            r.Success? ==> r.value.task.filters.customDetelecine == p.task.filters.customDetelecine
  {
    ReimportCustomDetelecine(p, build, formatDouble, p.task.filters.customDetelecine, blank, h);
  }

  /** With the detelecine text written, a preset whose numbers read back
      re-imports without error and keeps its custom detelecine text. */
  lemma DetelecineCustomKept(p: Preset, build: int, formatDouble: real -> string, blank: Preset, h: Helpers)
    requires p.task.filters.detelecine == Detelecine.Custom && p.task.filters.customDetelecine != ""
    requires NumbersReadBack(p.task, formatDouble, h)
    ensures var r := Import(blank, h, ExportPairs(EncodeSettings(p, build, formatDouble)));
            r.Success? && r.value.task.filters.customDetelecine == p.task.filters.customDetelecine
  {
    ReimportSucceeds(p, build, formatDouble, p.task.filters.customDetelecine, blank, h);
    DetelecineCustomRoundTrip(p, build, formatDouble, blank, h);
  }
}

=== FILE: wrappers.dfy ===
/** Failure-compatible wrappers used throughout the model.
    - Nullable<T> stands for a C# `T?` (or a reference that may be null).
    - Result<T, E> stands for a computation that may throw. */
module Wrappers {

  /** A C# nullable value: `Null` is the absent value, `Some(v)` a present one. */
  datatype Nullable<+T> = Null | Some(value: T) {

    /** The value, or `default` when absent (C#'s `x ?? default`). */
    function GetOr(default: T): T {
      match this
      case Some(v) => v
      case Null => default
    }
  }

  /** The outcome of a computation that either succeeds or raises an exception. */
  datatype Result<+T, +E> = Success(value: T) | Failure(error: E) {

    predicate IsFailure() {
      Failure?
    }

    function PropagateFailure<U>(): Result<U, E>
      requires Failure?
    {
      Failure(error)
    }

    function Extract(): T
      requires Success?
    {
      value
    }
  }
}
